=== FILE: README.md ===
# fluidsintransit — a Dafny model of the fluid solvers and the vehicle-record transforms

fluidsintransit draws the San Francisco transit fleet as a 2D fluid: every
vehicle injects density and velocity into a stable-fluids solver. This
project models the algorithmic core of that system and proves what it
promises.

- **The CPU solver** (`frontend/fluids/simulation_cpu.js`). `SimulationCpu` is
  a class over six `array<real>` buffers. Source injection, semi-Lagrangian
  advection, the in-place relaxation solver (20 sweeps, Gauss-Seidel order as
  written), projection and `reset` are methods with loops. Each method is
  proved to leave its buffers equal to a pure function of their old contents
  (module `Fields`). Index arithmetic lives in module `Grid`.
- **The two GPU solvers** (`simulation_frag.js`, class `SimulationFrag`, and
  `simulation.js`, class `SimulationApp`). The shaders are not visible, so
  each render pass is recorded only by its pipeline name, target layer and
  bound input layers (module `Passes`). Each class keeps its out indices and
  the device queue, the commands in the order the GPU runs them. Its methods
  append to the queue and flip the indices, in loops as the source does. The
  proofs cover:
  - every out index is 0 or 1;
  - no pass binds a layer it writes;
  - the parity of each step;
  - which relaxation uniform every pass runs with;
  - that the out index names the layer holding the newest result (module
    `Diffusion` holds the (a, c) coefficients of each solver).
- **The map view** (`frontend/app.js`): the projection of longitude and
  latitude onto the canvas, and the classification of a vehicle by route id
  (module `App`).
- **The backend** (`backend/src/services/fetcher.py`,
  `backend/src/api/history.py`):
  - building records from a feed message;
  - keying records by vehicle id;
  - apparent velocities, set in place on the current records;
  - grouping a batch's records by fetch time (modules `Models`, `Fetcher`,
    `History`).

Float32 arithmetic is modelled with `real`. `Math.sqrt(M * N)` is a
constant `sqrtMN` characterised by `sqrtMN > 0` and `sqrtMN * sqrtMN == M * N`.
The settings are assumed valid:
- at least one interior cell;
- `dt >= 0`;
- positive viscosity, diffusivity and dissipation, so every relaxation
  divisor is at least 1.

The relaxation of `#jacobi` reads cells already updated in the same sweep.
It is therefore modelled as the in-place (Gauss-Seidel) sweep it is, not as
a double-buffered Jacobi iteration.

## Model

| member | source | states |
|---|---|---|
| Grid.Idx | frontend/fluids/simulation_cpu.js:97-99 | defines `#idx`: cell (x, y) of a scalar field sits at x plus the start of row y |
| Grid.Idx2 | frontend/fluids/simulation_cpu.js:100-102 | defines `#idx2`: the first component of cell (x, y) of a vector field sits at twice `#idx` |
| Grid.Clamp | frontend/fluids/simulation_cpu.js:103-105 | the result is at most `high`; it is at least `low` when `low <= high`; it is `x` when `x` is inside [low, high], `low` below and `high` above |
| Grid.RowStartIsProduct | frontend/fluids/simulation_cpu.js:97-99 | the scalar index of (0, y) is (M+2)·y: `#idx` is the row-major layout x + (M+2)·y |
| Grid.IdxInRange | frontend/fluids/simulation_cpu.js:97-102 | for every cell of the (M+2)×(N+2) grid, the scalar index is below (M+2)(N+2) and the second vector component `idx2 + 1` is below 2(M+2)(N+2), so every stencil read from an interior cell is in bounds |
| Grid.Layout.At | frontend/fluids/simulation_cpu.js:109-113 | the `idx` closure of `#advect`/`#jacobi` (scalar or interleaved vector, plus offset) lands inside the buffer for every cell, border included |
| Grid.AtDecodes | frontend/fluids/simulation_cpu.js:97-102 | the entry of cell (x, y) decodes back to (x, y), and it is an interior entry exactly when 1 ≤ x ≤ M and 1 ≤ y ≤ N |
| Grid.InteriorEncodes | frontend/fluids/simulation_cpu.js:97-102 | every interior entry of a component is the entry of the cell it decodes to |
| Grid.InteriorEncodesAll | frontend/fluids/simulation_cpu.js:97-102 | the same for all entries at once |
| Grid.AtInjective | frontend/fluids/simulation_cpu.js:97-102 | two cells that share an entry are the same cell |
| Grid.AtDistinct | frontend/fluids/simulation_cpu.js:97-102 | distinct cells have distinct entries |
| Fields.Zeros | frontend/fluids/simulation_cpu.js:186-188 | a new buffer of the given length is all zero, as a new Float32Array is |
| Fields.FillFrame | frontend/fluids/simulation_cpu.js:114-127 | a cell-wise pass over one component keeps the buffer size, writes the cell's value at every interior cell (i, j), and leaves the border ring and the other interleaved component unchanged |
| Fields.FloorOfClamped | frontend/fluids/simulation_cpu.js:118-123 | a coordinate clamped to [0.5, size+0.5] has its floor in [0, size] and its weight `1 - (x - floor)` in (0, 1] |
| Fields.DepartureCoordinate | frontend/fluids/simulation_cpu.js:116-119 | the departure coordinate is inside [0.5, size+0.5], and at zero velocity it is the cell's own coordinate |
| Fields.FloorOfDeparture | frontend/fluids/simulation_cpu.js:116-123 | the sample cell and weight of a departure coordinate are in range; at rest they are the cell itself with full weight |
| Fields.Backtrace | frontend/fluids/simulation_cpu.js:116-123 | i0 ∈ [0, M], j0 ∈ [0, N] and s0, t0 ∈ (0, 1], so all four samples i0..i0+1 × j0..j0+1 are inside the grid; at zero velocity the trace is (i, j) with full weights |
| Fields.BilerpFullWeight | frontend/fluids/simulation_cpu.js:124-126 | with both weights 1 bilinear interpolation returns the lower-left sample |
| Fields.Bilerp | frontend/fluids/simulation_cpu.js:124-126 | defines the bilinear interpolation of `#advect`: weight s0 on the left samples, t0 on the lower ones |
| Fields.BilerpBetween | frontend/fluids/simulation_cpu.js:124-126 | a bilinear interpolation with weights in [0, 1] lies between the smallest and the largest of its four samples |
| Fields.AdvectAtBetween | frontend/fluids/simulation_cpu.js:116-126 | every advected value lies between the minimum and the maximum of the four samples around its departure point |
| Fields.AdvectAtRest | frontend/fluids/simulation_cpu.js:116-126 | where the velocity at (i, j) is zero, the advected value is `w0` at (i, j) |
| Fields.AdvectAt | frontend/fluids/simulation_cpu.js:116-126 | defines the value `#advect` writes at an interior cell: trace back, clamp, sample bilinearly from `w0` |
| Fields.Advected | frontend/fluids/simulation_cpu.js:107-129 | defines the buffer after `#advect`: every interior entry of the component resampled, every other entry kept |
| Fields.AdvectField | frontend/fluids/simulation_cpu.js:114-128 | defines the value the loops of `#advect` write at each cell: `AdvectAt` inside, nothing outside |
| Fields.AdvectedFrame | frontend/fluids/simulation_cpu.js:107-129 | advection keeps the buffer size and changes no entry outside the interior of its component: the border and the other component are unchanged |
| Fields.AdvectedCell | frontend/fluids/simulation_cpu.js:114-127 | advection writes the resampled value at every interior cell of its component |
| Fields.AdvectAtZero | frontend/fluids/simulation_cpu.js:116-126 | resampling an all-zero field gives zero whatever the velocity |
| Fields.AdvectedZero | frontend/fluids/simulation_cpu.js:107-129 | advecting a zero field into a zero buffer leaves it zero |
| Fields.Stencil | frontend/fluids/simulation_cpu.js:148 | defines the relaxation formula: (w0 at the cell + a·(sum of the four neighbours)) / c |
| Fields.RelaxAt | frontend/fluids/simulation_cpu.js:143-148 | defines the value `#jacobi` writes at (i, j): the stencil over w0 at the cell and the current w at its four neighbours |
| Fields.UpdateCell | frontend/fluids/simulation_cpu.js:148 | defines one in-place write of `#jacobi`: entry (i, j) set to `RelaxAt`, every other entry kept |
| Fields.SweepLine | frontend/fluids/simulation_cpu.js:142-149 | defines the inner j loop: cells (i, 1) .. (i, j − 1) updated in order, each reading the current buffer |
| Fields.SweepRows | frontend/fluids/simulation_cpu.js:141-150 | defines the i loop of one sweep: rows 1 .. i − 1 done in order |
| Fields.Relaxed | frontend/fluids/simulation_cpu.js:133-152 | defines the buffer after a number of in-place sweeps of `#jacobi`, each row by row and cell by cell in the loop order; its length is kept |
| Fields.SweepLineFrame | frontend/fluids/simulation_cpu.js:142-149 | one row of a sweep changes no entry outside the interior of its component |
| Fields.SweepRowsFrame | frontend/fluids/simulation_cpu.js:141-150 | one sweep changes no entry outside the interior of its component |
| Fields.RelaxedFrame | frontend/fluids/simulation_cpu.js:133-152 | any number of relaxation sweeps leaves the border ring and the other component unchanged |
| Fields.RelaxAtWithoutDiffusion | frontend/fluids/simulation_cpu.js:143-148 | with a = 0 and c = 1, one cell update copies the anchor `w0` into that cell |
| Fields.SweepLineCopies | frontend/fluids/simulation_cpu.js:142-149 | with a = 0 and c = 1, a row in progress holds `w0` at the cells it has visited and the old value elsewhere |
| Fields.SweepRowsCopies | frontend/fluids/simulation_cpu.js:141-150 | with a = 0 and c = 1, the rows done so far hold `w0` and the rest are untouched |
| Fields.RelaxedWithoutDiffusion | frontend/fluids/simulation_cpu.js:140-150 | with a = 0 and c = 1, at least one sweep makes every interior entry of the component equal to `w0` there and keeps every other entry |
| Fields.SweepLineZero | frontend/fluids/simulation_cpu.js:142-149 | a row of a sweep over a zero guess against a zero right-hand side stays zero |
| Fields.SweepRowsZero | frontend/fluids/simulation_cpu.js:141-150 | one sweep over zero buffers stays zero |
| Fields.RelaxedZero | frontend/fluids/simulation_cpu.js:133-152 | relaxing a zero guess against a zero right-hand side stays zero, whatever a and c |
| Fields.ComponentsApart | frontend/fluids/simulation_cpu.js:178-179 | the u and v entries of a cell are `2·idx` and `2·idx + 1`, each outside the other component |
| Fields.SubtractedUpToReads | frontend/fluids/simulation_cpu.js:171-181 | when the subtraction loop reaches cell (i, j), both of its entries still hold the velocity the loop started from |
| Fields.DivergenceAt | frontend/fluids/simulation_cpu.js:158-162 | defines the value written into div at (i, j): −½(uRight − uLeft + vUp − vDown) / sqrt(M·N) |
| Fields.Divergence | frontend/fluids/simulation_cpu.js:156-164 | defines `div` after the divergence loop: every interior entry set from the velocity, the border kept |
| Fields.SubtractXAt | frontend/fluids/simulation_cpu.js:178 | defines the new u at (x, y): u − (M/2)·(pRight − pLeft) |
| Fields.SubtractYAt | frontend/fluids/simulation_cpu.js:179 | defines the new v at (x, y): v − (N/2)·(pUp − pDown) |
| Fields.Subtracted | frontend/fluids/simulation_cpu.js:171-181 | defines the velocity after the gradient-subtraction loop: both components of every interior cell updated from the pressure, the rest kept |
| Fields.Pressure | frontend/fluids/simulation_cpu.js:166-168 | defines the pressure: a zero-filled buffer relaxed with (a, c) = (1, 4) against div for `RelaxSweeps` = 20 sweeps, the `#jacobi` iteration count |
| Fields.Project | frontend/fluids/simulation_cpu.js:153-182 | defines the three buffers after `#project`: divergence, p zero-filled and relaxed with (1, 4) against div, gradient subtracted |
| Fields.DivergenceFrame | frontend/fluids/simulation_cpu.js:156-164 | the divergence loop keeps the size of `div` and changes only its interior entries |
| Fields.DivergenceCell | frontend/fluids/simulation_cpu.js:156-164 | the divergence loop writes −½(u[i+1]−u[i−1] + v[j+1]−v[j−1]) / sqrt(MN) at every interior cell |
| Fields.DivergenceAtRest | frontend/fluids/simulation_cpu.js:162 | a velocity field at rest has zero divergence |
| Fields.DivergenceZero | frontend/fluids/simulation_cpu.js:156-164 | zero velocity and a zero `div` buffer give a zero `div` buffer |
| Fields.SubtractedFrame | frontend/fluids/simulation_cpu.js:171-181 | gradient subtraction keeps the buffer size and changes only interior velocity entries |
| Fields.SubtractedAt | frontend/fluids/simulation_cpu.js:173-180 | gradient subtraction sets u to u − M/2·(p[i+1,j] − p[i−1,j]) and v to v − N/2·(p[i,j+1] − p[i,j−1]) at every interior cell |
| Fields.SubtractedAtRest | frontend/fluids/simulation_cpu.js:173-180 | zero velocity and zero pressure give zero u and v at each interior cell |
| Fields.SubtractedZero | frontend/fluids/simulation_cpu.js:171-181 | a zero velocity minus the gradient of a zero pressure is zero |
| Fields.ProjectFrame | frontend/fluids/simulation_cpu.js:153-182 | projection keeps every buffer's size, changes only interior velocity entries and leaves the border of the zero-filled pressure buffer at zero |
| Fields.ProjectZero | frontend/fluids/simulation_cpu.js:153-182 | projecting an all-zero velocity with a zero divergence buffer leaves velocity, divergence and pressure all zero |
| Diffusion.VelocityCoefficients | frontend/fluids/simulation_cpu.js:47-48 | every solver's velocity coefficients: a = dt·viscosity·M·N ≥ 0 and c = 1 + 4a ≥ 1 |
| Diffusion.CpuDensityCoefficients | frontend/fluids/simulation_cpu.js:71-72 | the CPU density coefficients: a = dt·dissipation·diffusivity·M·N and c = 1 + 4a |
| Diffusion.FragDensityCoefficients | frontend/fluids/simulation_frag.js:120-121 | `SimulationFrag`'s density coefficients: the same a as the CPU solver, but c = 1 + 4a/dissipation = 1 + 4·dt·diffusivity·M·N |
| Diffusion.AppDensityCoefficients | frontend/fluids/simulation.js:106-107 | `SimulationApp`'s density coefficients: a = dt·diffusivity·M·N (no dissipation) and c = 1 + 4a |
| Diffusion.GpuDensityVariants | frontend/fluids/simulation_frag.js:120-121 | the two GPU solvers share the density divisor c, and the fragment solver's neighbour weight is `SimulationApp`'s times the dissipation |
| Diffusion.FragDensityBalanced | frontend/fluids/simulation_frag.js:120-121 | the fragment solver's density c equals 1 + 4a exactly when dt = 0 or dissipation = 1; the CPU solver has the same a and the same c exactly then |
| CpuSolver.VelocityStepped | frontend/fluids/simulation_cpu.js:43-53 | defines the velocity and scratch buffers after `velocityStep`: both components advected from slot 0 into slot 1, relaxed back into slot 0 with the velocity coefficients, then projected |
| CpuSolver.DensityStepped | frontend/fluids/simulation_cpu.js:68-73 | defines the density buffers after `densityStep`: slot 0 advected into slot 1, then relaxed back into slot 0 with the CPU density coefficients |
| CpuSolver.VelocityStepKeepsZero | frontend/fluids/simulation_cpu.js:43-53 | from all-zero velocity and scratch buffers, a velocity step leaves all four buffers zero |
| CpuSolver.DensityStepKeepsZero | frontend/fluids/simulation_cpu.js:68-73 | from all-zero density buffers, a density step leaves both zero whatever the velocity |
| CpuSolver.FillZero | frontend/fluids/simulation_cpu.js:20-28 | `fill(0)` makes every entry of the array zero |
| CpuSolver.SimulationCpu.constructor | frontend/fluids/simulation_cpu.js:184-209 | six fresh, distinct buffers of the sizes of `#initSimulation`, all zero |
| CpuSolver.SimulationCpu.Reset | frontend/fluids/simulation_cpu.js:19-29 | all six arrays are zero afterwards |
| CpuSolver.SimulationCpu.AddVelocitySource | frontend/fluids/simulation_cpu.js:31-35 | every entry of velocity slot 0 grows by src[k]·dt, and slot 1 is untouched |
| CpuSolver.SimulationCpu.AddDensitySource | frontend/fluids/simulation_cpu.js:37-41 | every entry of density slot 0 grows by src[k]·dt, and slot 1 is untouched |
| CpuSolver.SimulationCpu.Advect | frontend/fluids/simulation_cpu.js:107-129 | the buffer afterwards is `Advected` of its old contents: resampled interior, border and other component kept |
| CpuSolver.SimulationCpu.AdvectRow | frontend/fluids/simulation_cpu.js:114-128 | one column of the advection loop moves the buffer from the state before column i to the state before column i+1 |
| CpuSolver.SimulationCpu.AdvectCell | frontend/fluids/simulation_cpu.js:116-126 | one statement of the inner loop writes the resampled value at cell (i, j) and nothing else |
| CpuSolver.SimulationCpu.Jacobi | frontend/fluids/simulation_cpu.js:133-152 | the buffer afterwards is 20 in-place sweeps of its old contents against `w0` |
| CpuSolver.SimulationCpu.Sweep | frontend/fluids/simulation_cpu.js:141-150 | one sweep updates rows 1..M in turn |
| CpuSolver.SimulationCpu.SweepRow | frontend/fluids/simulation_cpu.js:142-149 | one row updates cells (i, 1)..(i, N) in turn, each reading its neighbours as they are at that moment |
| CpuSolver.SimulationCpu.RelaxCell | frontend/fluids/simulation_cpu.js:143-148 | one stencil update (x0 + a·(four neighbours)) / c at cell (i, j) and nothing else |
| CpuSolver.SimulationCpu.Diffuse | frontend/fluids/simulation_cpu.js:130-132 | diffusion is the relaxation solver: the result is the 20-sweep relaxation of the old contents |
| CpuSolver.SimulationCpu.ComputeDivergence | frontend/fluids/simulation_cpu.js:155-164 | `div` afterwards is `Divergence` of its old contents and the velocity |
| CpuSolver.SimulationCpu.DivergenceRow | frontend/fluids/simulation_cpu.js:157-163 | one column of the divergence loop |
| CpuSolver.SimulationCpu.SubtractGradient | frontend/fluids/simulation_cpu.js:171-181 | the velocity afterwards is `Subtracted` of its old contents and the pressure |
| CpuSolver.SimulationCpu.SubtractRow | frontend/fluids/simulation_cpu.js:172-180 | one column of the subtraction loop |
| CpuSolver.SimulationCpu.SubtractCell | frontend/fluids/simulation_cpu.js:173-180 | u of cell (i, j) from the pressure across x, then v from the pressure across y; nothing else changes |
| CpuSolver.SimulationCpu.ProjectVelocity | frontend/fluids/simulation_cpu.js:153-182 | velocity, divergence and pressure afterwards are those of `Project`: divergence, p zero-filled, relaxed with (1, 4), gradient subtracted |
| CpuSolver.SimulationCpu.VelocityStep | frontend/fluids/simulation_cpu.js:43-53 | velocity and scratch buffers afterwards are `VelocityStepped` of their old contents (advect both components, diffuse both, project); density untouched |
| CpuSolver.SimulationCpu.DensityStep | frontend/fluids/simulation_cpu.js:68-73 | density buffers afterwards are `DensityStepped` (advect, then diffuse with the CPU coefficients); velocity and scratch untouched |
| Passes.Sound | frontend/fluids/simulation_frag.js:126-131 | defines a well-formed command: every layer it names is one of the three, and a render pass binds no input that is its own target (here `1 - densityOutIdx` is written while `densityOutIdx` and 2 are bound) |
| Passes.AllSound | frontend/fluids/simulation_frag.js:98-147 | defines a well-formed queue: every command in it is well formed |
| Passes.Flipped | frontend/fluids/simulation_frag.js:197-208 | defines the out index after k passes of a loop that ends each pass with `out = 1 - out` |
| Passes.UniformIn | frontend/fluids/simulation.js:201-226 | defines the (a, c) uniform a pass runs with: the last `writeBuffer` issued before it in GPU order, since each `writeBuffer` takes effect before the command buffer submitted after it |
| Passes.Newest | frontend/fluids/simulation_frag.js:124-135 | defines which layer holds a quantity's newest result after a run of commands: a render pass into the quantity makes its target the newest, a clear or an upload over that layer leaves none |
| Passes.SourceQueue | frontend/fluids/simulation_frag.js:37-64 | defines the commands of source injection: the upload into layer 2, then one pass rendering layer 1 − out from layers out and 2 |
| Passes.AdvectDensityPass | frontend/fluids/simulation_frag.js:102-109 | defines density advection: render with `advect` into density layer 2, binding density layer d and velocity layer v |
| Passes.DensityQueue | frontend/fluids/simulation_frag.js:96-148 | defines the commands of `densityStep`: the coefficient write, advection into density layer 2, then the relaxation ping-pong |
| Passes.AdvectVelocityPass | frontend/fluids/simulation_frag.js:174-181 | defines velocity self-advection: render with `advectVec2` into velocity layer 2, binding velocity layer v twice |
| Passes.DiffusionPasses | frontend/fluids/simulation_frag.js:174-207 | defines velocity advection into layer 2 followed by the diffusion ping-pong |
| Passes.DivergencePass | frontend/fluids/simulation_frag.js:227-234 | defines the divergence pass: render into scratch layer 2, binding velocity layer v and scratch layer 0 |
| Passes.SubtractPass | frontend/fluids/simulation_frag.js:253-260 | defines gradient subtraction: render with `advectVec2` into velocity layer 1 − v, binding velocity layer v and the pressure layer p (`scratch[sIn]`) |
| Passes.ProjectionPasses | frontend/fluids/simulation_frag.js:227-258 | defines divergence into scratch layer 2, the pressure ping-pong from scratch layer 0, then gradient subtraction from the last pressure layer |
| Passes.VelocityPasses | frontend/fluids/simulation_frag.js:193-258 | defines a velocity step with each coefficient write before the passes that use it: velocity coefficients, diffusion, pressure coefficients, projection |
| Passes.FlippedParity | frontend/fluids/simulation_frag.js:124-135 | after k flips an out index is back where it started if k is even and inverted if k is odd |
| Passes.NewestInBounds | frontend/fluids/simulation_frag.js:96-264 | in a sound queue, the layer holding a quantity's newest result, when there is one, is 0, 1 or 2 |
| Passes.NewestUntouched | frontend/fluids/simulation_frag.js:96-148 | commands that write no layer of a quantity leave its newest result where it was |
| Passes.WithUniform | frontend/fluids/simulation_frag.js:121-123 | defines a `writeBuffer` of the (a, c) uniform issued ahead of the passes submitted after it; the write keeps a queue well formed and leaves every quantity as untouched as the passes do |
| Passes.WithUniformEffect | frontend/fluids/simulation_frag.js:123 | a `writeBuffer` of the uniform binds and writes no layer |
| Passes.WithUniformAt | frontend/fluids/simulation_frag.js:123-134 | every pass after a uniform write, with no uniform write between, runs with that uniform |
| Passes.SweepPass | frontend/fluids/simulation_frag.js:126-135 | defines one `jacobi`/`jacobiVec2` pass: render into layer 1 − out, binding layer 2 as the fixed right-hand side and layer out as the current guess |
| Passes.Sweeps | frontend/fluids/simulation_frag.js:124-135 | k relaxation passes make a queue of length k |
| Passes.SweepsAt | frontend/fluids/simulation_frag.js:124-135 | pass i of the ping-pong writes layer 1 − out' from layers 2 and out', where out' is the index after i flips |
| Passes.SweepsSound | frontend/fluids/simulation_frag.js:126-131 | no relaxation pass binds the layer it writes; none writes a uniform or another quantity |
| Passes.SweepsPrefix | frontend/fluids/simulation_frag.js:124-135 | the first i of k passes are the ping-pong of i passes |
| Passes.SweepsNewest | frontend/fluids/simulation_frag.js:124-135 | after k > 0 passes the newest result is in layer Flipped(out, k) |
| Passes.SweepsReadNewest | frontend/fluids/simulation_frag.js:124-135 | each pass binds as its guess the layer the previous pass wrote (the newest result), and never writes the fixed layer 2 it binds |
| Passes.SourceQueueNewest | frontend/fluids/simulation_frag.js:37-64 | injection writes the source to layer 2, renders layer 1 − out from layers out and 2, leaves the newest result in 1 − out and touches no other quantity |
| Passes.DensityQueueProperties | frontend/fluids/simulation_frag.js:96-148 | a density step binds no layer it writes, leaves the newest density in Flipped(d, count) and writes no velocity or scratch |
| Passes.DensityQueueUniform | frontend/fluids/simulation_frag.js:123-134 | each relaxation pass of a density step runs with the coefficients that step wrote |
| Passes.SourceQueueAppend | frontend/fluids/simulation_frag.js:37-64 | after any sound queue, injection moves the newest result to layer 1 − out and leaves the other quantities where they were |
| Passes.DensityQueueAppend | frontend/fluids/simulation_frag.js:96-148 | after any sound queue, a density step moves the newest density to Flipped(d, count) and keeps the velocity where it was |
| Passes.DiffusionPassesProperties | frontend/fluids/simulation_frag.js:174-208 | advection and diffusion bind no layer they write, write no uniform or density, and leave the newest velocity in Flipped(v, count) |
| Passes.ProjectionPassesProperties | frontend/fluids/simulation_frag.js:227-261 | projection binds no layer it writes, writes no uniform or density, and leaves the newest velocity in 1 − v |
| Passes.ProjectionPassesBody | frontend/fluids/simulation_frag.js:239-258 | before gradient subtraction, the newest pressure is the layer the last pressure pass wrote, and the velocity is as projection found it |
| Passes.VelocityPassesEffect | frontend/fluids/simulation_frag.js:150-263 | a velocity step is sound, writes no density, and leaves the newest velocity in 1 − Flipped(v, count) |
| Passes.VelocityPassesDiffusionUniform | frontend/fluids/simulation_frag.js:193-207 | every diffusion pass runs with the velocity coefficients |
| Passes.VelocityPassesPressureUniform | frontend/fluids/simulation_frag.js:237-250 | every pressure pass runs with (1, 4) |
| Passes.VelocityPassesDivergence | frontend/fluids/simulation_frag.js:227-232 | the divergence pass binds the newest velocity, the diffused one |
| Passes.VelocityPassesSubtraction | frontend/fluids/simulation_frag.js:253-258 | gradient subtraction, the last pass, binds the newest velocity |
| Passes.VelocityPassesPressureRead | frontend/fluids/simulation_frag.js:239-258 | gradient subtraction binds the newest pressure, the layer the last pressure pass wrote |
| FragSolver.LayerClears | frontend/fluids/simulation_frag.js:27-30 | defines the empty render passes over one texture array's three descriptors, layer 0 first |
| FragSolver.ClearPasses | frontend/fluids/simulation_frag.js:26-31 | defines the empty render passes over several texture arrays, one array after another |
| FragSolver.ResetQueue | frontend/fluids/simulation_frag.js:24-32 | defines the commands of `reset`: an empty render pass, clearing its layer, for every layer of every texture array in `DescriptorOrder` (velocity, density, scratch), the order in which the descriptor arrays are created at simulation_frag.js:526-544 and which `Object.values` walks |
| FragSolver.VelocityQueue | frontend/fluids/simulation_frag.js:150-263 | defines the commands of `velocityStep`: scratch zeroed, then `VelocityPasses` with this solver's velocity coefficients |
| FragSolver.Tracks | frontend/fluids/simulation_frag.js:266-272 | defines the state the solver keeps: both out indices are 0 or 1, the queue is well formed, and the layers the getters return hold the newest density and velocity |
| FragSolver.DiffusionQueue | frontend/fluids/simulation_frag.js:152-220 | defines the first submission of `velocityStep`: scratch zeroed, the velocity coefficients written, advection and the diffusion ping-pong |
| FragSolver.ProjectionQueue | frontend/fluids/simulation_frag.js:222-263 | defines the second submission: the pressure coefficients written, divergence, the pressure ping-pong and subtraction |
| FragSolver.SweepsRestore | frontend/fluids/simulation_frag.js:124-135 | `SweepCount` is 30, the iteration count of each frag ping-pong loop; 30 flips leave an out index where it was |
| FragSolver.LayerClearsNewest | frontend/fluids/simulation_frag.js:26-31 | clearing the three layers of a quantity leaves it no result and changes no other quantity |
| FragSolver.ResetQueueLayers | frontend/fluids/simulation_frag.js:26-32 | `reset` clears the velocity layers, then the density layers, then the scratch layers |
| FragSolver.ResetClearsEverything | frontend/fluids/simulation_frag.js:24-35 | `reset` clears every layer of every texture array and leaves no quantity a result |
| FragSolver.ZeroScratchEffect | frontend/fluids/simulation_frag.js:152-167 | proof step: the zeroing upload `ZeroScratch` (one `writeTexture` of zeros over scratch layers 0, 1 and 2), as the model defines it, is well formed and writes neither density nor velocity |
| FragSolver.ResetTracks | frontend/fluids/simulation_frag.js:24-35 | after `reset` both indices are 0 and the invariant holds |
| FragSolver.DensitySourceTracks | frontend/fluids/simulation_frag.js:37-64 | `addDensitySource` keeps the invariant once the density index flips |
| FragSolver.VelocitySourceTracks | frontend/fluids/simulation_frag.js:66-94 | `addVelocitySource` keeps the invariant once the velocity index flips |
| FragSolver.DensityStepTracks | frontend/fluids/simulation_frag.js:96-148 | `densityStep` keeps the invariant with the density index unchanged (30 flips) |
| FragSolver.VelocityQueueHalves | frontend/fluids/simulation_frag.js:150-263 | proof step: the model's two submissions concatenate to its `VelocityQueue`, the index being back at v after 30 flips |
| FragSolver.DiffusionTracks | frontend/fluids/simulation_frag.js:150-220 | the first submission keeps the invariant: after 30 flips the velocity index names the diffused velocity |
| FragSolver.ProjectionTracks | frontend/fluids/simulation_frag.js:222-263 | the second submission keeps the invariant once the index flips onto the projected velocity |
| FragSolver.VelocityStepTracks | frontend/fluids/simulation_frag.js:150-264 | `velocityStep` keeps the invariant with the velocity index inverted (31 flips) |
| FragSolver.SubtractionReadsPressure | frontend/fluids/simulation_frag.js:239-258 | after 30 swaps `sIn` is 0; gradient subtraction writes velocity 1 − v from velocity v and scratch 0, the newest pressure |
| FragSolver.SimulationFrag.constructor | frontend/fluids/simulation_frag.js:8-16 | both out indices 0, nothing queued, invariant holds |
| FragSolver.SimulationFrag.Reset | frontend/fluids/simulation_frag.js:24-35 | the clears are queued, both indices are 0, no quantity has a result, invariant kept |
| FragSolver.SimulationFrag.AddDensitySource | frontend/fluids/simulation_frag.js:37-64 | the injection passes are queued, the density index flips, the velocity index is kept, invariant kept |
| FragSolver.SimulationFrag.AddVelocitySource | frontend/fluids/simulation_frag.js:66-94 | the injection passes are queued, the velocity index flips, the density index is kept, invariant kept |
| FragSolver.SimulationFrag.DensityStep | frontend/fluids/simulation_frag.js:96-148 | the density queue with the fragment coefficients is appended; both indices end where they were; invariant kept |
| FragSolver.SimulationFrag.VelocityStep | frontend/fluids/simulation_frag.js:150-264 | the velocity queue is appended; the velocity index ends inverted and names the projected velocity; invariant kept |
| FragSolver.SimulationFrag.Diffuse | frontend/fluids/simulation_frag.js:152-220 | scratch zeroed, velocity coefficients written, advection and 30 diffusion passes queued; index back where it was |
| FragSolver.SimulationFrag.Project | frontend/fluids/simulation_frag.js:222-263 | pressure coefficients written, divergence, 30 pressure passes and subtraction queued; the velocity index flips |
| FragSolver.SimulationFrag.DensityOutputView | frontend/fluids/simulation_frag.js:266-268 | the density view is the layer the out index names, which holds the newest density |
| FragSolver.SimulationFrag.VelocityOutputView | frontend/fluids/simulation_frag.js:270-272 | the velocity view is the layer the out index names, which holds the newest velocity |
| AppSolver.Tracks | frontend/fluids/simulation.js:229-235 | defines the state the solver keeps: both out indices are 0 or 1, the queue is well formed, and the density getter returns the newest density; it says nothing about the velocity index, which the step as written leaves off the newest velocity |
| AppSolver.SweepsRestore | frontend/fluids/simulation.js:110-121 | `SweepCount` is 40, the iteration count of each app ping-pong loop; 40 flips leave an out index where it was |
| AppSolver.DensitySourceTracks | frontend/fluids/simulation.js:24-51 | `addSourceDensity` keeps the invariant once the density index flips |
| AppSolver.VelocitySourceTracks | frontend/fluids/simulation.js:53-80 | `addSourceVelocity` keeps the invariant, and the flipped velocity index names the newest velocity |
| AppSolver.DensityStepTracks | frontend/fluids/simulation.js:82-134 | `densityStep` keeps the invariant with the density index unchanged (40 flips) |
| AppSolver.Submission | frontend/fluids/simulation.js:142-226 | defines the passes of the single submission of `velocityStep`: advection and diffusion, then projection |
| AppSolver.AsWrittenVelocityQueue | frontend/fluids/simulation.js:163-226 | defines the step as written in GPU order: the velocity coefficients, the pressure coefficients, then the single submission |
| AppSolver.SubmissionProperties | frontend/fluids/simulation.js:142-224 | the single submission binds no layer it writes, writes no uniform or density, and leaves the newest velocity in 1 − v, the layer gradient subtraction wrote |
| AppSolver.AsWrittenQueueIssued | frontend/fluids/simulation.js:163-226 | the commands the step issues (two uniform writes, then the submission) are the queue `AsWrittenVelocityQueue` |
| AppSolver.AsWrittenEffect | frontend/fluids/simulation.js:136-227 | the step as written binds no layer it writes, writes no density and leaves the newest velocity in 1 − v |
| AppSolver.AsWrittenStepTracks | frontend/fluids/simulation.js:217-226 | the step as written keeps the density invariant, but the unflipped velocity index v does not name the newest velocity, which is in 1 − v |
| AppSolver.DiffusionSeesPressure | frontend/fluids/simulation.js:163-201 | every diffusion pass of the step as written runs with (1, 4), whatever coefficients were written first |
| AppSolver.PressureIsNotVelocity | frontend/fluids/simulation.js:161-163 | c = 1 + 4a rules out (1, 4): the velocity coefficients are never the pressure ones |
| AppSolver.DiffusionRunsWithPressure | frontend/fluids/simulation.js:161-226 | no diffusion pass of the step as written runs with the velocity coefficients it computed |
| AppSolver.CorrectedStepTracks | frontend/fluids/simulation.js:136-227 | the corrected step keeps the invariant and the flipped velocity index names the newest velocity |
| AppSolver.CorrectedQueueIssued | frontend/fluids/simulation.js:136-227 | the corrected step issues velocity coefficients, diffusion, pressure coefficients and projection in `SimulationFrag`'s order |
| AppSolver.SubtractionReadsPressure | frontend/fluids/simulation.js:202-224 | in the queue as written, after 40 swaps `sIn` is 0: gradient subtraction writes velocity 1 − v from velocity v and scratch 0, the newest pressure |
| AppSolver.SimulationApp.constructor | frontend/fluids/simulation.js:8-16 | both out indices 0, nothing queued, invariant holds |
| AppSolver.SimulationApp.AddSourceDensity | frontend/fluids/simulation.js:24-51 | the `addsrc` injection is queued, the density index flips, the velocity index is kept |
| AppSolver.SimulationApp.AddSourceVelocity | frontend/fluids/simulation.js:53-80 | the `addsrcVec2` injection is queued, the velocity index flips and names the newest velocity |
| AppSolver.SimulationApp.DensityStep | frontend/fluids/simulation.js:82-134 | the density queue with `SimulationApp`'s coefficients is appended; both indices end where they were |
| AppSolver.SimulationApp.EncodeDiffusion | frontend/fluids/simulation.js:142-176 | advection and the 40 diffusion passes are encoded; the index ends where it started; nothing is submitted |
| AppSolver.SimulationApp.EncodeProjection | frontend/fluids/simulation.js:190-224 | divergence, 40 pressure passes with `sIn`/`sOut` distinct bits, and subtraction into 1 − out from scratch `sIn` are encoded |
| AppSolver.SimulationApp.VelocityStep | frontend/fluids/simulation.js:136-227 | as written: both uniforms written, then one submission; the velocity index is unchanged and the newest velocity is in the other layer |
| AppSolver.SimulationApp.VelocityStepCorrected | frontend/fluids/simulation.js:136-227 | corrected: the queue is `VelocityPasses` and the velocity index flips onto the newest velocity |
| AppSolver.SimulationApp.DensityOutputView | frontend/fluids/simulation.js:229-231 | the density view is the layer the out index names, which holds the newest density |
| AppSolver.SimulationApp.VelocityOutputView | frontend/fluids/simulation.js:233-235 | the velocity view is the layer the out index names; after the step as written, that is not the newest velocity |
| Models.VehiclePosition.constructor | backend/src/db/models.py:6-27 | a new record holds the given columns and no apparent velocity |
| App.CalcX | frontend/app.js:32-34 | `calcX` lies in [0, 1] exactly when the longitude lies between the west and east borders |
| App.CalcY | frontend/app.js:35-37 | `calcY` lies in [0, 1] exactly when the latitude lies between the south and north borders |
| App.CalcXEndpoints | frontend/app.js:29-34 | calcX(WEST_BORDER) = 0 and calcX(EAST_BORDER) = 1 |
| App.CalcYEndpoints | frontend/app.js:27-37 | calcY(NORTH_BORDER) = 0 and calcY(SOUTH_BORDER) = 1 |
| App.CalcXIncreasing | frontend/app.js:32-34 | `calcX` is strictly increasing (both directions) |
| App.CalcYDecreasing | frontend/app.js:35-37 | `calcY` is strictly decreasing (both directions) |
| App.CalcXRoundTrip | frontend/app.js:32-34 | `calcX` and `Longitude` are inverse bijections |
| App.CalcYRoundTrip | frontend/app.js:35-37 | `calcY` and `Latitude` are inverse bijections |
| App.StartsUpperCase | frontend/app.js:41-43 | defines `isAlpha` on the id's first character: true exactly for a non-empty id starting with A–Z; an empty id reads `undefined`, which the regex rejects, so it is false |
| App.GetVehicleType | frontend/app.js:92-100 | Cableway exactly for the ids in `CablewayRoutes` (CA, PH, PM); Metro exactly for other ids starting with A–Z; Bus exactly for the rest |
| App.CablewayRoutesStartUpperCase | frontend/app.js:92-96 | the cable car ids start with a capital, yet are never classified Metro |
| App.NumberedRoutesAreBuses | frontend/app.js:41-43 | an id starting with a digit, or the empty id, is a Bus |
| Fetcher.HasTrip | backend/src/services/fetcher.py:36 | defines the `HasField("trip")` filter: an entity is converted exactly when its vehicle message carries a trip |
| Fetcher.RecordOf | backend/src/services/fetcher.py:40-53 | a record carries the batch id, the header timestamp, the vehicle id and the vehicle timestamp |
| Fetcher.Converted | backend/src/services/fetcher.py:33-55 | no more records than entities, each stamped with the batch id and fetch time |
| Fetcher.ConvertedAppend | backend/src/services/fetcher.py:35-54 | converting a concatenation converts each part, in order |
| Fetcher.ConvertedSingle | backend/src/services/fetcher.py:36-54 | an entity gives its record if it has a trip, and nothing otherwise |
| Fetcher.ConvertedMembers | backend/src/services/fetcher.py:35-54 | every entity with a trip gives a record, and every record comes from an entity with a trip |
| Fetcher.ConvertMsgToObjects | backend/src/services/fetcher.py:33-55 | the new records are `Converted` of the entities, in feed order, fresh and pairwise distinct objects, with no apparent velocity |
| Fetcher.ConvertListToDict | backend/src/services/fetcher.py:57-58 | the keys are exactly the vehicle ids present, and each key maps to a record of the list with that id |
| Fetcher.LaterDuplicatesWin | backend/src/services/fetcher.py:57-58 | of several records with one id, the last one is kept |
| Fetcher.ApparentVelocity | backend/src/services/fetcher.py:64-67 | there is a velocity exactly when the current timestamp is strictly later; the current position plus velocity·dt is the previous position |
| Fetcher.CalcApparentVelocity | backend/src/services/fetcher.py:60-67 | current records matched by a previous record fetched strictly earlier get the apparent velocity; all others, and all previous records, are unchanged |
| History.Group | backend/src/api/history.py:18-21 | a group holds only records of its fetch time, and no more than the input |
| History.FirstOccurrences | backend/src/api/history.py:17-21 | the keys are exactly the fetch times present |
| History.GroupByFetchTime | backend/src/api/history.py:17-21 | the dictionary's keys are the fetch times present, each group is `Group` of its time, and keys are inserted in first-occurrence order |
| History.GroupAppend | backend/src/api/history.py:18-21 | grouping a concatenation groups each part, in order (records keep their input order) |
| History.GroupMembers | backend/src/api/history.py:18-21 | every record lands in the group of its own fetch time, and a group holds only such records |
| History.GroupNonEmpty | backend/src/api/history.py:19-20 | no group is empty |
| History.GroupAbsent | backend/src/api/history.py:18-21 | a fetch time absent from the input has no records |
| History.FirstOccurrencesDistinct | backend/src/api/history.py:19-20 | no key appears twice |
| History.GroupSizesSum | backend/src/api/history.py:17-21 | the group sizes add up to the number of input records |
| History.FirstIndex | backend/src/api/history.py:18-20 | the first position of a present fetch time holds that time, and no earlier one does |
| History.FirstOccurrencesOrdered | backend/src/api/history.py:18-20 | an earlier key first appears before a later key |
| History.SortedInputSortedKeys | backend/src/api/history.py:15-21 | on input ordered by fetch time, as the last-batch query returns it, the keys are strictly increasing |

## Left out

- App.GetVehicleType: the route id is always a string. The database column is nullable, and on a null id `getVehicleType` would throw a TypeError; the model does not cover that path, because the fetcher always stores `trip.route_id` (fetcher.py:45), a protobuf string field that is never null, so a null id never reaches the frontend.
- WebGPU plumbing is not modelled, because it is foreign calls and the WGSL shaders are not part of this model. This covers device setup, shader loading, pipelines, bind groups, textures, `#initSimulation*`, context.js, graphics.js and render.js. A pass is only its pipeline name, target layer and bound layers, so the texture contents produced on the GPU are not modelled.
- `queue.writeTexture` of the CPU solver's result (simulation_cpu.js:54-65, 75-86) is not modelled, because it only uploads the buffers to the GPU.
- Float32 rounding is not modelled: all arithmetic is on `real`.
- `Math.sqrt(M * N)` is a constant characterised by its square.
- Numerical claims are not modelled: convergence of the relaxation, divergence reduction and mass conservation.
- The uploaded source data of injection is not modelled. On the CPU it is a parameter; on the GPU it is an `Upload` command to layer 2.
- Gradient subtraction draws with the `advectVec2` pipeline in both GPU solvers (simulation_frag.js:254, simulation.js:218). Both solvers also create a `subgrad` pipeline, from the `subtract_gradient` shader entry point, (simulation_frag.js:523, simulation.js:452) that nothing uses, so this is likely a defect. The model keeps the pipeline as written. Its effect on the velocity cannot be stated, because the shaders are not part of this model.
- The divergence pass also binds scratch layer 0; the model keeps that binding.
- `radians`, `drawArrow`, `drawText`, `draw`, `resetCanvas` and `fetchVehiclePositions` in app.js are not modelled, because they are canvas, π-dependent or network code.
- main.js is not part of this model.
- The protobuf parsing of a feed (`fetch_vehicle_positions`) is not modelled, because it is network I/O. An entity is an abstract record in which absent numeric fields read as 0 and `HasField("trip")` is an `Option`.
- The pickle cache, the `run` loop with its sleep and print, database sessions and batch-id allocation are not modelled: they are I/O. `BATCH_ID` is a parameter.
- The SQL queries of the history endpoints are not modelled, because they run in the database. The order the last-batch query imposes (history.py:15) is the precondition of `History.SortedInputSortedKeys`.
- `get_allbatchids`, live.py and the database primary key are not modelled, because they are routing or ORM declarations.
- Fetcher.CalcApparentVelocity: requires each current key to be its record's vehicle id, which `convert_list_to_dict`, the map's only producer, guarantees. The Python loop visits previous records in dict order; the model picks them in any order, and the result does not depend on it.
- A truthiness test `if vp_curr:` on a present record is always true, so it is modelled as key presence.
- Both GPU solvers assume valid settings (a positive grid, `dt >= 0`, positive coefficients).

## Findings

| source | as written | input that shows it | evidently intended | confidence | as-written member | corrected member |
|---|---|---|---|---|---|---|
| frontend/fluids/simulation.js:217-226 | gradient subtraction renders into velocity layer 1 − `velocityOutIdx`, but the index is not flipped afterwards, so `getVelocityOutputTextureView` returns the pre-subtraction layer | any `velocityStep` starting from `velocityOutIdx` = 0: the projected velocity is in layer 1 and the getter returns layer 0 | flip `velocityOutIdx` after subtraction, as simulation_frag.js:261 does | high; not executed | AppSolver.AsWrittenStepTracks | AppSolver.CorrectedStepTracks |
| frontend/fluids/simulation.js:163-226 | the velocity coefficients (163-164) and the pressure coefficients (200-201) are both written before the single submit at 226, so every diffusion pass runs with (1, 4) | any settings: the velocity coefficients have c = 1 + 4a, never (1, 4), yet all 40 diffusion passes see (1, 4) | submit advection and diffusion before writing the pressure uniform, as simulation_frag.js:220 does | high; not executed | AppSolver.DiffusionRunsWithPressure | Passes.VelocityPassesDiffusionUniform |

=== FILE: app.dfy ===
/**
 * The map view of the frontend: the projection of a geographic position onto
 * the unit square of the canvas, and the classification of a vehicle by its
 * route id.
 */
module App {

  /** The bounding box of San Francisco, in degrees. */
  const NorthBorder: real := 37.833
  const SouthBorder: real := 37.700
  const EastBorder: real := -122.359
  const WestBorder: real := -122.517

  /**
   * `calcX`: the horizontal canvas fraction of a longitude, 0 at the west
   * border and 1 at the east border; it lies in [0, 1] exactly for
   * longitudes between the two.
   */
  function CalcX(longitude: real): (x: real)
    ensures 0.0 <= x <= 1.0 <==> WestBorder <= longitude <= EastBorder
  {
    (longitude - WestBorder) / (EastBorder - WestBorder)
  }

  /**
   * `calcY`: the vertical canvas fraction of a latitude, measured downwards,
   * 0 at the north border and 1 at the south border; it lies in [0, 1]
   * exactly for latitudes between the two.
   */
  function CalcY(latitude: real): (y: real)
    ensures 0.0 <= y <= 1.0 <==> SouthBorder <= latitude <= NorthBorder
  {
    1.0 - (latitude - SouthBorder) / (NorthBorder - SouthBorder)
  }

  /** The longitude a horizontal canvas fraction stands for. */
  function Longitude(x: real): real
  {
    WestBorder + x * (EastBorder - WestBorder)
  }

  /** The latitude a vertical canvas fraction stands for. */
  function Latitude(y: real): real
  {
    SouthBorder + (1.0 - y) * (NorthBorder - SouthBorder)
  }

  /** The borders land on the edges of the canvas: west at 0, east at 1. */
  lemma CalcXEndpoints()
    ensures CalcX(WestBorder) == 0.0 && CalcX(EastBorder) == 1.0
  {
  }

  /** North lands at the top of the canvas (0), south at the bottom (1). */
  lemma CalcYEndpoints()
    ensures CalcY(NorthBorder) == 0.0 && CalcY(SouthBorder) == 1.0
  {
  }

  /** Further east is further right: `calcX` is strictly increasing. */
  lemma CalcXIncreasing(a: real, b: real)
    ensures a < b <==> CalcX(a) < CalcX(b)
  {
  }

  /** Further north is further up: `calcY` is strictly decreasing. */
  lemma CalcYDecreasing(a: real, b: real)
    ensures a < b <==> CalcY(b) < CalcY(a)
  {
  }

  /** `calcX` and `Longitude` are inverse to each other. */
  lemma CalcXRoundTrip(longitude: real, x: real)
    ensures Longitude(CalcX(longitude)) == longitude
    ensures CalcX(Longitude(x)) == x
  {
  }

  /** `calcY` and `Latitude` are inverse to each other. */
  lemma CalcYRoundTrip(latitude: real, y: real)
    ensures Latitude(CalcY(latitude)) == latitude
    ensures CalcY(Latitude(y)) == y
  {
  }

  /** The three frozen vehicle types. */
  datatype VehicleType = Bus | Metro | Cableway

  /** The route ids of the cable car lines. */
  const CablewayRoutes: seq<string> := ["CA", "PH", "PM"]

  /** `isAlpha` on a route id: whether its first character is an upper-case Latin letter. */
  predicate StartsUpperCase(routeId: string)
  {
    |routeId| > 0 && 'A' <= routeId[0] <= 'Z'
  }

  /**
   * `getVehicleType`: the cable car routes are cableways; any other route id
   * starting with an upper-case letter is a metro line; everything else,
   * the empty id included, is a bus.
   */
  function GetVehicleType(routeId: string): (t: VehicleType)
    ensures t == Cableway <==> routeId in CablewayRoutes
    ensures t == Metro <==> routeId !in CablewayRoutes && StartsUpperCase(routeId)
    ensures t == Bus <==> routeId !in CablewayRoutes && !StartsUpperCase(routeId)
  {
    if routeId in CablewayRoutes then Cableway
    else if StartsUpperCase(routeId) then Metro
    else Bus
  }

  /** Cable car ids start with a capital too: the cableway test has to come first. */
  lemma CablewayRoutesStartUpperCase(routeId: string)
    requires routeId in CablewayRoutes
    ensures StartsUpperCase(routeId) && GetVehicleType(routeId) != Metro
  {
  }

  /** Numbered routes (a digit first) and the empty id are buses. */
  lemma NumberedRoutesAreBuses(routeId: string)
    requires |routeId| == 0 || '0' <= routeId[0] <= '9'
    ensures GetVehicleType(routeId) == Bus
  {
  }
}

=== FILE: config.dfy ===
/**
 * The settings object shared by the solvers: grid size and the physical
 * parameters, fixed for the lifetime of a solver instance.
 */
module Config {

  datatype Settings = Settings(
    m: int,              // interior columns M
    n: int,              // interior rows N
    dt: real,            // time step
    diffusivity: real,
    viscosity: real,
    dissipation: real)
  {
    /**
     * What the solvers rely on: a grid of at least one interior cell, a
     * time step that is not negative and strictly positive coefficients
     * (so that every relaxation divisor `1 + 4a` is at least 1).
     */
    predicate Valid()
    {
      1 <= m && 1 <= n && 0.0 <= dt && 0.0 < diffusivity && 0.0 < viscosity && 0.0 < dissipation
    }
  }
}

=== FILE: diffusion.dfy ===
/**
 * The relaxation coefficients (a, c) of the three solvers.
 *
 * Every relaxation sweep computes, per interior cell,
 * `(x0 + a * (left + right + down + up)) / c`. The diffusion stages derive
 * (a, c) from the settings; the pressure solve always uses (1, 4). The three
 * solvers agree on the velocity coefficients but not on the density ones.
 */
module Diffusion {
  import opened Config
  import opened Fields

  /** The pair (a, c) passed to `#jacobi`, or written to the relaxation uniform buffer. */
  datatype Coefficients = Coefficients(a: real, c: real)

  /** The pressure solve of every solver: (a, c) = (1, 4). */
  const Pressure := Coefficients(1.0, 4.0)

  /** Grid size as a real factor, M * N. */
  function Area(s: Settings): real
  {
    s.m as real * s.n as real
  }

  lemma AreaPositive(s: Settings)
    requires s.Valid()
    ensures 0.0 < Area(s)
  {
    assert 1.0 <= s.m as real && 1.0 <= s.n as real;
    assert 1.0 * 1.0 <= s.m as real * s.n as real;
  }

  /** `velocityStep` of every solver: a = dt * viscosity * M * N and c = 1 + 4a; c is at least 1. */
  function VelocityCoefficients(s: Settings): (r: Coefficients)
    requires s.Valid()
    ensures r.c == 1.0 + 4.0 * r.a && r.a >= 0.0 && r.c >= 1.0
    ensures r.a == s.dt * s.viscosity * (s.m * s.n) as real
  {
    AreaPositive(s);
    MulNonNegative(s.dt, s.viscosity);
    MulNonNegative(s.dt * s.viscosity, Area(s));
    var a := s.dt * s.viscosity * s.m as real * s.n as real;
    Coefficients(a, 1.0 + 4.0 * a)
  }

  /**
   * `densityStep` of the CPU solver: a = dt * dissipation * diffusivity * M * N
   * and c = 1 + 4a, the dissipation factor scaling both the neighbour weight
   * and the divisor.
   */
  function CpuDensityCoefficients(s: Settings): (r: Coefficients)
    requires s.Valid()
    ensures r.c == 1.0 + 4.0 * r.a && r.a >= 0.0 && r.c >= 1.0
    ensures r.a == s.dt * s.dissipation * s.diffusivity * (s.m * s.n) as real
  {
    AreaPositive(s);
    MulNonNegative(s.dt, s.dissipation);
    MulNonNegative(s.dt * s.dissipation, s.diffusivity);
    MulNonNegative(s.dt * s.dissipation * s.diffusivity, Area(s));
    var a := s.dt * s.dissipation * s.diffusivity * s.m as real * s.n as real;
    Coefficients(a, 1.0 + 4.0 * a)
  }

  /**
   * `densityStep` of the fragment-shader solver: the same a as the CPU solver,
   * but c = 1 + 4a / dissipation, so that the dissipation cancels out of the
   * divisor, which depends on dt, diffusivity and the grid size only.
   */
  function FragDensityCoefficients(s: Settings): (r: Coefficients)
    requires s.Valid()
    ensures r.a == s.dt * s.dissipation * s.diffusivity * (s.m * s.n) as real
    ensures r.c == 1.0 + 4.0 * (s.dt * s.diffusivity * Area(s))
    ensures r.a >= 0.0 && r.c >= 1.0
  {
    AreaPositive(s);
    MulNonNegative(s.dt, s.diffusivity);
    MulNonNegative(s.dt * s.diffusivity, Area(s));
    var a := s.dt * s.dissipation * s.diffusivity * s.m as real * s.n as real;
    assert a == s.dissipation * (s.dt * s.diffusivity * Area(s));
    MulNonNegative(s.dissipation, s.dt * s.diffusivity * Area(s));
    assert 4.0 * a / s.dissipation == 4.0 * (s.dt * s.diffusivity * Area(s)) by {
      assert 4.0 * a / s.dissipation == 4.0 * (a / s.dissipation);
      assert (s.dissipation * (s.dt * s.diffusivity * Area(s))) / s.dissipation == s.dt * s.diffusivity * Area(s);
    }
    Coefficients(a, 1.0 + 4.0 * a / s.dissipation)
  }

  /** `densityStep` of `SimulationApp`, the second GPU solver: a = dt * diffusivity * M * N, c = 1 + 4a, no dissipation. */
  function AppDensityCoefficients(s: Settings): (r: Coefficients)
    requires s.Valid()
    ensures r.c == 1.0 + 4.0 * r.a && r.a >= 0.0 && r.c >= 1.0
    ensures r.a == s.dt * s.diffusivity * (s.m * s.n) as real
  {
    AreaPositive(s);
    MulNonNegative(s.dt, s.diffusivity);
    MulNonNegative(s.dt * s.diffusivity, Area(s));
    var a := s.dt * s.diffusivity * s.m as real * s.n as real;
    Coefficients(a, 1.0 + 4.0 * a)
  }

  /** A product of a positive factor and a second factor is zero exactly when the second is. */
  lemma ProductZero(x: real, y: real)
    requires 0.0 < x
    ensures x * y == 0.0 <==> y == 0.0
  {
    if y != 0.0 {
      assert (x * y) / x == y;
    }
  }

  /**
   * The two GPU solvers share the density divisor c; the fragment solver's
   * neighbour weight is `SimulationApp`'s times the dissipation.
   */
  lemma {:induction false} GpuDensityVariants(s: Settings)
    requires s.Valid()
    ensures FragDensityCoefficients(s).c == AppDensityCoefficients(s).c
    ensures FragDensityCoefficients(s).a == s.dissipation * AppDensityCoefficients(s).a
  {
    var f, k := FragDensityCoefficients(s), AppDensityCoefficients(s);
    assert k.a == s.dt * s.diffusivity * Area(s);
    assert f.a == s.dissipation * (s.dt * s.diffusivity * Area(s));
  }

  /**
   * The fragment solver's density weights sum to one (c = 1 + 4a, as in every
   * other diffusion stage) exactly when the time step is zero or the
   * dissipation is one; the CPU solver shares its a and matches its c under
   * the same condition.
   */
  lemma {:induction false} FragDensityBalanced(s: Settings)
    requires s.Valid()
    ensures var f := FragDensityCoefficients(s);
      f.c == 1.0 + 4.0 * f.a <==> s.dt == 0.0 || s.dissipation == 1.0
    ensures CpuDensityCoefficients(s).a == FragDensityCoefficients(s).a
    ensures CpuDensityCoefficients(s).c == FragDensityCoefficients(s).c <==> s.dt == 0.0 || s.dissipation == 1.0
  {
    var f := FragDensityCoefficients(s);
    var base := s.dt * s.diffusivity * Area(s);
    assert f.a == s.dissipation * base;
    AreaPositive(s);
    MulNonNegative(s.diffusivity, Area(s));
    ProductZero(s.diffusivity * Area(s), s.dt);
    assert base == s.dt * (s.diffusivity * Area(s));
    assert f.c == 1.0 + 4.0 * base;
    if s.dissipation != 1.0 && s.dt != 0.0 {
      var d := s.dissipation - 1.0;
      assert f.a - base == d * base;
      if d < 0.0 {
        ProductZero(-d, base);
        assert (-d) * base == -(d * base);
      } else {
        ProductZero(d, base);
      }
    }
  }
}

=== FILE: fetcher.dfy ===
/**
 * The record transforms of the backend fetcher: building records from a
 * GTFS-realtime feed message, keying them by vehicle id, and deriving each
 * vehicle's apparent velocity from its record of the previous fetch.
 */
module Fetcher {
  import opened Wrappers
  import opened Models

  /** The parts of a GTFS-realtime `TripDescriptor` the fetcher reads. */
  datatype TripDescriptor = TripDescriptor(tripId: string, routeId: string)

  /** The parts of a `VehicleDescriptor` the fetcher reads. */
  datatype VehicleDescriptor = VehicleDescriptor(id: string, vehicleLabel: string)

  /** A `Position`; fields absent from the feed read as 0. */
  datatype Position = Position(latitude: real, longitude: real, bearing: real, odometer: real, speed: real)

  /**
   * The `vehicle` part of a feed entity; `trip` is the one field whose
   * presence the fetcher tests. An entity without a vehicle part reads as
   * one without a trip.
   */
  datatype VehicleMessage = VehicleMessage(trip: Option<TripDescriptor>, vehicle: VehicleDescriptor, position: Position, timestamp: int)

  datatype FeedEntity = FeedEntity(vehicle: VehicleMessage)

  /** A `FeedMessage`: the header timestamp and the entities, in feed order. */
  datatype FeedMessage = FeedMessage(headerTimestamp: int, entity: seq<FeedEntity>)

  predicate HasTrip(e: FeedEntity)
  {
    e.vehicle.trip.Some?
  }

  /** The record built from an entity with a trip, stamped with the batch id and the fetch time. */
  function RecordOf(e: FeedEntity, batchId: string, fetchTime: int): (r: PositionData)
    requires HasTrip(e)
    ensures r.batchId == batchId && r.timestampFetch == fetchTime
    ensures r.vehicleId == e.vehicle.vehicle.id && r.timestamp == e.vehicle.timestamp
  {
    var v := e.vehicle;
    PositionData(batchId, fetchTime, v.timestamp, v.trip.value.tripId, v.trip.value.routeId,
      v.vehicle.id, v.vehicle.vehicleLabel, v.position.latitude, v.position.longitude,
      v.position.speed, v.position.bearing, v.position.odometer)
  }

  /**
   * The records `convert_msg_to_objects` builds from some entities, in feed
   * order: one per entity with a trip, none for the others. Every record
   * carries the batch id and the fetch time, and there are never more
   * records than entities.
   */
  function Converted(entities: seq<FeedEntity>, batchId: string, fetchTime: int): (r: seq<PositionData>)
    ensures |r| <= |entities|
    ensures forall k :: 0 <= k < |r| ==> r[k].batchId == batchId && r[k].timestampFetch == fetchTime
  {
    if |entities| == 0 then []
    else
      var init := Converted(entities[..|entities| - 1], batchId, fetchTime);
      var e := entities[|entities| - 1];
      if HasTrip(e) then init + [RecordOf(e, batchId, fetchTime)] else init
  }

  /** Converting a concatenation converts each part, in order. */
  lemma {:induction false} ConvertedAppend(a: seq<FeedEntity>, b: seq<FeedEntity>, batchId: string, fetchTime: int)
    ensures Converted(a + b, batchId, fetchTime) == Converted(a, batchId, fetchTime) + Converted(b, batchId, fetchTime)
    decreases |b|
  {
    if |b| == 0 {
      assert a + b == a;
    } else {
      var b' := b[..|b| - 1];
      assert (a + b)[..|a + b| - 1] == a + b';
      assert (a + b)[|a + b| - 1] == b[|b| - 1];
      ConvertedAppend(a, b', batchId, fetchTime);
    }
  }

  /** A single entity gives its record if it has a trip, and nothing otherwise. */
  lemma ConvertedSingle(e: FeedEntity, batchId: string, fetchTime: int)
    ensures Converted([e], batchId, fetchTime) == if HasTrip(e) then [RecordOf(e, batchId, fetchTime)] else []
  {
    assert [e][..0] == [];
  }

  /** Exactly the entities with a trip give a record: every entity with a trip gives one, and every record comes from one. */
  lemma {:induction false} ConvertedMembers(entities: seq<FeedEntity>, batchId: string, fetchTime: int)
    ensures forall i :: 0 <= i < |entities| && HasTrip(entities[i]) ==> RecordOf(entities[i], batchId, fetchTime) in Converted(entities, batchId, fetchTime)
    ensures forall r :: r in Converted(entities, batchId, fetchTime) ==>
      exists i :: 0 <= i < |entities| && HasTrip(entities[i]) && r == RecordOf(entities[i], batchId, fetchTime)
  {
    if |entities| > 0 {
      var init := entities[..|entities| - 1];
      ConvertedMembers(init, batchId, fetchTime);
      forall i | 0 <= i < |entities| && HasTrip(entities[i])
        ensures RecordOf(entities[i], batchId, fetchTime) in Converted(entities, batchId, fetchTime)
      {
        if i < |init| {
          assert entities[i] == init[i];
        }
      }
      forall r | r in Converted(entities, batchId, fetchTime)
        ensures exists i :: 0 <= i < |entities| && HasTrip(entities[i]) && r == RecordOf(entities[i], batchId, fetchTime)
      {
        if r in Converted(init, batchId, fetchTime) {
          var i :| 0 <= i < |init| && HasTrip(init[i]) && r == RecordOf(init[i], batchId, fetchTime);
          assert entities[i] == init[i];
        } else {
          assert r == RecordOf(entities[|entities| - 1], batchId, fetchTime);
        }
      }
    }
  }

  /**
   * `convert_msg_to_objects`: a new record per entity with a trip, in feed
   * order, no two the same object, each stamped with the batch id and the
   * header timestamp and with no apparent velocity yet.
   */
  method ConvertMsgToObjects(message: FeedMessage, batchId: string) returns (vehicles: seq<VehiclePosition>)
    ensures |vehicles| == |Converted(message.entity, batchId, message.headerTimestamp)|
    ensures forall k :: 0 <= k < |vehicles| ==> vehicles[k].data == Converted(message.entity, batchId, message.headerTimestamp)[k]
    ensures forall k :: 0 <= k < |vehicles| ==> fresh(vehicles[k])
    ensures forall i, j :: 0 <= i < j < |vehicles| ==> vehicles[i] != vehicles[j]
    ensures forall k :: 0 <= k < |vehicles| ==> vehicles[k].apparentVelocityLat == None && vehicles[k].apparentVelocityLong == None
  {
    vehicles := [];
    for i := 0 to |message.entity|
      invariant |vehicles| == |Converted(message.entity[..i], batchId, message.headerTimestamp)|
      invariant forall k :: 0 <= k < |vehicles| ==> vehicles[k].data == Converted(message.entity[..i], batchId, message.headerTimestamp)[k]
      invariant forall k :: 0 <= k < |vehicles| ==> fresh(vehicles[k])
      invariant forall i, j :: 0 <= i < j < |vehicles| ==> vehicles[i] != vehicles[j]
      invariant forall k :: 0 <= k < |vehicles| ==> vehicles[k].apparentVelocityLat == None && vehicles[k].apparentVelocityLong == None
    {
      var entity := message.entity[i];
      assert message.entity[..i + 1][..i] == message.entity[..i];
      if entity.vehicle.trip.Some? {
        var vehicleMsg := entity.vehicle.vehicle;
        var tripMsg := entity.vehicle.trip.value;
        var positionMsg := entity.vehicle.position;
        var vehicle := new VehiclePosition(PositionData(
          batchId, message.headerTimestamp, entity.vehicle.timestamp,
          tripMsg.tripId, tripMsg.routeId, vehicleMsg.id, vehicleMsg.vehicleLabel,
          positionMsg.latitude, positionMsg.longitude, positionMsg.speed,
          positionMsg.bearing, positionMsg.odometer));
        vehicles := vehicles + [vehicle];
      }
    }
    assert message.entity[..|message.entity|] == message.entity;
  }

  /** The vehicle ids of some records. */
  function VehicleIds(vehicles: seq<VehiclePosition>): set<string>
  {
    set k | 0 <= k < |vehicles| :: vehicles[k].data.vehicleId
  }

  /**
   * `convert_list_to_dict`: the records keyed by vehicle id. Its keys are
   * exactly the ids present, each key maps to a record of the list with that
   * id, and of several records with one id the last one wins.
   */
  function ConvertListToDict(vehicles: seq<VehiclePosition>): (r: map<string, VehiclePosition>)
    ensures r.Keys == VehicleIds(vehicles)
    ensures forall id :: id in r ==> r[id].data.vehicleId == id && r[id] in vehicles
  {
    if |vehicles| == 0 then map[]
    else
      var init := vehicles[..|vehicles| - 1];
      var last := vehicles[|vehicles| - 1];
      assert VehicleIds(vehicles) == VehicleIds(init) + {last.data.vehicleId} by {
        assert forall k :: 0 <= k < |init| ==> init[k] == vehicles[k];
      }
      ConvertListToDict(init)[last.data.vehicleId := last]
  }

  /** The record a key maps to is the last record of the list with that id. */
  lemma {:induction false} LaterDuplicatesWin(vehicles: seq<VehiclePosition>, i: nat)
    requires i < |vehicles|
    requires forall j :: i < j < |vehicles| ==> vehicles[j].data.vehicleId != vehicles[i].data.vehicleId
    ensures ConvertListToDict(vehicles)[vehicles[i].data.vehicleId] == vehicles[i]
  {
    if i < |vehicles| - 1 {
      var init := vehicles[..|vehicles| - 1];
      LaterDuplicatesWin(init, i);
    }
  }

  /** An apparent velocity, in degrees per second. */
  datatype Velocity = Velocity(lat: real, long: real)

  /**
   * The apparent velocity of a vehicle from its previous record to its
   * current one: none unless time has strictly advanced; otherwise the
   * velocity that, applied to the current position over the elapsed time,
   * leads back to the previous one.
   */
  function ApparentVelocity(curr: PositionData, prev: PositionData): (r: Option<Velocity>)
    ensures r.Some? <==> curr.timestamp > prev.timestamp
    ensures r.Some? ==> var dt := (curr.timestamp - prev.timestamp) as real;
      curr.latitude + r.value.lat * dt == prev.latitude && curr.longitude + r.value.long * dt == prev.longitude
  {
    var dt := curr.timestamp - prev.timestamp;
    if dt > 0 then
      Some(Velocity((prev.latitude - curr.latitude) / dt as real, (prev.longitude - curr.longitude) / dt as real))
    else None
  }

  /** The records a map holds. */
  function Records(vehicles: map<string, VehiclePosition>): set<VehiclePosition>
  {
    set id | id in vehicles :: vehicles[id]
  }

  /**
   * `calc_apparent_velocity`: for every previous record whose vehicle has a
   * current record fetched strictly later, sets the current record's apparent
   * velocity from the two positions; every other current record, and every
   * record outside the current map, keeps what it had. The current map is
   * keyed by vehicle id, as `convert_list_to_dict` builds it.
   */
  method CalcApparentVelocity(curr: map<string, VehiclePosition>, prev: map<string, VehiclePosition>)
    requires forall id :: id in curr ==> curr[id].data.vehicleId == id
    modifies Records(curr)
    ensures forall id :: id in curr && id in prev && ApparentVelocity(curr[id].data, prev[id].data).Some? ==>
      var v := ApparentVelocity(curr[id].data, prev[id].data).value;
      curr[id].apparentVelocityLat == Some(v.lat) && curr[id].apparentVelocityLong == Some(v.long)
    ensures forall id :: id in curr && (id !in prev || ApparentVelocity(curr[id].data, prev[id].data).None?) ==>
      curr[id].apparentVelocityLat == old(curr[id].apparentVelocityLat) && curr[id].apparentVelocityLong == old(curr[id].apparentVelocityLong)
  {
    var remaining := prev.Keys;
    while remaining != {}
      invariant remaining <= prev.Keys
      invariant forall id :: id in curr && id in prev && id !in remaining && ApparentVelocity(curr[id].data, prev[id].data).Some? ==>
        var v := ApparentVelocity(curr[id].data, prev[id].data).value;
        curr[id].apparentVelocityLat == Some(v.lat) && curr[id].apparentVelocityLong == Some(v.long)
      invariant forall id :: id in curr && (id !in prev || id in remaining || ApparentVelocity(curr[id].data, prev[id].data).None?) ==>
        curr[id].apparentVelocityLat == old(curr[id].apparentVelocityLat) && curr[id].apparentVelocityLong == old(curr[id].apparentVelocityLong)
      decreases remaining
    {
      var prevId :| prevId in remaining;
      var vpPrev := prev[prevId];
      if prevId in curr {
        var vpCurr := curr[prevId];
        var dt := vpCurr.data.timestamp - vpPrev.data.timestamp;
        if dt > 0 {
          vpCurr.apparentVelocityLat := Some((vpPrev.data.latitude - vpCurr.data.latitude) / dt as real);
          vpCurr.apparentVelocityLong := Some((vpPrev.data.longitude - vpCurr.data.longitude) / dt as real);
        }
      }
      remaining := remaining - {prevId};
    }
  }
}

=== FILE: fields.dfy ===
/**
 * The passes of the CPU solver as functions on buffer contents.
 *
 * Each function below gives the contents a buffer has after one pass of
 * `SimulationCpu`, in terms of its contents before the pass and of the
 * buffers the pass reads. The methods of the solver are proved to produce
 * exactly these contents; the lemmas here state what the passes promise.
 */
module Fields {
  import opened Grid

  /** Sweeps of the CPU relaxation solver per call. */
  const RelaxSweeps: nat := 20

  /** Buffer w holds a field laid out by l. */
  predicate IsField(l: Layout, w: seq<real>)
  {
    l.Valid() && |w| == l.Size()
  }

  /** Buffer vel holds a velocity field (two interleaved components) on an m x n grid. */
  predicate IsVelocity(m: int, n: int, vel: seq<real>)
  {
    1 <= m && 1 <= n && |vel| == 2 * Cells(m, n)
  }

  predicate AllZero(w: seq<real>)
  {
    forall k :: 0 <= k < |w| ==> w[k] == 0.0
  }

  function Zeros(len: nat): (r: seq<real>)
    ensures |r| == len && AllZero(r)
  {
    seq(len, k => 0.0)
  }

  /** Layouts of a scalar field and of the two components of a vector field. */
  function Scalar(m: int, n: int): Layout { Layout(m, n, 1, 0) }
  function VelX(m: int, n: int): Layout { Layout(m, n, 2, 0) }
  function VelY(m: int, n: int): Layout { Layout(m, n, 2, 1) }

  // ---------------------------------------------------------------- cell-wise passes

  /** What a cell-wise pass writes at interior cell (x, y), from buffers it only reads. */
  type CellValues = (int, int) -> real

  /** Cell (x, y) comes before (i, j) in the loop order of the passes: x outer, y inner. */
  predicate Before(x: int, y: int, i: int, j: int)
  {
    x < i || (x == i && y < j)
  }

  /** A cell-wise pass over the component l of w: every interior entry becomes f at its cell, the rest is kept. */
  function Fill(l: Layout, w: seq<real>, f: CellValues): (r: seq<real>)
    requires IsField(l, w)
    ensures |r| == |w|
  {
    seq(|w|, k requires 0 <= k < |w| => if l.Interior(k) then f(l.CellX(k), l.CellY(k)) else w[k])
  }

  /** Entry k once the cells before (i, j) have been written. */
  function FilledEntry(l: Layout, w: seq<real>, f: CellValues, i: int, j: int, k: int): real
    requires IsField(l, w) && 0 <= k < |w|
  {
    if l.Interior(k) && Before(l.CellX(k), l.CellY(k), i, j) then f(l.CellX(k), l.CellY(k)) else w[k]
  }

  /** The buffer during a cell-wise pass, once the cells before (i, j) have been written. */
  function FillUpTo(l: Layout, w: seq<real>, f: CellValues, i: int, j: int): (r: seq<real>)
    requires IsField(l, w)
    ensures |r| == |w|
  {
    seq(|w|, k requires 0 <= k < |w| => FilledEntry(l, w, f, i, j, k))
  }

  /**
   * A cell-wise pass keeps the buffer's size, writes f(i, j) at interior cell
   * (i, j) and leaves the border ring and, in a vector field, the other
   * component unchanged.
   */
  lemma {:induction false} FillFrame(l: Layout, w: seq<real>, f: CellValues)
    requires IsField(l, w)
    ensures |Fill(l, w, f)| == |w|
    ensures forall k :: 0 <= k < |w| && !l.Interior(k) ==> Fill(l, w, f)[k] == w[k]
    ensures forall i, j :: 1 <= i <= l.m && 1 <= j <= l.n ==> Fill(l, w, f)[l.At(i, j)] == f(i, j)
  {
    forall i, j | 1 <= i <= l.m && 1 <= j <= l.n
      ensures Fill(l, w, f)[l.At(i, j)] == f(i, j)
    {
      AtDecodes(l, i, j);
    }
  }

  /** `FillFrame` at one interior cell. */
  lemma {:induction false} FillAt(l: Layout, w: seq<real>, f: CellValues, i: int, j: int)
    requires IsField(l, w) && 1 <= i <= l.m && 1 <= j <= l.n
    ensures Fill(l, w, f)[l.At(i, j)] == f(i, j)
  {
    AtDecodes(l, i, j);
  }

  /** `FillFrame` at one entry outside the component's interior. */
  lemma {:induction false} FillOutside(l: Layout, w: seq<real>, f: CellValues, k: int)
    requires IsField(l, w) && 0 <= k < |w| && !l.Interior(k)
    ensures Fill(l, w, f)[k] == w[k]
  {
  }

  /** Writing cell (i, j) moves the pass one cell on; a row's end is the next row's start. */
  lemma {:induction false} FillUpToStep(l: Layout, w: seq<real>, f: CellValues, i: int, j: int)
    requires IsField(l, w) && 1 <= i <= l.m && 1 <= j <= l.n
    ensures FillUpTo(l, w, f, i, j)[l.At(i, j) := f(i, j)] == FillUpTo(l, w, f, i, j + 1)
    ensures FillUpTo(l, w, f, i, l.n + 1) == FillUpTo(l, w, f, i + 1, 1)
  {
    AtDecodes(l, i, j);
    InteriorEncodesAll(l);
  }

  /** A cell-wise pass starts from w and ends with `Fill`. */
  lemma {:induction false} FillUpToEnds(l: Layout, w: seq<real>, f: CellValues)
    requires IsField(l, w)
    ensures FillUpTo(l, w, f, 1, 1) == w
    ensures FillUpTo(l, w, f, l.m + 1, 1) == Fill(l, w, f)
  {
  }

  /** A cell the pass has not reached yet, and every entry outside the component, still holds its old value. */
  lemma {:induction false} FillUpToUnvisited(l: Layout, w: seq<real>, f: CellValues, i: int, j: int, x: int, y: int)
    requires IsField(l, w) && 0 <= x <= l.m + 1 && 0 <= y <= l.n + 1 && !Before(x, y, i, j)
    ensures FillUpTo(l, w, f, i, j)[l.At(x, y)] == w[l.At(x, y)]
  {
    AtDecodes(l, x, y);
  }

  /** Writing an entry outside the component commutes with the pass. */
  lemma {:induction false} FillUpToOutside(l: Layout, w: seq<real>, f: CellValues, i: int, j: int, k: int, v: real)
    requires IsField(l, w) && 0 <= k < |w| && !l.Interior(k)
    ensures FillUpTo(l, w, f, i, j)[k := v] == FillUpTo(l, w[k := v], f, i, j)
  {
  }

  // ---------------------------------------------------------------- advection

  /** Where the backward trace from a cell lands: the lower-left sample cell and the two weights. */
  datatype Departure = Departure(i0: int, j0: int, s0: real, t0: real)

  /** The weights and sample cell of a coordinate clamped to [0.5, size + 0.5]. */
  lemma {:induction false} FloorOfClamped(x: real, size: int)
    requires 1 <= size && 0.5 <= x <= size as real + 0.5
    ensures 0 <= x.Floor <= size
    ensures 0.0 < 1.0 - (x - x.Floor as real) <= 1.0
  {
  }

  /** One coordinate of the departure point: back along the velocity, clamped into [0.5, size + 0.5]. */
  function DepartureCoordinate(pos: int, size: int, dt: real, v: real): (r: real)
    requires 1 <= size
    ensures 0.5 <= r <= size as real + 0.5
    ensures v == 0.0 && 1 <= pos <= size ==> r == pos as real
  {
    Clamp(pos as real - dt * size as real * v, 0.5, size as real + 0.5)
  }

  /** The sample cell and weight of a departure coordinate; at rest, the cell itself with full weight. */
  lemma {:induction false} FloorOfDeparture(pos: int, size: int, dt: real, v: real)
    requires 1 <= size
    ensures var x := DepartureCoordinate(pos, size, dt, v);
      && 0 <= x.Floor <= size && 0.0 < 1.0 - (x - x.Floor as real) <= 1.0
      && (v == 0.0 && 1 <= pos <= size ==> x.Floor == pos && 1.0 - (x - x.Floor as real) == 1.0)
  {
    FloorOfClamped(DepartureCoordinate(pos, size, dt, v), size);
  }

  /**
   * The departure point of cell (i, j) of `#advect`: the cell minus dt*M times
   * the velocity there (dt*N for the y component), clamped to the rectangle
   * [0.5, M+0.5] x [0.5, N+0.5]. The four cells sampled around it are inside
   * the grid, border ring included, and both weights lie in (0, 1]; where the
   * velocity is zero the trace stays on the cell with full weight.
   */
  function Backtrace(m: int, n: int, dt: real, vel: seq<real>, i: int, j: int): (d: Departure)
    requires IsVelocity(m, n, vel) && 1 <= i <= m && 1 <= j <= n
    ensures 0 <= d.i0 <= m && 0 <= d.j0 <= n
    ensures 0.0 < d.s0 <= 1.0 && 0.0 < d.t0 <= 1.0
    ensures vel[VelX(m, n).At(i, j)] == 0.0 && vel[VelY(m, n).At(i, j)] == 0.0 ==> d == Departure(i, j, 1.0, 1.0)
  {
    IdxInRange(m, n, i, j);
    var x := DepartureCoordinate(i, m, dt, vel[Idx2(m, i, j)]);
    var y := DepartureCoordinate(j, n, dt, vel[Idx2(m, i, j) + 1]);
    FloorOfDeparture(i, m, dt, vel[Idx2(m, i, j)]);
    FloorOfDeparture(j, n, dt, vel[Idx2(m, i, j) + 1]);
    Departure(x.Floor, y.Floor, 1.0 - (x - x.Floor as real), 1.0 - (y - y.Floor as real))
  }

  /** Bilinear interpolation with weight s0 on the left and t0 on the lower samples. */
  function Bilerp(s0: real, t0: real, a: real, b: real, c: real, d: real): real
  {
    t0 * (s0 * a + (1.0 - s0) * b) + (1.0 - t0) * (s0 * c + (1.0 - s0) * d)
  }

  lemma BilerpFullWeight(a: real, b: real, c: real, d: real)
    ensures Bilerp(1.0, 1.0, a, b, c, d) == a
  {
  }

  function Min4(a: real, b: real, c: real, d: real): real
  {
    var ab := if a <= b then a else b;
    var cd := if c <= d then c else d;
    if ab <= cd then ab else cd
  }

  function Max4(a: real, b: real, c: real, d: real): real
  {
    var ab := if a >= b then a else b;
    var cd := if c >= d then c else d;
    if ab >= cd then ab else cd
  }

  lemma MulNonNegative(x: real, y: real)
    requires 0.0 <= x && 0.0 <= y
    ensures 0.0 <= x * y
  {
  }

  lemma {:induction false} LerpBetween(s: real, a: real, b: real, lo: real, hi: real)
    requires 0.0 <= s <= 1.0 && lo <= a <= hi && lo <= b <= hi
    ensures lo <= s * a + (1.0 - s) * b <= hi
  {
    if a >= b {
      MulNonNegative(s, a - b);
      MulNonNegative(1.0 - s, a - b);
      assert s * a + (1.0 - s) * b == b + s * (a - b) == a - (1.0 - s) * (a - b);
    } else {
      MulNonNegative(s, b - a);
      MulNonNegative(1.0 - s, b - a);
      assert s * a + (1.0 - s) * b == b - s * (b - a) == a + (1.0 - s) * (b - a);
    }
  }

  /** A bilinear interpolation with weights in [0, 1] lies between the smallest and the largest sample. */
  lemma {:induction false} BilerpBetween(s0: real, t0: real, a: real, b: real, c: real, d: real)
    requires 0.0 <= s0 <= 1.0 && 0.0 <= t0 <= 1.0
    ensures Min4(a, b, c, d) <= Bilerp(s0, t0, a, b, c, d) <= Max4(a, b, c, d)
  {
    var lo, hi := Min4(a, b, c, d), Max4(a, b, c, d);
    LerpBetween(s0, a, b, lo, hi);
    LerpBetween(s0, c, d, lo, hi);
    LerpBetween(t0, s0 * a + (1.0 - s0) * b, s0 * c + (1.0 - s0) * d, lo, hi);
  }

  /** The value `#advect` writes at interior cell (i, j) of the component selected by l. */
  function AdvectAt(l: Layout, dt: real, w0: seq<real>, vel: seq<real>, i: int, j: int): real
    requires IsField(l, w0) && IsVelocity(l.m, l.n, vel)
    requires 1 <= i <= l.m && 1 <= j <= l.n
  {
    var d := Backtrace(l.m, l.n, dt, vel, i, j);
    Bilerp(d.s0, d.t0,
      w0[l.At(d.i0, d.j0)], w0[l.At(d.i0 + 1, d.j0)],
      w0[l.At(d.i0, d.j0 + 1)], w0[l.At(d.i0 + 1, d.j0 + 1)])
  }

  /**
   * Semi-Lagrangian advection is a convex combination of the four samples
   * around the departure point, so it never leaves their range.
   */
  lemma {:induction false} AdvectAtBetween(l: Layout, dt: real, w0: seq<real>, vel: seq<real>, i: int, j: int)
    requires IsField(l, w0) && IsVelocity(l.m, l.n, vel)
    requires 1 <= i <= l.m && 1 <= j <= l.n
    ensures var d := Backtrace(l.m, l.n, dt, vel, i, j);
      var a, b := w0[l.At(d.i0, d.j0)], w0[l.At(d.i0 + 1, d.j0)];
      var c, e := w0[l.At(d.i0, d.j0 + 1)], w0[l.At(d.i0 + 1, d.j0 + 1)];
      Min4(a, b, c, e) <= AdvectAt(l, dt, w0, vel, i, j) <= Max4(a, b, c, e)
  {
    var d := Backtrace(l.m, l.n, dt, vel, i, j);
    BilerpBetween(d.s0, d.t0,
      w0[l.At(d.i0, d.j0)], w0[l.At(d.i0 + 1, d.j0)],
      w0[l.At(d.i0, d.j0 + 1)], w0[l.At(d.i0 + 1, d.j0 + 1)]);
  }

  /** Where the velocity is zero, advection copies the cell's own value. */
  lemma {:induction false} AdvectAtRest(l: Layout, dt: real, w0: seq<real>, vel: seq<real>, i: int, j: int)
    requires IsField(l, w0) && IsVelocity(l.m, l.n, vel)
    requires 1 <= i <= l.m && 1 <= j <= l.n
    requires vel[VelX(l.m, l.n).At(i, j)] == 0.0 && vel[VelY(l.m, l.n).At(i, j)] == 0.0
    ensures AdvectAt(l, dt, w0, vel, i, j) == w0[l.At(i, j)]
  {
    var d := Backtrace(l.m, l.n, dt, vel, i, j);
    assert d == Departure(i, j, 1.0, 1.0);
    BilerpFullWeight(w0[l.At(i, j)], w0[l.At(i + 1, j)], w0[l.At(i, j + 1)], w0[l.At(i + 1, j + 1)]);
  }

  /** The values `#advect` writes, cell by cell. */
  function AdvectField(l: Layout, dt: real, w0: seq<real>, vel: seq<real>): CellValues
    requires IsField(l, w0) && IsVelocity(l.m, l.n, vel)
  {
    (x, y) => if 1 <= x <= l.m && 1 <= y <= l.n then AdvectAt(l, dt, w0, vel, x, y) else 0.0
  }

  /** `#advect(w, w0, vel, offset, stride)`: every interior entry of the component is resampled, the rest kept. */
  function Advected(l: Layout, dt: real, w: seq<real>, w0: seq<real>, vel: seq<real>): (r: seq<real>)
    requires IsField(l, w) && IsField(l, w0) && IsVelocity(l.m, l.n, vel)
  {
    Fill(l, w, AdvectField(l, dt, w0, vel))
  }

  /**
   * Advection keeps the size of the buffer and writes only the interior
   * entries of its component: the border ring and the other component of a
   * vector field are unchanged.
   */
  lemma {:induction false} AdvectedFrame(l: Layout, dt: real, w: seq<real>, w0: seq<real>, vel: seq<real>)
    requires IsField(l, w) && IsField(l, w0) && IsVelocity(l.m, l.n, vel)
    ensures |Advected(l, dt, w, w0, vel)| == |w|
    ensures forall k :: 0 <= k < |w| && !l.Interior(k) ==> Advected(l, dt, w, w0, vel)[k] == w[k]
  {
    FillFrame(l, w, AdvectField(l, dt, w0, vel));
  }

  /** Advection writes `AdvectAt` at every interior cell of its component. */
  lemma {:induction false} AdvectedCell(l: Layout, dt: real, w: seq<real>, w0: seq<real>, vel: seq<real>, i: int, j: int)
    requires IsField(l, w) && IsField(l, w0) && IsVelocity(l.m, l.n, vel)
    requires 1 <= i <= l.m && 1 <= j <= l.n
    ensures Advected(l, dt, w, w0, vel)[l.At(i, j)] == AdvectAt(l, dt, w0, vel, i, j)
  {
    var f := AdvectField(l, dt, w0, vel);
    assert f(i, j) == AdvectAt(l, dt, w0, vel, i, j);
    FillAt(l, w, f, i, j);
  }

  /** Resampling a zero field gives zero, whatever the velocity. */
  lemma {:induction false} AdvectAtZero(l: Layout, dt: real, w0: seq<real>, vel: seq<real>, i: int, j: int)
    requires IsField(l, w0) && IsVelocity(l.m, l.n, vel) && AllZero(w0)
    requires 1 <= i <= l.m && 1 <= j <= l.n
    ensures AdvectAt(l, dt, w0, vel, i, j) == 0.0
  {
    var d := Backtrace(l.m, l.n, dt, vel, i, j);
    assert w0[l.At(d.i0, d.j0)] == 0.0 && w0[l.At(d.i0 + 1, d.j0)] == 0.0;
    assert w0[l.At(d.i0, d.j0 + 1)] == 0.0 && w0[l.At(d.i0 + 1, d.j0 + 1)] == 0.0;
    assert Bilerp(d.s0, d.t0, 0.0, 0.0, 0.0, 0.0) == 0.0;
  }

  /** Advecting a zero field into a zero buffer gives zero whatever the velocity. */
  lemma {:induction false} AdvectedZero(l: Layout, dt: real, w: seq<real>, w0: seq<real>, vel: seq<real>)
    requires IsField(l, w) && IsField(l, w0) && IsVelocity(l.m, l.n, vel)
    requires AllZero(w) && AllZero(w0)
    ensures AllZero(Advected(l, dt, w, w0, vel))
  {
    AdvectedFrame(l, dt, w, w0, vel);
    forall k | 0 <= k < |w| && l.Interior(k)
      ensures Advected(l, dt, w, w0, vel)[k] == 0.0
    {
      InteriorEncodes(l, k);
      AdvectedCell(l, dt, w, w0, vel, l.CellX(k), l.CellY(k));
      AdvectAtZero(l, dt, w0, vel, l.CellX(k), l.CellY(k));
    }
  }

  // ---------------------------------------------------------------- relaxation

  /** Preconditions shared by the relaxation functions: two fields of layout l and a non-zero divisor. */
  predicate RelaxArgs(l: Layout, w: seq<real>, w0: seq<real>, c: real)
  {
    IsField(l, w) && IsField(l, w0) && c != 0.0
  }

  /** The relaxation stencil: the anchor plus a times the four neighbours, over c. */
  function Stencil(center: real, right: real, left: real, down: real, up: real, a: real, c: real): real
    requires c != 0.0
  {
    (center + a * (right + left + down + up)) / c
  }

  /** The value `#jacobi` writes at interior cell (i, j), reading the current contents of w. */
  function RelaxAt(l: Layout, w: seq<real>, w0: seq<real>, a: real, c: real, i: int, j: int): real
    requires RelaxArgs(l, w, w0, c) && 1 <= i <= l.m && 1 <= j <= l.n
  {
    Stencil(w0[l.At(i, j)], w[l.At(i + 1, j)], w[l.At(i - 1, j)], w[l.At(i, j + 1)], w[l.At(i, j - 1)], a, c)
  }

  /** One cell update of the in-place sweep. */
  function UpdateCell(l: Layout, w: seq<real>, w0: seq<real>, a: real, c: real, i: int, j: int): seq<real>
    requires RelaxArgs(l, w, w0, c) && 1 <= i <= l.m && 1 <= j <= l.n
  {
    w[l.At(i, j) := RelaxAt(l, w, w0, a, c, i, j)]
  }

  /**
   * The inner loop of one sweep, after cells (i, 1), ..., (i, j-1) have been
   * updated in turn, each reading its neighbours as they are at that moment
   * (Gauss-Seidel order).
   */
  function SweepLine(l: Layout, w: seq<real>, w0: seq<real>, a: real, c: real, i: int, j: int): (r: seq<real>)
    requires RelaxArgs(l, w, w0, c) && 1 <= i <= l.m && 1 <= j <= l.n + 1
    ensures |r| == |w|
    decreases j
  {
    if j == 1 then w
    else UpdateCell(l, SweepLine(l, w, w0, a, c, i, j - 1), w0, a, c, i, j - 1)
  }

  /** One sweep after rows 1, ..., i-1 have been done. */
  function SweepRows(l: Layout, w: seq<real>, w0: seq<real>, a: real, c: real, i: int): (r: seq<real>)
    requires RelaxArgs(l, w, w0, c) && 1 <= i <= l.m + 1
    ensures |r| == |w|
    decreases i
  {
    if i == 1 then w
    else SweepLine(l, SweepRows(l, w, w0, a, c, i - 1), w0, a, c, i - 1, l.n + 1)
  }

  /** `sweeps` complete sweeps of `#jacobi` starting from w, anchored to w0. */
  function Relaxed(l: Layout, w: seq<real>, w0: seq<real>, a: real, c: real, sweeps: nat): (r: seq<real>)
    requires RelaxArgs(l, w, w0, c)
    ensures |r| == |w|
  {
    if sweeps == 0 then w else SweepRows(l, Relaxed(l, w, w0, a, c, sweeps - 1), w0, a, c, l.m + 1)
  }

  /** A sweep line writes only interior entries of its component. */
  lemma {:induction false} SweepLineFrame(l: Layout, w: seq<real>, w0: seq<real>, a: real, c: real, i: int, j: int)
    requires RelaxArgs(l, w, w0, c) && 1 <= i <= l.m && 1 <= j <= l.n + 1
    ensures forall k :: 0 <= k < |w| && !l.Interior(k) ==> SweepLine(l, w, w0, a, c, i, j)[k] == w[k]
    decreases j
  {
    if j > 1 {
      SweepLineFrame(l, w, w0, a, c, i, j - 1);
      AtDecodes(l, i, j - 1);
    }
  }

  /** The rows of a sweep write only interior entries of their component. */
  lemma {:induction false} SweepRowsFrame(l: Layout, w: seq<real>, w0: seq<real>, a: real, c: real, i: int)
    requires RelaxArgs(l, w, w0, c) && 1 <= i <= l.m + 1
    ensures forall k :: 0 <= k < |w| && !l.Interior(k) ==> SweepRows(l, w, w0, a, c, i)[k] == w[k]
    decreases i
  {
    if i > 1 {
      SweepRowsFrame(l, w, w0, a, c, i - 1);
      SweepLineFrame(l, SweepRows(l, w, w0, a, c, i - 1), w0, a, c, i - 1, l.n + 1);
    }
  }

  /**
   * Relaxation writes only the interior entries of its component: the border
   * ring, and in a vector field the other component, keep their values.
   */
  lemma {:induction false} RelaxedFrame(l: Layout, w: seq<real>, w0: seq<real>, a: real, c: real, sweeps: nat)
    requires RelaxArgs(l, w, w0, c)
    ensures forall k :: 0 <= k < |w| && !l.Interior(k) ==> Relaxed(l, w, w0, a, c, sweeps)[k] == w[k]
  {
    if sweeps > 0 {
      RelaxedFrame(l, w, w0, a, c, sweeps - 1);
      SweepRowsFrame(l, Relaxed(l, w, w0, a, c, sweeps - 1), w0, a, c, l.m + 1);
    }
  }

  /** With a = 0 and c = 1 a cell update copies the anchor. */
  lemma RelaxAtWithoutDiffusion(l: Layout, w: seq<real>, w0: seq<real>, i: int, j: int)
    requires RelaxArgs(l, w, w0, 1.0) && 1 <= i <= l.m && 1 <= j <= l.n
    ensures UpdateCell(l, w, w0, 0.0, 1.0, i, j) == w[l.At(i, j) := w0[l.At(i, j)]]
  {
  }

  /** With a = 0 and c = 1 updating cell (i, j) extends the copied part of row i by that cell. */
  lemma {:induction false} CopyCell(l: Layout, prev: seq<real>, w: seq<real>, w0: seq<real>, i: int, j: int, x: int, y: int)
    requires IsField(l, prev) && IsField(l, w) && IsField(l, w0)
    requires 1 <= i <= l.m && 1 <= j <= l.n && 1 <= x <= l.m && 1 <= y <= l.n
    requires prev[l.At(x, y)] == if x == i && y < j then w0[l.At(x, y)] else w[l.At(x, y)]
    ensures UpdateCell(l, prev, w0, 0.0, 1.0, i, j)[l.At(x, y)] ==
      if x == i && y < j + 1 then w0[l.At(x, y)] else w[l.At(x, y)]
  {
    RelaxAtWithoutDiffusion(l, prev, w0, i, j);
    if x != i || y != j {
      AtDistinct(l, x, y, i, j);
    }
  }

  /** With a = 0 and c = 1 a sweep line copies w0 into the cells it has visited and nothing else. */
  lemma {:induction false} SweepLineCopies(l: Layout, w: seq<real>, w0: seq<real>, i: int, j: int, x: int, y: int)
    requires RelaxArgs(l, w, w0, 1.0) && 1 <= i <= l.m && 1 <= j <= l.n + 1
    requires 1 <= x <= l.m && 1 <= y <= l.n
    ensures SweepLine(l, w, w0, 0.0, 1.0, i, j)[l.At(x, y)] ==
      if x == i && y < j then w0[l.At(x, y)] else w[l.At(x, y)]
    decreases j
  {
    if j > 1 {
      SweepLineCopies(l, w, w0, i, j - 1, x, y);
      CopyCell(l, SweepLine(l, w, w0, 0.0, 1.0, i, j - 1), w, w0, i, j - 1, x, y);
    }
  }

  /** With a = 0 and c = 1 the rows done so far hold w0 and the rest is untouched. */
  lemma {:induction false} SweepRowsCopies(l: Layout, w: seq<real>, w0: seq<real>, i: int, x: int, y: int)
    requires RelaxArgs(l, w, w0, 1.0) && 1 <= i <= l.m + 1
    requires 1 <= x <= l.m && 1 <= y <= l.n
    ensures SweepRows(l, w, w0, 0.0, 1.0, i)[l.At(x, y)] == if x < i then w0[l.At(x, y)] else w[l.At(x, y)]
    decreases i
  {
    if i > 1 {
      var prev := SweepRows(l, w, w0, 0.0, 1.0, i - 1);
      SweepRowsCopies(l, w, w0, i - 1, x, y);
      SweepLineCopies(l, prev, w0, i - 1, l.n + 1, x, y);
    }
  }

  /**
   * The relaxation fixed point of a = 0, c = 1: after at least one sweep every
   * interior entry of the component equals w0's, and every other entry is
   * what it was.
   */
  lemma {:induction false} RelaxedWithoutDiffusion(l: Layout, w: seq<real>, w0: seq<real>, sweeps: nat)
    requires RelaxArgs(l, w, w0, 1.0) && 1 <= sweeps
    ensures forall k :: 0 <= k < |w| ==>
      Relaxed(l, w, w0, 0.0, 1.0, sweeps)[k] == if l.Interior(k) then w0[k] else w[k]
  {
    var prev := Relaxed(l, w, w0, 0.0, 1.0, sweeps - 1);
    RelaxedFrame(l, w, w0, 0.0, 1.0, sweeps);
    forall k | 0 <= k < |w| && l.Interior(k)
      ensures Relaxed(l, w, w0, 0.0, 1.0, sweeps)[k] == w0[k]
    {
      InteriorEncodes(l, k);
      SweepRowsCopies(l, prev, w0, l.m + 1, l.CellX(k), l.CellY(k));
    }
  }

  lemma {:induction false} SweepLineZero(l: Layout, w: seq<real>, w0: seq<real>, a: real, c: real, i: int, j: int)
    requires RelaxArgs(l, w, w0, c) && 1 <= i <= l.m && 1 <= j <= l.n + 1
    requires AllZero(w) && AllZero(w0)
    ensures AllZero(SweepLine(l, w, w0, a, c, i, j))
    decreases j
  {
    if j > 1 {
      SweepLineZero(l, w, w0, a, c, i, j - 1);
    }
  }

  lemma {:induction false} SweepRowsZero(l: Layout, w: seq<real>, w0: seq<real>, a: real, c: real, i: int)
    requires RelaxArgs(l, w, w0, c) && 1 <= i <= l.m + 1
    requires AllZero(w) && AllZero(w0)
    ensures AllZero(SweepRows(l, w, w0, a, c, i))
    decreases i
  {
    if i > 1 {
      SweepRowsZero(l, w, w0, a, c, i - 1);
      SweepLineZero(l, SweepRows(l, w, w0, a, c, i - 1), w0, a, c, i - 1, l.n + 1);
    }
  }

  /** Relaxing a zero guess against a zero right-hand side stays zero, whatever a and c. */
  lemma {:induction false} RelaxedZero(l: Layout, w: seq<real>, w0: seq<real>, a: real, c: real, sweeps: nat)
    requires RelaxArgs(l, w, w0, c) && AllZero(w) && AllZero(w0)
    ensures AllZero(Relaxed(l, w, w0, a, c, sweeps))
  {
    if sweeps > 0 {
      RelaxedZero(l, w, w0, a, c, sweeps - 1);
      SweepRowsZero(l, Relaxed(l, w, w0, a, c, sweeps - 1), w0, a, c, l.m + 1);
    }
  }

  // ---------------------------------------------------------------- projection

  /** Minus half the central differences of u across x and of v across y, over sqrt(M*N). */
  function NegHalfDivergence(uRight: real, uLeft: real, vUp: real, vDown: real, sqrtMN: real): real
    requires sqrtMN != 0.0
  {
    -0.5 * (uRight - uLeft + vUp - vDown) / sqrtMN
  }

  /** The divergence `#project` writes at interior cell (i, j), normalised by sqrt(M*N). */
  function DivergenceAt(m: int, n: int, vel: seq<real>, sqrtMN: real, i: int, j: int): real
    requires IsVelocity(m, n, vel) && sqrtMN != 0.0 && 1 <= i <= m && 1 <= j <= n
  {
    IdxInRange(m, n, i + 1, j);
    IdxInRange(m, n, i - 1, j);
    IdxInRange(m, n, i, j + 1);
    IdxInRange(m, n, i, j - 1);
    NegHalfDivergence(vel[Idx2(m, i + 1, j)], vel[Idx2(m, i - 1, j)], vel[Idx2(m, i, j + 1) + 1], vel[Idx2(m, i, j - 1) + 1], sqrtMN)
  }

  /** The values the divergence loop of `#project` writes, cell by cell. */
  function DivergenceField(m: int, n: int, vel: seq<real>, sqrtMN: real): CellValues
    requires IsVelocity(m, n, vel) && sqrtMN != 0.0
  {
    (x, y) => if 1 <= x <= m && 1 <= y <= n then DivergenceAt(m, n, vel, sqrtMN, x, y) else 0.0
  }

  /** The divergence loop of `#project`: interior entries of div are overwritten, the border kept. */
  function Divergence(m: int, n: int, div: seq<real>, vel: seq<real>, sqrtMN: real): (r: seq<real>)
    requires IsField(Scalar(m, n), div) && IsVelocity(m, n, vel) && sqrtMN != 0.0
  {
    Fill(Scalar(m, n), div, DivergenceField(m, n, vel, sqrtMN))
  }

  /** One component minus half the grid size times the pressure difference across the cell. */
  function LessGradient(v: real, size: int, ahead: real, behind: real): real
  {
    v - 0.5 * size as real * (ahead - behind)
  }

  /** The new u of interior cell (x, y): u minus M/2 times the pressure difference across x. */
  function SubtractXAt(m: int, n: int, vel: seq<real>, p: seq<real>, x: int, y: int): real
    requires IsVelocity(m, n, vel) && IsField(Scalar(m, n), p) && 1 <= x <= m && 1 <= y <= n
  {
    LessGradient(vel[VelX(m, n).At(x, y)], m, p[Scalar(m, n).At(x + 1, y)], p[Scalar(m, n).At(x - 1, y)])
  }

  /** The new v of interior cell (x, y): v minus N/2 times the pressure difference across y. */
  function SubtractYAt(m: int, n: int, vel: seq<real>, p: seq<real>, x: int, y: int): real
    requires IsVelocity(m, n, vel) && IsField(Scalar(m, n), p) && 1 <= x <= m && 1 <= y <= n
  {
    LessGradient(vel[VelY(m, n).At(x, y)], n, p[Scalar(m, n).At(x, y + 1)], p[Scalar(m, n).At(x, y - 1)])
  }

  /** The u values of the gradient-subtraction loop, cell by cell. */
  function GradientX(m: int, n: int, vel: seq<real>, p: seq<real>): CellValues
    requires IsVelocity(m, n, vel) && IsField(Scalar(m, n), p)
  {
    (x, y) => if 1 <= x <= m && 1 <= y <= n then SubtractXAt(m, n, vel, p, x, y) else 0.0
  }

  /** The v values of the gradient-subtraction loop, cell by cell. */
  function GradientY(m: int, n: int, vel: seq<real>, p: seq<real>): CellValues
    requires IsVelocity(m, n, vel) && IsField(Scalar(m, n), p)
  {
    (x, y) => if 1 <= x <= m && 1 <= y <= n then SubtractYAt(m, n, vel, p, x, y) else 0.0
  }

  /** The gradient-subtraction loop of `#project`: both components of every interior cell updated, the border kept. */
  function Subtracted(m: int, n: int, vel: seq<real>, p: seq<real>): (r: seq<real>)
    requires IsVelocity(m, n, vel) && IsField(Scalar(m, n), p)
  {
    Fill(VelY(m, n), Fill(VelX(m, n), vel, GradientX(m, n, vel, p)), GradientY(m, n, vel, p))
  }

  /** The velocity buffer during the subtraction loop, once both entries of the cells before (i, j) have been written. */
  function SubtractedUpTo(m: int, n: int, vel: seq<real>, p: seq<real>, i: int, j: int): (r: seq<real>)
    requires IsVelocity(m, n, vel) && IsField(Scalar(m, n), p)
  {
    FillUpTo(VelY(m, n), FillUpTo(VelX(m, n), vel, GradientX(m, n, vel, p), i, j), GradientY(m, n, vel, p), i, j)
  }

  /** The two entries of a cell belong to different components. */
  lemma {:induction false} ComponentsApart(m: int, n: int, i: int, j: int)
    requires 1 <= m && 1 <= n && 0 <= i <= m + 1 && 0 <= j <= n + 1
    ensures VelX(m, n).At(i, j) == Idx2(m, i, j) && VelY(m, n).At(i, j) == Idx2(m, i, j) + 1
    ensures !VelY(m, n).Interior(VelX(m, n).At(i, j)) && !VelX(m, n).Interior(VelY(m, n).At(i, j))
  {
  }

  /** Before cell (i, j) is written, both its entries hold the velocity the loop started from. */
  lemma {:induction false} SubtractedUpToReads(m: int, n: int, vel: seq<real>, p: seq<real>, i: int, j: int)
    requires IsVelocity(m, n, vel) && IsField(Scalar(m, n), p)
    requires 1 <= i <= m && 1 <= j <= n
    ensures var u := SubtractedUpTo(m, n, vel, p, i, j);
      u[VelX(m, n).At(i, j)] == vel[VelX(m, n).At(i, j)] && u[VelY(m, n).At(i, j)] == vel[VelY(m, n).At(i, j)]
  {
    var lx, ly := VelX(m, n), VelY(m, n);
    var gx, gy := GradientX(m, n, vel, p), GradientY(m, n, vel, p);
    ComponentsApart(m, n, i, j);
    FillUpToUnvisited(lx, vel, gx, i, j, i, j);
    FillUpToUnvisited(ly, FillUpTo(lx, vel, gx, i, j), gy, i, j, i, j);
  }

  /** Writing both components of cell (i, j) moves the loop on; a row's end is the next row's start. */
  lemma {:induction false} SubtractedUpToStep(m: int, n: int, vel: seq<real>, p: seq<real>, i: int, j: int)
    requires IsVelocity(m, n, vel) && IsField(Scalar(m, n), p)
    requires 1 <= i <= m && 1 <= j <= n
    ensures SubtractedUpTo(m, n, vel, p, i, j)
          [VelX(m, n).At(i, j) := GradientX(m, n, vel, p)(i, j)]
          [VelY(m, n).At(i, j) := GradientY(m, n, vel, p)(i, j)]
        == SubtractedUpTo(m, n, vel, p, i, j + 1)
    ensures SubtractedUpTo(m, n, vel, p, i, n + 1) == SubtractedUpTo(m, n, vel, p, i + 1, 1)
  {
    var lx, ly := VelX(m, n), VelY(m, n);
    var gx, gy := GradientX(m, n, vel, p), GradientY(m, n, vel, p);
    var u := FillUpTo(lx, vel, gx, i, j);
    ComponentsApart(m, n, i, j);
    FillUpToOutside(ly, u, gy, i, j, lx.At(i, j), gx(i, j));
    FillUpToStep(lx, vel, gx, i, j);
    FillUpToStep(ly, FillUpTo(lx, vel, gx, i, j + 1), gy, i, j);
    FillUpToStep(lx, vel, gx, i, 1);
    FillUpToStep(ly, FillUpTo(lx, vel, gx, i + 1, 1), gy, i, 1);
  }

  lemma {:induction false} SubtractedUpToEnds(m: int, n: int, vel: seq<real>, p: seq<real>)
    requires IsVelocity(m, n, vel) && IsField(Scalar(m, n), p)
    ensures SubtractedUpTo(m, n, vel, p, 1, 1) == vel
    ensures SubtractedUpTo(m, n, vel, p, m + 1, 1) == Subtracted(m, n, vel, p)
  {
    var gx, gy := GradientX(m, n, vel, p), GradientY(m, n, vel, p);
    FillUpToEnds(VelX(m, n), vel, gx);
    FillUpToEnds(VelY(m, n), vel, gy);
    FillUpToEnds(VelY(m, n), Fill(VelX(m, n), vel, gx), gy);
  }

  /** The contents of the velocity, divergence and pressure buffers after `#project`. */
  datatype Projection = Projection(vel: seq<real>, div: seq<real>, p: seq<real>)

  function Pressure(m: int, n: int, div: seq<real>): seq<real>
    requires IsField(Scalar(m, n), div)
  {
    Relaxed(Scalar(m, n), Zeros(|div|), div, 1.0, 4.0, RelaxSweeps)
  }

  /**
   * `#project(vel, div, p)`: divergence into div, p zero-filled and relaxed
   * with (a, c) = (1, 4) against div, then the pressure gradient subtracted
   * from the interior velocity.
   */
  function Project(m: int, n: int, vel: seq<real>, div: seq<real>, sqrtMN: real): (r: Projection)
    requires IsVelocity(m, n, vel) && IsField(Scalar(m, n), div) && sqrtMN != 0.0
  {
    var div' := Divergence(m, n, div, vel, sqrtMN);
    var p := Pressure(m, n, div');
    Projection(Subtracted(m, n, vel, p), div', p)
  }

  /** The divergence loop keeps the size of div and changes only its interior entries. */
  lemma {:induction false} DivergenceFrame(m: int, n: int, div: seq<real>, vel: seq<real>, sqrtMN: real)
    requires IsField(Scalar(m, n), div) && IsVelocity(m, n, vel) && sqrtMN != 0.0
    ensures |Divergence(m, n, div, vel, sqrtMN)| == |div|
    ensures forall k :: 0 <= k < |div| && !Scalar(m, n).Interior(k) ==> Divergence(m, n, div, vel, sqrtMN)[k] == div[k]
  {
    FillFrame(Scalar(m, n), div, DivergenceField(m, n, vel, sqrtMN));
  }

  /** The divergence loop writes `DivergenceAt` at every interior cell. */
  lemma {:induction false} DivergenceCell(m: int, n: int, div: seq<real>, vel: seq<real>, sqrtMN: real, i: int, j: int)
    requires IsField(Scalar(m, n), div) && IsVelocity(m, n, vel) && sqrtMN != 0.0
    requires 1 <= i <= m && 1 <= j <= n
    ensures Divergence(m, n, div, vel, sqrtMN)[Scalar(m, n).At(i, j)] == DivergenceAt(m, n, vel, sqrtMN, i, j)
  {
    var f := DivergenceField(m, n, vel, sqrtMN);
    assert f(i, j) == DivergenceAt(m, n, vel, sqrtMN, i, j);
    FillAt(Scalar(m, n), div, f, i, j);
  }

  /** A velocity field at rest has zero divergence. */
  lemma {:induction false} DivergenceAtRest(m: int, n: int, vel: seq<real>, sqrtMN: real, i: int, j: int)
    requires IsVelocity(m, n, vel) && sqrtMN != 0.0 && 1 <= i <= m && 1 <= j <= n && AllZero(vel)
    ensures DivergenceAt(m, n, vel, sqrtMN, i, j) == 0.0
  {
    IdxInRange(m, n, i + 1, j);
    IdxInRange(m, n, i - 1, j);
    IdxInRange(m, n, i, j + 1);
    IdxInRange(m, n, i, j - 1);
    assert vel[Idx2(m, i + 1, j)] - vel[Idx2(m, i - 1, j)] + vel[Idx2(m, i, j + 1) + 1] - vel[Idx2(m, i, j - 1) + 1] == 0.0;
  }

  /** Zero velocity and a zero div buffer give a zero divergence buffer. */
  lemma {:induction false} DivergenceZero(m: int, n: int, div: seq<real>, vel: seq<real>, sqrtMN: real)
    requires IsField(Scalar(m, n), div) && IsVelocity(m, n, vel) && sqrtMN != 0.0
    requires AllZero(vel) && AllZero(div)
    ensures AllZero(Divergence(m, n, div, vel, sqrtMN))
  {
    var l := Scalar(m, n);
    DivergenceFrame(m, n, div, vel, sqrtMN);
    forall k | 0 <= k < |div| && l.Interior(k)
      ensures Divergence(m, n, div, vel, sqrtMN)[k] == 0.0
    {
      InteriorEncodes(l, k);
      DivergenceCell(m, n, div, vel, sqrtMN, l.CellX(k), l.CellY(k));
      DivergenceAtRest(m, n, vel, sqrtMN, l.CellX(k), l.CellY(k));
    }
  }

  /** Gradient subtraction keeps the buffer's size and changes only interior velocity entries. */
  lemma {:induction false} SubtractedFrame(m: int, n: int, vel: seq<real>, p: seq<real>)
    requires IsVelocity(m, n, vel) && IsField(Scalar(m, n), p)
    ensures |Subtracted(m, n, vel, p)| == |vel|
    ensures forall k :: 0 <= k < |vel| && !VelX(m, n).Interior(k) && !VelY(m, n).Interior(k) ==>
      Subtracted(m, n, vel, p)[k] == vel[k]
  {
    var gx, gy := GradientX(m, n, vel, p), GradientY(m, n, vel, p);
    FillFrame(VelX(m, n), vel, gx);
    FillFrame(VelY(m, n), Fill(VelX(m, n), vel, gx), gy);
  }

  /**
   * Gradient subtraction sets u and v of interior cell (i, j) to
   * u - M/2 (p[i+1,j] - p[i-1,j]) and v - N/2 (p[i,j+1] - p[i,j-1]).
   */
  lemma {:induction false} SubtractedAt(m: int, n: int, vel: seq<real>, p: seq<real>, i: int, j: int)
    requires IsVelocity(m, n, vel) && IsField(Scalar(m, n), p) && 1 <= i <= m && 1 <= j <= n
    ensures Subtracted(m, n, vel, p)[VelX(m, n).At(i, j)] == SubtractXAt(m, n, vel, p, i, j)
    ensures Subtracted(m, n, vel, p)[VelY(m, n).At(i, j)] == SubtractYAt(m, n, vel, p, i, j)
  {
    var lx, ly := VelX(m, n), VelY(m, n);
    var gx, gy := GradientX(m, n, vel, p), GradientY(m, n, vel, p);
    assert gx(i, j) == SubtractXAt(m, n, vel, p, i, j);
    assert gy(i, j) == SubtractYAt(m, n, vel, p, i, j);
    var u := Fill(lx, vel, gx);
    ComponentsApart(m, n, i, j);
    FillAt(lx, vel, gx, i, j);
    FillOutside(ly, u, gy, lx.At(i, j));
    FillAt(ly, u, gy, i, j);
  }

  /** Where velocity and pressure are zero, both entries of cell (i, j) become zero. */
  lemma {:induction false} SubtractedAtRest(m: int, n: int, vel: seq<real>, p: seq<real>, i: int, j: int)
    requires IsVelocity(m, n, vel) && IsField(Scalar(m, n), p) && 1 <= i <= m && 1 <= j <= n
    requires AllZero(vel) && AllZero(p)
    ensures Subtracted(m, n, vel, p)[VelX(m, n).At(i, j)] == 0.0
    ensures Subtracted(m, n, vel, p)[VelY(m, n).At(i, j)] == 0.0
  {
    var ls := Scalar(m, n);
    SubtractedAt(m, n, vel, p, i, j);
    assert p[ls.At(i + 1, j)] == 0.0 && p[ls.At(i - 1, j)] == 0.0;
    assert p[ls.At(i, j + 1)] == 0.0 && p[ls.At(i, j - 1)] == 0.0;
  }

  /** A zero velocity field minus the gradient of a zero pressure is zero. */
  lemma {:induction false} SubtractedZero(m: int, n: int, vel: seq<real>, p: seq<real>)
    requires IsVelocity(m, n, vel) && IsField(Scalar(m, n), p) && AllZero(vel) && AllZero(p)
    ensures AllZero(Subtracted(m, n, vel, p))
  {
    var lx, ly := VelX(m, n), VelY(m, n);
    SubtractedFrame(m, n, vel, p);
    forall k | 0 <= k < |vel| && (lx.Interior(k) || ly.Interior(k))
      ensures Subtracted(m, n, vel, p)[k] == 0.0
    {
      var l := if lx.Interior(k) then lx else ly;
      InteriorEncodes(l, k);
      SubtractedAtRest(m, n, vel, p, l.CellX(k), l.CellY(k));
    }
  }

  /**
   * Projection changes only interior velocity entries, keeps every buffer's
   * size and leaves the pressure buffer's border at zero.
   */
  lemma {:induction false} ProjectFrame(m: int, n: int, vel: seq<real>, div: seq<real>, sqrtMN: real)
    requires IsVelocity(m, n, vel) && IsField(Scalar(m, n), div) && sqrtMN != 0.0
    ensures var r := Project(m, n, vel, div, sqrtMN);
      && |r.vel| == |vel| && |r.div| == |div| && |r.p| == |div|
      && (forall k :: 0 <= k < |vel| && !VelX(m, n).Interior(k) && !VelY(m, n).Interior(k) ==> r.vel[k] == vel[k])
      && (forall k :: 0 <= k < |div| && !Scalar(m, n).Interior(k) ==> r.div[k] == div[k] && r.p[k] == 0.0)
  {
    var div' := Divergence(m, n, div, vel, sqrtMN);
    DivergenceFrame(m, n, div, vel, sqrtMN);
    RelaxedFrame(Scalar(m, n), Zeros(|div|), div', 1.0, 4.0, RelaxSweeps);
    SubtractedFrame(m, n, vel, Pressure(m, n, div'));
  }

  /** Projecting an all-zero velocity field with a zero divergence buffer leaves all three buffers zero. */
  lemma {:induction false} ProjectZero(m: int, n: int, vel: seq<real>, div: seq<real>, sqrtMN: real)
    requires IsVelocity(m, n, vel) && IsField(Scalar(m, n), div) && sqrtMN != 0.0
    requires AllZero(vel) && AllZero(div)
    ensures AllZero(Project(m, n, vel, div, sqrtMN).vel)
    ensures AllZero(Project(m, n, vel, div, sqrtMN).div)
    ensures AllZero(Project(m, n, vel, div, sqrtMN).p)
  {
    var div' := Divergence(m, n, div, vel, sqrtMN);
    DivergenceZero(m, n, div, vel, sqrtMN);
    RelaxedZero(Scalar(m, n), Zeros(|div|), div', 1.0, 4.0, RelaxSweeps);
    SubtractedZero(m, n, vel, Pressure(m, n, div'));
  }
}

=== FILE: grid.dfy ===
/**
 * Index arithmetic of the CPU solver's flat buffers.
 *
 * A field covers an (M+2) x (N+2) grid: M x N interior cells surrounded by a
 * one-cell border ring. Cells are stored row-major, x fastest. A vector field
 * interleaves its two components, so component `offset` of cell (x, y) lives at
 * `2 * Idx(x, y) + offset`.
 */
module Grid {

  /**
   * Index of the first cell of row y in a grid of width m + 2, that is
   * (m + 2) * y, written as repeated addition so that the index arithmetic
   * stays linear (`RowStartIsProduct` states the closed form).
   */
  function RowStart(m: int, y: int): int
    decreases if y < 0 then -y else y
  {
    if y == 0 then 0
    else if 0 < y then RowStart(m, y - 1) + (m + 2)
    else RowStart(m, y + 1) - (m + 2)
  }

  /** `#idx`: row-major index of cell (x, y) in a scalar field of width m + 2. */
  function Idx(m: int, x: int, y: int): int
  {
    x + RowStart(m, y)
  }

  /** `#idx2`: index of the first component of cell (x, y) in a vector field. */
  function Idx2(m: int, x: int, y: int): int
  {
    2 * Idx(m, x, y)
  }

  /** Number of cells of an (m+2) x (n+2) grid, border included. */
  function Cells(m: int, n: int): int
  {
    RowStart(m, n + 2)
  }

  /** The row of scalar index c in a grid of width m + 2, that is c / (m + 2). */
  function RowOf(m: int, c: int): (y: int)
    requires 0 <= m && 0 <= c
    ensures 0 <= y
    decreases c
  {
    if c < m + 2 then 0 else 1 + RowOf(m, c - (m + 2))
  }

  /** `#clamp`: `Math.min(high, Math.max(x, low))`. */
  function Clamp(x: real, low: real, high: real): (r: real)
    ensures r <= high
    ensures low <= high ==> low <= r
    ensures low <= x <= high ==> r == x
    ensures x <= low <= high ==> r == low
    ensures low <= high <= x ==> r == high
  {
    var lifted := if x < low then low else x;  // Math.max(x, low)
    if high < lifted then high else lifted        // Math.min(high, lifted)
  }

  /** The index formula is the row-major one, x + (m + 2) * y, and the grid has (m + 2)(n + 2) cells. */
  lemma {:induction false} RowStartIsProduct(m: int, y: int)
    ensures RowStart(m, y) == (m + 2) * y
    ensures Idx(m, 0, y) == (m + 2) * y
    decreases if y < 0 then -y else y
  {
    if 0 < y {
      RowStartIsProduct(m, y - 1);
    } else if y < 0 {
      RowStartIsProduct(m, y + 1);
    }
  }

  /** Later rows start at least one full row further on. */
  lemma {:induction false} RowStartMonotone(m: int, y: int, y': int)
    requires 0 <= m && y < y'
    ensures RowStart(m, y) + (m + 2) <= RowStart(m, y')
    decreases y' - y
  {
    if y + 1 < y' {
      RowStartMonotone(m, y, y' - 1);
      if y' - 1 < 0 {
        assert RowStart(m, y' - 1) == RowStart(m, y') - (m + 2);
      }
    } else if y' < 0 {
      assert RowStart(m, y) == RowStart(m, y') - (m + 2);
    }
  }

  /**
   * Every cell of the grid, border included, has a scalar index below
   * (m+2)(n+2) and a vector index whose second component is below
   * 2(m+2)(n+2): every stencil read from an interior cell is in bounds.
   */
  lemma {:induction false} IdxInRange(m: int, n: int, x: int, y: int)
    requires 0 <= m && 0 <= n
    requires 0 <= x <= m + 1 && 0 <= y <= n + 1
    ensures 0 <= Idx(m, x, y) < Cells(m, n)
    ensures 0 <= Idx2(m, x, y) && Idx2(m, x, y) + 1 < 2 * Cells(m, n)
  {
    if 0 < y {
      RowStartMonotone(m, 0, y);
    }
    RowStartMonotone(m, y, n + 2);
  }

  /** The row of the index of cell (x, y) is y. */
  lemma {:induction false} RowOfIdx(m: int, x: int, y: int)
    requires 0 <= m && 0 <= x <= m + 1 && 0 <= y
    ensures 0 <= Idx(m, x, y) && RowOf(m, Idx(m, x, y)) == y
    decreases y
  {
    if 0 < y {
      RowOfIdx(m, x, y - 1);
    }
  }

  /** A scalar index lies within its row: it is the index of a cell of column 0 .. m + 1. */
  lemma {:induction false} RowOfBounds(m: int, c: int)
    requires 0 <= m && 0 <= c
    ensures 0 <= c - RowStart(m, RowOf(m, c)) < m + 2
    decreases c
  {
    if m + 2 <= c {
      RowOfBounds(m, c - (m + 2));
    }
  }

  /**
   * Which buffer entries a pass over one component of a field touches: a field
   * of `stride` components per cell (1 or 2) on an m x n interior grid, and
   * the component `offset` selected by the pass.
   */
  datatype Layout = Layout(m: int, n: int, stride: int, offset: int)
  {
    predicate Valid()
    {
      1 <= m && 1 <= n && (stride == 1 || stride == 2) && 0 <= offset < stride
    }

    /** Length of a buffer holding a field of this arity. */
    function Size(): int
    {
      if stride == 1 then Cells(m, n) else 2 * Cells(m, n)
    }

    /** The `idx` closure of `#advect` and `#jacobi`: `#idx(x,y) + offset` or `#idx2(x,y) + offset`. */
    function At(x: int, y: int): (k: int)
      requires Valid()
      requires 0 <= x <= m + 1 && 0 <= y <= n + 1
      ensures 0 <= k < Size()
    {
      IdxInRange(m, n, x, y);
      if stride == 1 then Idx(m, x, y) + offset else Idx2(m, x, y) + offset
    }

    /** Scalar index of the cell that buffer entry k belongs to. */
    function Cell(k: int): int
      requires Valid()
    {
      if stride == 1 then k - offset else (k - offset) / 2
    }

    /** Row of the cell that buffer entry k belongs to. */
    function CellY(k: int): int
      requires Valid() && offset <= k
    {
      RowOf(m, Cell(k))
    }

    /** Column of the cell that buffer entry k belongs to. */
    function CellX(k: int): int
      requires Valid() && offset <= k
    {
      Cell(k) - RowStart(m, CellY(k))
    }

    /** Entry k holds the selected component of an interior cell. */
    predicate Interior(k: int)
      requires Valid()
    {
      offset <= k && (stride == 1 || (k - offset) % 2 == 0) && 1 <= CellX(k) <= m && 1 <= CellY(k) <= n
    }
  }

  /** The entry of cell (x, y) decodes back to (x, y); interior cells give interior entries. */
  lemma {:induction false} AtDecodes(l: Layout, x: int, y: int)
    requires l.Valid() && 0 <= x <= l.m + 1 && 0 <= y <= l.n + 1
    ensures l.offset <= l.At(x, y)
    ensures l.CellX(l.At(x, y)) == x && l.CellY(l.At(x, y)) == y
    ensures l.Interior(l.At(x, y)) <==> 1 <= x <= l.m && 1 <= y <= l.n
  {
    IdxInRange(l.m, l.n, x, y);
    assert l.Cell(l.At(x, y)) == Idx(l.m, x, y);
    RowOfIdx(l.m, x, y);
  }

  /** An interior entry is the entry of the cell it decodes to. */
  lemma {:induction false} InteriorEncodes(l: Layout, k: int)
    requires l.Valid() && l.Interior(k)
    ensures l.At(l.CellX(k), l.CellY(k)) == k
  {
    assert Idx(l.m, l.CellX(k), l.CellY(k)) == l.Cell(k);
  }

  /** `InteriorEncodes` for every entry at once. */
  lemma InteriorEncodesAll(l: Layout)
    requires l.Valid()
    ensures forall k :: l.Interior(k) ==> l.At(l.CellX(k), l.CellY(k)) == k
  {
    forall k | l.Interior(k)
      ensures l.At(l.CellX(k), l.CellY(k)) == k
    {
      InteriorEncodes(l, k);
    }
  }

  /** Two cells of the grid share an entry only if they are the same cell. */
  lemma {:induction false} AtInjective(l: Layout, x: int, y: int, x': int, y': int)
    requires l.Valid()
    requires 0 <= x <= l.m + 1 && 0 <= y <= l.n + 1
    requires 0 <= x' <= l.m + 1 && 0 <= y' <= l.n + 1
    requires l.At(x, y) == l.At(x', y')
    ensures x == x' && y == y'
  {
    AtDecodes(l, x, y);
    AtDecodes(l, x', y');
  }

  /** Distinct cells have distinct entries. */
  lemma AtDistinct(l: Layout, x: int, y: int, x': int, y': int)
    requires l.Valid()
    requires 0 <= x <= l.m + 1 && 0 <= y <= l.n + 1
    requires 0 <= x' <= l.m + 1 && 0 <= y' <= l.n + 1
    requires x != x' || y != y'
    ensures l.At(x, y) != l.At(x', y')
  {
    if l.At(x, y) == l.At(x', y') {
      AtInjective(l, x, y, x', y');
    }
  }
}

=== FILE: history.dfy ===
/**
 * The history endpoints of the backend: the records of a batch, grouped by
 * the time they were fetched into a dictionary of lists, keyed in the order
 * the fetch times first appear.
 */
module History {
  import opened Models

  /** The fetch time a record is grouped under. */
  function FetchTime(vp: VehiclePosition): int
  {
    vp.data.timestampFetch
  }

  /** The fetch times present in some records. */
  function FetchTimes(vehicles: seq<VehiclePosition>): set<int>
  {
    set k | 0 <= k < |vehicles| :: FetchTime(vehicles[k])
  }

  /** The records fetched at time t, in input order. */
  function Group(vehicles: seq<VehiclePosition>, t: int): (g: seq<VehiclePosition>)
    ensures |g| <= |vehicles|
    ensures forall k :: 0 <= k < |g| ==> FetchTime(g[k]) == t
  {
    if |vehicles| == 0 then []
    else
      var last := vehicles[|vehicles| - 1];
      Group(vehicles[..|vehicles| - 1], t) + (if FetchTime(last) == t then [last] else [])
  }

  /** The distinct fetch times, in the order they first appear. */
  function FirstOccurrences(vehicles: seq<VehiclePosition>): (keys: seq<int>)
    ensures forall t :: t in keys <==> t in FetchTimes(vehicles)
  {
    if |vehicles| == 0 then []
    else
      var init := vehicles[..|vehicles| - 1];
      var t := FetchTime(vehicles[|vehicles| - 1]);
      assert FetchTimes(vehicles) == FetchTimes(init) + {t} by {
        assert forall k :: 0 <= k < |init| ==> init[k] == vehicles[k];
      }
      if t in FirstOccurrences(init) then FirstOccurrences(init) else FirstOccurrences(init) + [t]
  }

  /** What one more record of the input adds to the groups, the fetch times and the key order. */
  lemma PrefixStep(vehicles: seq<VehiclePosition>, i: nat)
    requires i < |vehicles|
    ensures forall t :: Group(vehicles[..i + 1], t) == Group(vehicles[..i], t) + (if FetchTime(vehicles[i]) == t then [vehicles[i]] else [])
    ensures FetchTimes(vehicles[..i + 1]) == FetchTimes(vehicles[..i]) + {FetchTime(vehicles[i])}
    ensures FirstOccurrences(vehicles[..i + 1]) ==
      if FetchTime(vehicles[i]) in FetchTimes(vehicles[..i]) then FirstOccurrences(vehicles[..i])
      else FirstOccurrences(vehicles[..i]) + [FetchTime(vehicles[i])]
  {
    assert vehicles[..i + 1][..i] == vehicles[..i];
  }

  /**
   * The grouping loop shared by `get_vehiclepositions_lastbatch` and
   * `get_vehiclepositions_history`: a dictionary from fetch time to the
   * records fetched then, in input order, and the order its keys were
   * inserted in.
   */
  method GroupByFetchTime(vehicles: seq<VehiclePosition>) returns (groups: map<int, seq<VehiclePosition>>, keys: seq<int>)
    ensures groups.Keys == FetchTimes(vehicles)
    ensures forall t :: t in groups ==> groups[t] == Group(vehicles, t)
    ensures keys == FirstOccurrences(vehicles)
  {
    groups := map[];
    keys := [];
    for i := 0 to |vehicles|
      invariant groups.Keys == FetchTimes(vehicles[..i])
      invariant forall t :: t in groups ==> groups[t] == Group(vehicles[..i], t)
      invariant keys == FirstOccurrences(vehicles[..i])
    {
      var vp := vehicles[i];
      PrefixStep(vehicles, i);
      if vp.data.timestampFetch !in groups {
        GroupAbsent(vehicles[..i], vp.data.timestampFetch);
        groups := groups[vp.data.timestampFetch := []];
        keys := keys + [vp.data.timestampFetch];
      }
      groups := groups[vp.data.timestampFetch := groups[vp.data.timestampFetch] + [vp]];
    }
    assert vehicles[..|vehicles|] == vehicles;
  }

  /** Grouping a concatenation groups each part, in order. */
  lemma {:induction false} GroupAppend(a: seq<VehiclePosition>, b: seq<VehiclePosition>, t: int)
    ensures Group(a + b, t) == Group(a, t) + Group(b, t)
    decreases |b|
  {
    if |b| == 0 {
      assert a + b == a;
    } else {
      var b' := b[..|b| - 1];
      assert (a + b)[..|a + b| - 1] == a + b';
      assert (a + b)[|a + b| - 1] == b[|b| - 1];
      GroupAppend(a, b', t);
    }
  }

  /** Every record lands in the group of its own fetch time, and in no other. */
  lemma {:induction false} GroupMembers(vehicles: seq<VehiclePosition>, t: int)
    ensures forall k :: 0 <= k < |vehicles| && FetchTime(vehicles[k]) == t ==> vehicles[k] in Group(vehicles, t)
    ensures forall vp :: vp in Group(vehicles, t) ==> vp in vehicles && FetchTime(vp) == t
  {
    if |vehicles| > 0 {
      var init := vehicles[..|vehicles| - 1];
      GroupMembers(init, t);
      forall k | 0 <= k < |init| ensures init[k] == vehicles[k] {}
    }
  }

  /** No group is empty: a fetch time present has at least one record. */
  lemma {:induction false} GroupNonEmpty(vehicles: seq<VehiclePosition>, t: int)
    requires t in FetchTimes(vehicles)
    ensures |Group(vehicles, t)| > 0
  {
    var k :| 0 <= k < |vehicles| && FetchTime(vehicles[k]) == t;
    GroupMembers(vehicles, t);
    assert vehicles[k] in Group(vehicles, t);
  }

  /** A time absent from the records has an empty group. */
  lemma {:induction false} GroupAbsent(vehicles: seq<VehiclePosition>, t: int)
    requires t !in FetchTimes(vehicles)
    ensures Group(vehicles, t) == []
  {
    if |vehicles| > 0 {
      var init := vehicles[..|vehicles| - 1];
      assert FetchTime(vehicles[|vehicles| - 1]) in FetchTimes(vehicles);
      assert t !in FetchTimes(init) by {
        assert forall k :: 0 <= k < |init| ==> init[k] == vehicles[k];
      }
      GroupAbsent(init, t);
    }
  }

  /** The total size of the groups of some keys. */
  function TotalSize(vehicles: seq<VehiclePosition>, keys: seq<int>): nat
  {
    if |keys| == 0 then 0 else TotalSize(vehicles, keys[..|keys| - 1]) + |Group(vehicles, keys[|keys| - 1])|
  }

  /** No key appears twice. */
  predicate Distinct(keys: seq<int>)
  {
    forall i, j :: 0 <= i < j < |keys| ==> keys[i] != keys[j]
  }

  lemma {:induction false} FirstOccurrencesDistinct(vehicles: seq<VehiclePosition>)
    ensures Distinct(FirstOccurrences(vehicles))
  {
    if |vehicles| > 0 {
      FirstOccurrencesDistinct(vehicles[..|vehicles| - 1]);
    }
  }

  /** One more record grows the total over distinct keys by one if its time is among them, and by nothing otherwise. */
  lemma {:induction false} TotalSizeStep(vehicles: seq<VehiclePosition>, vp: VehiclePosition, keys: seq<int>)
    requires Distinct(keys)
    ensures TotalSize(vehicles + [vp], keys) == TotalSize(vehicles, keys) + (if FetchTime(vp) in keys then 1 else 0)
  {
    if |keys| > 0 {
      var init := keys[..|keys| - 1];
      assert Distinct(init);
      TotalSizeStep(vehicles, vp, init);
      assert (vehicles + [vp])[..|vehicles + [vp]| - 1] == vehicles;
      assert FetchTime(vp) in keys <==> FetchTime(vp) in init || FetchTime(vp) == keys[|keys| - 1] by {
        assert keys == init + [keys[|keys| - 1]];
      }
      if FetchTime(vp) == keys[|keys| - 1] {
        assert FetchTime(vp) !in init;
      }
    }
  }

  /** The groups hold every record exactly once: their sizes add up to the number of records. */
  lemma {:induction false} GroupSizesSum(vehicles: seq<VehiclePosition>)
    ensures TotalSize(vehicles, FirstOccurrences(vehicles)) == |vehicles|
  {
    if |vehicles| > 0 {
      var init := vehicles[..|vehicles| - 1];
      var vp := vehicles[|vehicles| - 1];
      var keys := FirstOccurrences(init);
      assert vehicles == init + [vp];
      GroupSizesSum(init);
      FirstOccurrencesDistinct(init);
      TotalSizeStep(init, vp, keys);
      if FetchTime(vp) !in keys {
        FirstOccurrencesDistinct(vehicles);
        GroupAbsent(init, FetchTime(vp));
        assert Group(vehicles, FetchTime(vp)) == [vp];
        assert (keys + [FetchTime(vp)])[..|keys|] == keys;
      }
    }
  }

  /** The first position at which time t was fetched, if any. */
  function FirstIndex(vehicles: seq<VehiclePosition>, t: int): (i: nat)
    requires t in FetchTimes(vehicles)
    ensures i < |vehicles| && FetchTime(vehicles[i]) == t
    ensures forall k :: 0 <= k < i ==> FetchTime(vehicles[k]) != t
  {
    if FetchTime(vehicles[0]) == t then 0
    else
      assert t in FetchTimes(vehicles[1..]) by {
        var k :| 0 <= k < |vehicles| && FetchTime(vehicles[k]) == t;
        assert vehicles[1..][k - 1] == vehicles[k];
      }
      1 + FirstIndex(vehicles[1..], t)
  }

  /** The keys are in first-occurrence order: an earlier key first appears before a later one does. */
  lemma {:induction false} FirstOccurrencesOrdered(vehicles: seq<VehiclePosition>, a: nat, b: nat)
    requires a < b < |FirstOccurrences(vehicles)|
    ensures FirstIndex(vehicles, FirstOccurrences(vehicles)[a]) < FirstIndex(vehicles, FirstOccurrences(vehicles)[b])
  {
    var keys := FirstOccurrences(vehicles);
    var init := vehicles[..|vehicles| - 1];
    var keys' := FirstOccurrences(init);
    var ka, kb := keys[a], keys[b];
    assert forall k :: 0 <= k < |init| ==> init[k] == vehicles[k];
    assert ka in keys';
    if b < |keys'| {
      assert keys'[a] == ka && keys'[b] == kb;
      FirstOccurrencesOrdered(init, a, b);
      FirstIndexPrefix(vehicles, ka);
      FirstIndexPrefix(vehicles, kb);
    } else {
      assert kb !in FetchTimes(init) by {
        FirstOccurrencesDistinct(vehicles);
        assert keys == keys' + [kb];
      }
      FirstIndexPrefix(vehicles, ka);
    }
  }

  /** A time present before the last record is first fetched at the same place with or without it. */
  lemma FirstIndexPrefix(vehicles: seq<VehiclePosition>, t: int)
    requires 0 < |vehicles| && t in FetchTimes(vehicles)
    ensures t in FetchTimes(vehicles[..|vehicles| - 1]) ==> FirstIndex(vehicles, t) == FirstIndex(vehicles[..|vehicles| - 1], t)
    ensures t !in FetchTimes(vehicles[..|vehicles| - 1]) ==> FirstIndex(vehicles, t) == |vehicles| - 1
  {
    var init := vehicles[..|vehicles| - 1];
    var i := FirstIndex(vehicles, t);
    if t in FetchTimes(init) {
      var j := FirstIndex(init, t);
      assert vehicles[j] == init[j];
    }
  }

  /**
   * `get_vehiclepositions_lastbatch` orders its records by fetch time; on
   * such input the keys come out in strictly increasing order.
   */
  lemma {:induction false} SortedInputSortedKeys(vehicles: seq<VehiclePosition>)
    requires forall i, j :: 0 <= i < j < |vehicles| ==> FetchTime(vehicles[i]) <= FetchTime(vehicles[j])
    ensures forall a, b :: 0 <= a < b < |FirstOccurrences(vehicles)| ==> FirstOccurrences(vehicles)[a] < FirstOccurrences(vehicles)[b]
  {
    if |vehicles| > 0 {
      var init := vehicles[..|vehicles| - 1];
      var t := FetchTime(vehicles[|vehicles| - 1]);
      assert forall k :: 0 <= k < |init| ==> init[k] == vehicles[k];
      SortedInputSortedKeys(init);
      var keys' := FirstOccurrences(init);
      forall u | u in FetchTimes(init) ensures u <= t {
        var k :| 0 <= k < |init| && FetchTime(init[k]) == u;
        assert init[k] == vehicles[k];
      }
      if t !in keys' {
        forall a | 0 <= a < |keys'| ensures keys'[a] < t {
          assert keys'[a] in FetchTimes(init);
        }
      }
    }
  }
}

=== FILE: models.dfy ===
/**
 * The stored vehicle-position record of the backend. The fields a fetch
 * fills in once are an immutable `PositionData`; the two apparent-velocity
 * fields, which `calc_apparent_velocity` sets on existing records, are
 * mutable.
 */
module Models {
  import opened Wrappers

  /** The columns written when a record is built from the feed. */
  datatype PositionData = PositionData(
    batchId: string,
    timestampFetch: int,
    timestamp: int,
    tripId: string,
    routeId: string,
    vehicleId: string,
    vehicleLabel: string,
    latitude: real,
    longitude: real,
    speed: real,
    bearing: real,
    odometer: real)

  class VehiclePosition {
    const data: PositionData
    /** Degrees of latitude per second, unset until a later fetch computes it. */
    var apparentVelocityLat: Option<real>
    /** Degrees of longitude per second, unset until a later fetch computes it. */
    var apparentVelocityLong: Option<real>

    /** A new record: the given columns, both apparent velocities unset. */
    constructor (data: PositionData)
      ensures this.data == data
      ensures apparentVelocityLat == None && apparentVelocityLong == None
    {
      this.data := data;
      apparentVelocityLat := None;
      apparentVelocityLong := None;
    }
  }
}

=== FILE: passes.dfy ===
/**
 * The bookkeeping shared by the two GPU solvers.
 *
 * Each quantity (density, velocity, scratch) lives in a texture array of
 * three layers. Layers 0 and 1 ping-pong: an out index names the layer that
 * holds the current field, and a pass producing a new field renders into the
 * other layer and then flips the index. Layer 2 holds an input that must stay
 * fixed while a relaxation runs: the uploaded source, the advected field or
 * the divergence.
 *
 * The shaders are outside the model, so a render pass is recorded only by its
 * pipeline name, the layer it renders into and the layers it binds as inputs.
 * The device queue is the sequence of commands in the order the GPU runs
 * them: a `queue.writeTexture` or `queue.writeBuffer` enters the queue when it
 * is issued, the render passes of a command encoder when the encoder is
 * submitted.
 */
module Passes {
  import opened Wrappers
  import opened Diffusion

  datatype Quantity = Density | Velocity | Scratch

  /** Layer `index` of the texture array of quantity q. */
  datatype Slot = Slot(q: Quantity, index: int)

  datatype Command =
    | Upload(quantity: Quantity, layers: seq<int>)               // queue.writeTexture into layers of one texture array
    | SetUniform(u: Coefficients)                                // queue.writeBuffer of the (a, c) uniform
    | Clear(target: Slot)                                        // a render pass that draws nothing
    | Render(pipeline: string, target: Slot, inputs: seq<Slot>)  // a render pass drawing the full-screen quad

  /** The layer exists: every texture array has three. */
  predicate InBounds(s: Slot)
  {
    0 <= s.index <= 2
  }

  /** Every layer the command names exists, and a render pass binds no input that is its own target. */
  predicate Sound(c: Command)
  {
    match c
    case Upload(_, layers) => forall k :: 0 <= k < |layers| ==> 0 <= layers[k] <= 2
    case SetUniform(_) => true
    case Clear(target) => InBounds(target)
    case Render(_, target, inputs) =>
      InBounds(target) && forall k :: 0 <= k < |inputs| ==> InBounds(inputs[k]) && inputs[k] != target
  }

  /** The command overwrites some layer of q. */
  predicate WritesTo(c: Command, q: Quantity)
  {
    match c
    case Upload(quantity, _) => quantity == q
    case SetUniform(_) => false
    case Clear(target) => target.q == q
    case Render(_, target, _) => target.q == q
  }

  predicate AllSound(cmds: seq<Command>)
  {
    forall i :: 0 <= i < |cmds| ==> Sound(cmds[i])
  }

  lemma AllSoundAppend(a: seq<Command>, b: seq<Command>)
    requires AllSound(a) && AllSound(b)
    ensures AllSound(a + b)
  {
    forall i | 0 <= i < |a + b|
      ensures Sound((a + b)[i])
    {
      if i < |a| {
        assert (a + b)[i] == a[i];
      } else {
        assert (a + b)[i] == b[i - |a|];
      }
    }
  }

  /** An out index: 0 or 1. */
  predicate IsBit(i: int)
  {
    i == 0 || i == 1
  }

  /** The index `out` after k flips `out = 1 - out`. */
  function Flipped(out: int, k: nat): int
  {
    if k == 0 then out else 1 - Flipped(out, k - 1)
  }

  /** An even number of flips restores the index, an odd number inverts it. */
  lemma {:induction false} FlippedParity(out: int, k: nat)
    ensures Flipped(out, k) == if k % 2 == 0 then out else 1 - out
  {
    if 0 < k {
      FlippedParity(out, k - 1);
    }
  }

  /**
   * The layer of q that holds q's newest computed result once c has run,
   * given that `before` held it beforehand: a render pass into q makes its
   * target the newest; a clear or an upload that overwrites that layer leaves
   * no computed result.
   */
  function NewestAfter(c: Command, q: Quantity, before: Option<int>): Option<int>
  {
    match c
    case Render(_, target, _) => if target.q == q then Some(target.index) else before
    case Clear(target) => if before.Some? && target == Slot(q, before.value) then None else before
    case Upload(quantity, layers) => if quantity == q && before.Some? && before.value in layers then None else before
    case SetUniform(_) => before
  }

  /** `NewestAfter` over a whole command sequence. */
  function Newest(cmds: seq<Command>, q: Quantity, before: Option<int>): Option<int>
  {
    if |cmds| == 0 then before
    else NewestAfter(cmds[|cmds| - 1], q, Newest(cmds[..|cmds| - 1], q, before))
  }

  /** Running a + b is running a, then b. */
  lemma {:induction false} NewestAppend(a: seq<Command>, b: seq<Command>, q: Quantity, before: Option<int>)
    ensures Newest(a + b, q, before) == Newest(b, q, Newest(a, q, before))
    decreases |b|
  {
    if |b| == 0 {
      assert a + b == a;
    } else {
      assert (a + b)[..|a + b| - 1] == a + b[..|b| - 1];
      NewestAppend(a, b[..|b| - 1], q, before);
    }
  }

  /** In a sound queue the newest result of q, when there is one, is in an existing layer. */
  lemma {:induction false} NewestInBounds(cmds: seq<Command>, q: Quantity)
    requires AllSound(cmds)
    ensures Newest(cmds, q, None).None? || 0 <= Newest(cmds, q, None).value <= 2
    decreases |cmds|
  {
    if 0 < |cmds| {
      NewestInBounds(cmds[..|cmds| - 1], q);
      assert Sound(cmds[|cmds| - 1]);
    }
  }

  /** No command of cmds writes a layer of q. */
  predicate Untouched(cmds: seq<Command>, q: Quantity)
  {
    forall i :: 0 <= i < |cmds| ==> !WritesTo(cmds[i], q)
  }

  /** Commands that write no layer of q leave q's newest result where it was. */
  lemma {:induction false} NewestUntouched(cmds: seq<Command>, q: Quantity, before: Option<int>)
    requires Untouched(cmds, q)
    ensures Newest(cmds, q, before) == before
    decreases |cmds|
  {
    if 0 < |cmds| {
      NewestUntouched(cmds[..|cmds| - 1], q, before);
    }
  }

  lemma UntouchedAppend(a: seq<Command>, b: seq<Command>, q: Quantity)
    requires Untouched(a, q) && Untouched(b, q)
    ensures Untouched(a + b, q)
  {
    forall i | 0 <= i < |a + b|
      ensures !WritesTo((a + b)[i], q)
    {
      if i < |a| {
        assert (a + b)[i] == a[i];
      } else {
        assert (a + b)[i] == b[i - |a|];
      }
    }
  }

  /** Layer `out` holds q's newest computed result, if there is one. */
  predicate NamesNewest(newest: Option<int>, out: int)
  {
    newest.None? || newest.value == out
  }

  /** Input j of pass i reads the newest result of its quantity when the pass runs. */
  predicate ReadsNewest(cmds: seq<Command>, i: int, j: int, before: Option<int>)
    requires 0 <= i < |cmds| && cmds[i].Render? && 0 <= j < |cmds[i].inputs|
  {
    Newest(cmds[..i], cmds[i].inputs[j].q, before) == Some(cmds[i].inputs[j].index)
  }

  /** The (a, c) uniform in effect after cmds: the last one written, if any. */
  function UniformIn(cmds: seq<Command>): Option<Coefficients>
  {
    if |cmds| == 0 then None
    else if cmds[|cmds| - 1].SetUniform? then Some(cmds[|cmds| - 1].u)
    else UniformIn(cmds[..|cmds| - 1])
  }

  predicate NoUniform(cmds: seq<Command>)
  {
    forall i :: 0 <= i < |cmds| ==> !cmds[i].SetUniform?
  }

  lemma NoUniformAppend(a: seq<Command>, b: seq<Command>)
    requires NoUniform(a) && NoUniform(b)
    ensures NoUniform(a + b)
  {
    forall i | 0 <= i < |a + b|
      ensures !(a + b)[i].SetUniform?
    {
      if i < |a| {
        assert (a + b)[i] == a[i];
      } else {
        assert (a + b)[i] == b[i - |a|];
      }
    }
  }

  /** Commands that write no uniform leave none in effect of their own. */
  lemma {:induction false} NoUniformNone(cmds: seq<Command>)
    requires NoUniform(cmds)
    ensures UniformIn(cmds) == None
    decreases |cmds|
  {
    if 0 < |cmds| {
      NoUniformNone(cmds[..|cmds| - 1]);
    }
  }

  /** The uniform in effect after a + b: the last one b writes, or a's when b writes none. */
  lemma {:induction false} UniformInAppend(a: seq<Command>, b: seq<Command>)
    ensures UniformIn(a + b) == if UniformIn(b).Some? then UniformIn(b) else UniformIn(a)
    decreases |b|
  {
    if |b| == 0 {
      assert a + b == a;
    } else {
      assert (a + b)[..|a + b| - 1] == a + b[..|b| - 1];
      UniformInAppend(a, b[..|b| - 1]);
    }
  }

  /** A `queue.writeBuffer` of the (a, c) uniform, then passes that write no uniform themselves. */
  function WithUniform(u: Coefficients, passes: seq<Command>): seq<Command>
  {
    [SetUniform(u)] + passes
  }

  /** The uniform write neither binds nor writes a layer. */
  lemma WithUniformEffect(u: Coefficients, passes: seq<Command>, q: Quantity, before: Option<int>)
    ensures AllSound(passes) ==> AllSound(WithUniform(u, passes))
    ensures Untouched(passes, q) ==> Untouched(WithUniform(u, passes), q)
    ensures Newest(WithUniform(u, passes), q, before) == Newest(passes, q, before)
  {
    if AllSound(passes) {
      AllSoundAppend([SetUniform(u)], passes);
    }
    if Untouched(passes, q) {
      UntouchedAppend([SetUniform(u)], passes, q);
    }
    NewestAppend([SetUniform(u)], passes, q, before);
  }

  /** Pass j runs with the uniform written just before the passes. */
  lemma {:induction false} WithUniformAt(u: Coefficients, passes: seq<Command>, j: nat)
    requires NoUniform(passes) && j < |passes|
    ensures WithUniform(u, passes)[1 + j] == passes[j]
    ensures UniformIn(WithUniform(u, passes)[..1 + j]) == Some(u)
    decreases j
  {
    var all := WithUniform(u, passes);
    if j == 0 {
      assert all[..1] == [SetUniform(u)];
    } else {
      WithUniformAt(u, passes, j - 1);
      assert all[..1 + j][..j] == all[..j];
    }
  }

  // ---------------------------------------------------------------------
  // Relaxation ping-pong
  // ---------------------------------------------------------------------

  /** One relaxation pass: layer 2 is the fixed right-hand side, layer `out` the current guess, layer 1 - out the next. */
  function SweepPass(pipeline: string, q: Quantity, out: int): Command
  {
    Render(pipeline, Slot(q, 1 - out), [Slot(q, 2), Slot(q, out)])
  }

  /** k relaxation passes starting from out index `out`, the index flipping after each. */
  function Sweeps(pipeline: string, q: Quantity, out: int, k: nat): (r: seq<Command>)
    ensures |r| == k
  {
    if k == 0 then [] else Sweeps(pipeline, q, out, k - 1) + [SweepPass(pipeline, q, Flipped(out, k - 1))]
  }

  /** Pass i of the ping-pong starts from the index after i flips. */
  lemma {:induction false} SweepsAt(pipeline: string, q: Quantity, out: int, k: nat, i: nat)
    requires i < k
    ensures Sweeps(pipeline, q, out, k)[i] == SweepPass(pipeline, q, Flipped(out, i))
    decreases k
  {
    if i < k - 1 {
      SweepsAt(pipeline, q, out, k - 1, i);
    }
  }

  /** Every relaxation pass is sound, writes only layers of q and writes no uniform. */
  lemma SweepsSound(pipeline: string, q: Quantity, out: int, k: nat)
    requires IsBit(out)
    ensures AllSound(Sweeps(pipeline, q, out, k)) && NoUniform(Sweeps(pipeline, q, out, k))
    ensures forall q' :: q' != q ==> Untouched(Sweeps(pipeline, q, out, k), q')
  {
    var r := Sweeps(pipeline, q, out, k);
    forall i | 0 <= i < k
      ensures Sound(r[i]) && !r[i].SetUniform? && r[i].Render? && r[i].target.q == q
    {
      SweepsAt(pipeline, q, out, k, i);
      FlippedParity(out, i);
    }
  }

  /** The first i passes of k are the ping-pong of i passes. */
  lemma {:induction false} SweepsPrefix(pipeline: string, q: Quantity, out: int, k: nat, i: nat)
    requires i <= k
    ensures Sweeps(pipeline, q, out, k)[..i] == Sweeps(pipeline, q, out, i)
    decreases k
  {
    if i < k {
      SweepsPrefix(pipeline, q, out, k - 1, i);
      assert Sweeps(pipeline, q, out, k)[..i] == Sweeps(pipeline, q, out, k - 1)[..i];
    }
  }

  /** After k > 0 passes the newest result of q is in layer Flipped(out, k). */
  lemma SweepsNewest(pipeline: string, q: Quantity, out: int, k: nat, before: Option<int>)
    requires 0 < k
    ensures Newest(Sweeps(pipeline, q, out, k), q, before) == Some(Flipped(out, k))
  {
    assert Sweeps(pipeline, q, out, k)[..k - 1] == Sweeps(pipeline, q, out, k - 1);
  }

  /**
   * When layer `out` held q's newest result, every pass binds as its guess
   * the newest result at the time it runs, that is the layer the previous
   * pass wrote; and no pass writes the fixed layer 2 that it also binds.
   */
  lemma SweepsReadNewest(pipeline: string, q: Quantity, out: int, k: nat, i: nat)
    requires IsBit(out) && i < k
    ensures Sweeps(pipeline, q, out, k)[i] == SweepPass(pipeline, q, Flipped(out, i))
    ensures Sweeps(pipeline, q, out, k)[i].target.index != 2 && Sweeps(pipeline, q, out, k)[i].inputs[0] == Slot(q, 2)
    ensures ReadsNewest(Sweeps(pipeline, q, out, k), i, 1, Some(out))
  {
    SweepsAt(pipeline, q, out, k, i);
    FlippedParity(out, i);
    SweepsPrefix(pipeline, q, out, k, i);
    if 0 < i {
      SweepsNewest(pipeline, q, out, i, Some(out));
    }
  }

  // ---------------------------------------------------------------------
  // Passes shared by both GPU solvers
  // ---------------------------------------------------------------------

  /** Source injection: the source is written into layer 2, then one pass adds it to layer `out` into layer 1 - out. */
  function SourceQueue(pipeline: string, q: Quantity, out: int): seq<Command>
  {
    [Upload(q, [2]), Render(pipeline, Slot(q, 1 - out), [Slot(q, out), Slot(q, 2)])]
  }

  /** Injection is sound, leaves q's newest result in layer 1 - out and touches no other quantity. */
  lemma SourceQueueNewest(pipeline: string, q: Quantity, out: int, before: Option<int>)
    requires IsBit(out)
    ensures AllSound(SourceQueue(pipeline, q, out))
    ensures Newest(SourceQueue(pipeline, q, out), q, before) == Some(1 - out)
    ensures forall q' :: q' != q ==> Untouched(SourceQueue(pipeline, q, out), q')
  {
    var r := SourceQueue(pipeline, q, out);
    assert r[..1] == [Upload(q, [2])];
  }

  /** Density advection into layer 2 from density layer d along velocity layer v. */
  function AdvectDensityPass(d: int, v: int): Command
  {
    Render("advect", Slot(Density, 2), [Slot(Density, d), Slot(Velocity, v)])
  }

  /** `densityStep`: the uniform write, then advection and `count` relaxation passes in one submission. */
  function DensityQueue(u: Coefficients, count: nat, d: int, v: int): seq<Command>
  {
    WithUniform(u, [AdvectDensityPass(d, v)] + Sweeps("jacobi", Density, d, count))
  }

  /**
   * A density step is sound, leaves the newest density in layer Flipped(d,
   * count) and touches no other quantity.
   */
  lemma DensityQueueProperties(u: Coefficients, count: nat, d: int, v: int, before: Option<int>)
    requires IsBit(d) && IsBit(v) && 0 < count
    ensures AllSound(DensityQueue(u, count, d, v))
    ensures Newest(DensityQueue(u, count, d, v), Density, before) == Some(Flipped(d, count))
    ensures Untouched(DensityQueue(u, count, d, v), Velocity) && Untouched(DensityQueue(u, count, d, v), Scratch)
  {
    var head := [AdvectDensityPass(d, v)];
    var sweeps := Sweeps("jacobi", Density, d, count);
    SweepsSound("jacobi", Density, d, count);
    AllSoundAppend(head, sweeps);
    UntouchedAppend(head, sweeps, Velocity);
    UntouchedAppend(head, sweeps, Scratch);
    NewestAppend(head, sweeps, Density, before);
    SweepsNewest("jacobi", Density, d, count, Newest(head, Density, before));
    WithUniformEffect(u, head + sweeps, Velocity, before);
    WithUniformEffect(u, head + sweeps, Scratch, before);
    WithUniformEffect(u, head + sweeps, Density, before);
  }

  /** Every relaxation pass of a density step runs with the uniform the step wrote. */
  lemma DensityQueueUniform(u: Coefficients, count: nat, d: int, v: int, j: nat)
    requires IsBit(d) && j < count
    ensures DensityQueue(u, count, d, v)[2 + j] == SweepPass("jacobi", Density, Flipped(d, j))
    ensures UniformIn(DensityQueue(u, count, d, v)[..2 + j]) == Some(u)
  {
    var sweeps := Sweeps("jacobi", Density, d, count);
    SweepsSound("jacobi", Density, d, count);
    NoUniformAppend([AdvectDensityPass(d, v)], sweeps);
    var passes := [AdvectDensityPass(d, v)] + sweeps;
    WithUniformAt(u, passes, 1 + j);
    assert passes[1 + j] == sweeps[j];
    SweepsAt("jacobi", Density, d, count, j);
  }

  /** Appending commands that write no layer of q keeps q's newest result where it was. */
  lemma NewestKept(before: seq<Command>, cmds: seq<Command>, q: Quantity)
    requires Untouched(cmds, q)
    ensures Newest(before + cmds, q, None) == Newest(before, q, None)
  {
    NewestAppend(before, cmds, q, None);
    NewestUntouched(cmds, q, Newest(before, q, None));
  }

  /** Source injection after a sound queue: q's newest result moves to layer 1 - out, the others stay. */
  lemma SourceQueueAppend(pipeline: string, q: Quantity, out: int, before: seq<Command>)
    requires IsBit(out) && AllSound(before)
    ensures AllSound(before + SourceQueue(pipeline, q, out))
    ensures Newest(before + SourceQueue(pipeline, q, out), q, None) == Some(1 - out)
    ensures forall q' :: q' != q ==> Newest(before + SourceQueue(pipeline, q, out), q', None) == Newest(before, q', None)
  {
    var added := SourceQueue(pipeline, q, out);
    SourceQueueNewest(pipeline, q, out, Newest(before, q, None));
    AllSoundAppend(before, added);
    NewestAppend(before, added, q, None);
    forall q' | q' != q
      ensures Newest(before + added, q', None) == Newest(before, q', None)
    {
      NewestKept(before, added, q');
    }
  }

  /** A density step after a sound queue: the newest density moves to layer Flipped(d, count), velocity stays. */
  lemma DensityQueueAppend(u: Coefficients, count: nat, d: int, v: int, before: seq<Command>)
    requires IsBit(d) && IsBit(v) && 0 < count && AllSound(before)
    ensures AllSound(before + DensityQueue(u, count, d, v))
    ensures Newest(before + DensityQueue(u, count, d, v), Density, None) == Some(Flipped(d, count))
    ensures Newest(before + DensityQueue(u, count, d, v), Velocity, None) == Newest(before, Velocity, None)
  {
    var added := DensityQueue(u, count, d, v);
    DensityQueueProperties(u, count, d, v, Newest(before, Density, None));
    AllSoundAppend(before, added);
    NewestAppend(before, added, Density, None);
    NewestKept(before, added, Velocity);
  }

  // ---------------------------------------------------------------------
  // Velocity step
  // ---------------------------------------------------------------------

  /** Velocity self-advection into layer 2 from layer v, along layer v. */
  function AdvectVelocityPass(v: int): Command
  {
    Render("advectVec2", Slot(Velocity, 2), [Slot(Velocity, v), Slot(Velocity, v)])
  }

  /** Advection, then `count` relaxation passes of the vector field. */
  function DiffusionPasses(v: int, count: nat): seq<Command>
  {
    [AdvectVelocityPass(v)] + Sweeps("jacobiVec2", Velocity, v, count)
  }

  /** Divergence of velocity layer v into scratch layer 2, binding scratch layer 0 as well. */
  function DivergencePass(v: int): Command
  {
    Render("divergence", Slot(Scratch, 2), [Slot(Velocity, v), Slot(Scratch, 0)])
  }

  /**
   * Gradient subtraction: velocity layer v less the gradient of pressure
   * layer p, into velocity layer 1 - v. The solvers draw it with the
   * `advectVec2` pipeline, and so does the model.
   */
  function SubtractPass(v: int, p: int): Command
  {
    Render("advectVec2", Slot(Velocity, 1 - v), [Slot(Velocity, v), Slot(Scratch, p)])
  }

  /** Divergence, `count` pressure passes ping-ponging from scratch layer 0, then gradient subtraction. */
  function ProjectionPasses(v: int, count: nat): seq<Command>
  {
    [DivergencePass(v)] + Sweeps("jacobi", Scratch, 0, count) + [SubtractPass(v, Flipped(0, count))]
  }

  /** Advection and diffusion are sound, write no uniform and leave the newest velocity in layer Flipped(v, count). */
  lemma DiffusionPassesProperties(v: int, count: nat, before: Option<int>)
    requires IsBit(v) && 0 < count
    ensures AllSound(DiffusionPasses(v, count)) && NoUniform(DiffusionPasses(v, count))
    ensures Newest(DiffusionPasses(v, count), Velocity, before) == Some(Flipped(v, count))
    ensures Untouched(DiffusionPasses(v, count), Density)
  {
    var head := [AdvectVelocityPass(v)];
    var sweeps := Sweeps("jacobiVec2", Velocity, v, count);
    SweepsSound("jacobiVec2", Velocity, v, count);
    AllSoundAppend(head, sweeps);
    NewestAppend(head, sweeps, Velocity, before);
    SweepsNewest("jacobiVec2", Velocity, v, count, Newest(head, Velocity, before));
    NoUniformAppend(head, sweeps);
    UntouchedAppend(head, sweeps, Density);
  }

  /** Projection is sound, writes no uniform and no density, and leaves the newest velocity in layer 1 - v. */
  lemma ProjectionPassesProperties(v: int, count: nat, before: Option<int>)
    requires IsBit(v) && 0 < count
    ensures AllSound(ProjectionPasses(v, count)) && NoUniform(ProjectionPasses(v, count))
    ensures Newest(ProjectionPasses(v, count), Velocity, before) == Some(1 - v)
    ensures Untouched(ProjectionPasses(v, count), Density)
  {
    var sweeps := Sweeps("jacobi", Scratch, 0, count);
    var head := [DivergencePass(v)];
    var last := [SubtractPass(v, Flipped(0, count))];
    FlippedParity(0, count);
    SweepsSound("jacobi", Scratch, 0, count);
    AllSoundAppend(head, sweeps);
    AllSoundAppend(head + sweeps, last);
    NoUniformAppend(head, sweeps);
    NoUniformAppend(head + sweeps, last);
    UntouchedAppend(head, sweeps, Density);
    UntouchedAppend(head + sweeps, last, Density);
  }

  /**
   * Before gradient subtraction, the newest pressure is the layer the last
   * pressure pass wrote, and the velocity is as projection found it.
   */
  lemma ProjectionPassesBody(v: int, count: nat, before: Option<int>)
    requires 0 < count
    ensures var r := ProjectionPasses(v, count);
      Newest(r[..|r| - 1], Scratch, before) == Some(Flipped(0, count))
    ensures var r := ProjectionPasses(v, count);
      Newest(r[..|r| - 1], Velocity, before) == before
  {
    var sweeps := Sweeps("jacobi", Scratch, 0, count);
    var head := [DivergencePass(v)];
    var r := ProjectionPasses(v, count);
    assert r[..|r| - 1] == head + sweeps;
    NewestAppend(head, sweeps, Scratch, before);
    SweepsNewest("jacobi", Scratch, 0, count, Newest(head, Scratch, before));
    NewestAppend(head, sweeps, Velocity, before);
    SweepsSound("jacobi", Scratch, 0, count);
    NewestUntouched(sweeps, Velocity, before);
  }

  /**
   * A velocity step with its two uniform writes where they belong: the
   * diffusion coefficients u before advection and diffusion, the pressure
   * coefficients (1, 4) before projection.
   */
  function VelocityPasses(u: Coefficients, v: int, count: nat): seq<Command>
  {
    WithUniform(u, DiffusionPasses(v, count)) + WithUniform(Pressure, ProjectionPasses(Flipped(v, count), count))
  }

  /** The step is sound, writes no density and leaves the newest velocity in the layer the last flip leaves the index off. */
  lemma VelocityPassesEffect(u: Coefficients, v: int, count: nat, before: Option<int>)
    requires IsBit(v) && 0 < count
    ensures AllSound(VelocityPasses(u, v, count))
    ensures Newest(VelocityPasses(u, v, count), Velocity, before) == Some(1 - Flipped(v, count))
    ensures Untouched(VelocityPasses(u, v, count), Density)
  {
    var w := Flipped(v, count);
    FlippedParity(v, count);
    var diffusion, projection := DiffusionPasses(v, count), ProjectionPasses(w, count);
    DiffusionPassesProperties(v, count, before);
    WithUniformEffect(u, diffusion, Density, before);
    WithUniformEffect(u, diffusion, Velocity, before);
    var mid := Newest(diffusion, Velocity, before);
    ProjectionPassesProperties(w, count, mid);
    WithUniformEffect(Pressure, projection, Density, mid);
    WithUniformEffect(Pressure, projection, Velocity, mid);
    AllSoundAppend(WithUniform(u, diffusion), WithUniform(Pressure, projection));
    UntouchedAppend(WithUniform(u, diffusion), WithUniform(Pressure, projection), Density);
    NewestAppend(WithUniform(u, diffusion), WithUniform(Pressure, projection), Velocity, before);
  }

  /** Diffusion pass j (position 2 + j) runs with the diffusion coefficients. */
  lemma VelocityPassesDiffusionUniform(u: Coefficients, v: int, count: nat, j: nat)
    requires IsBit(v) && j < count
    ensures VelocityPasses(u, v, count)[2 + j] == SweepPass("jacobiVec2", Velocity, Flipped(v, j))
    ensures UniformIn(VelocityPasses(u, v, count)[..2 + j]) == Some(u)
  {
    var diffusion := DiffusionPasses(v, count);
    var first := WithUniform(u, diffusion);
    var r := VelocityPasses(u, v, count);
    SweepsSound("jacobiVec2", Velocity, v, count);
    NoUniformAppend([AdvectVelocityPass(v)], Sweeps("jacobiVec2", Velocity, v, count));
    WithUniformAt(u, diffusion, 1 + j);
    assert r[..2 + j] == first[..2 + j];
    assert r[2 + j] == first[2 + j];
    assert diffusion[1 + j] == Sweeps("jacobiVec2", Velocity, v, count)[j];
    SweepsAt("jacobiVec2", Velocity, v, count, j);
  }

  /** Pressure pass j (position count + 4 + j) runs with the pressure coefficients (1, 4). */
  lemma VelocityPassesPressureUniform(u: Coefficients, v: int, count: nat, j: nat)
    requires IsBit(v) && j < count
    ensures VelocityPasses(u, v, count)[count + 4 + j] == SweepPass("jacobi", Scratch, Flipped(0, j))
    ensures UniformIn(VelocityPasses(u, v, count)[..count + 4 + j]) == Some(Pressure)
  {
    var w := Flipped(v, count);
    var first := WithUniform(u, DiffusionPasses(v, count));
    var projection := ProjectionPasses(w, count);
    var second := WithUniform(Pressure, projection);
    var r := VelocityPasses(u, v, count);
    var sweeps := Sweeps("jacobi", Scratch, 0, count);
    SweepsSound("jacobi", Scratch, 0, count);
    NoUniformAppend([DivergencePass(w)], sweeps);
    NoUniformAppend([DivergencePass(w)] + sweeps, [SubtractPass(w, Flipped(0, count))]);
    WithUniformAt(Pressure, projection, 1 + j);
    assert |first| == count + 2;
    assert r[..count + 4 + j] == first + second[..2 + j];
    assert r[count + 4 + j] == second[2 + j];
    UniformInAppend(first, second[..2 + j]);
    assert projection[1 + j] == sweeps[j];
    SweepsAt("jacobi", Scratch, 0, count, j);
  }

  /** The divergence pass (position count + 3) binds the newest velocity: the diffused one. */
  lemma VelocityPassesDivergence(u: Coefficients, v: int, count: nat, before: Option<int>)
    requires IsBit(v) && 0 < count
    ensures VelocityPasses(u, v, count)[count + 3] == DivergencePass(Flipped(v, count))
    ensures ReadsNewest(VelocityPasses(u, v, count), count + 3, 0, before)
  {
    var diffusion := DiffusionPasses(v, count);
    var first := WithUniform(u, diffusion);
    var r := VelocityPasses(u, v, count);
    assert r[..count + 3] == first + [SetUniform(Pressure)];
    DiffusionPassesProperties(v, count, before);
    WithUniformEffect(u, diffusion, Velocity, before);
    NewestAppend(first, [SetUniform(Pressure)], Velocity, before);
  }

  /** Gradient subtraction, the last pass, binds the newest velocity: the one divergence read. */
  lemma VelocityPassesSubtraction(u: Coefficients, v: int, count: nat, before: Option<int>)
    requires IsBit(v) && 0 < count
    ensures |VelocityPasses(u, v, count)| == 2 * count + 5
    ensures VelocityPasses(u, v, count)[2 * count + 4] == SubtractPass(Flipped(v, count), Flipped(0, count))
    ensures ReadsNewest(VelocityPasses(u, v, count), 2 * count + 4, 0, before)
  {
    var w := Flipped(v, count);
    var diffusion := DiffusionPasses(v, count);
    var first := WithUniform(u, diffusion);
    var projection := ProjectionPasses(w, count);
    var body := projection[..|projection| - 1];
    var r := VelocityPasses(u, v, count);
    assert r[..2 * count + 4] == first + WithUniform(Pressure, body);
    DiffusionPassesProperties(v, count, before);
    WithUniformEffect(u, diffusion, Velocity, before);
    NewestAppend(first, WithUniform(Pressure, body), Velocity, before);
    WithUniformEffect(Pressure, body, Velocity, Some(w));
    ProjectionPassesBody(w, count, Some(w));
  }

  /** Gradient subtraction binds the newest pressure: the layer the last pressure pass wrote. */
  lemma VelocityPassesPressureRead(u: Coefficients, v: int, count: nat, before: Option<int>)
    requires 0 < count
    ensures |VelocityPasses(u, v, count)| == 2 * count + 5
    ensures VelocityPasses(u, v, count)[2 * count + 4] == SubtractPass(Flipped(v, count), Flipped(0, count))
    ensures ReadsNewest(VelocityPasses(u, v, count), 2 * count + 4, 1, before)
  {
    var w := Flipped(v, count);
    var first := WithUniform(u, DiffusionPasses(v, count));
    var projection := ProjectionPasses(w, count);
    var body := projection[..|projection| - 1];
    var r := VelocityPasses(u, v, count);
    assert r[..2 * count + 4] == first + WithUniform(Pressure, body);
    var x := Newest(first, Scratch, before);
    NewestAppend(first, WithUniform(Pressure, body), Scratch, before);
    WithUniformEffect(Pressure, body, Scratch, x);
    ProjectionPassesBody(w, count, x);
  }
}

=== FILE: simulation_app.dfy ===
/**
 * `SimulationApp`: the second GPU solver, the same render-pass design as
 * `SimulationFrag` with 40 relaxation passes per solve, `addsrc` pipelines
 * for injection, no dissipation in the density coefficients and no `reset`.
 *
 * Its `velocityStep` differs in two ways, both modelled as written:
 * everything is submitted at once, after both uniform writes, and the out
 * index is not flipped after gradient subtraction. `VelocityStepCorrected`
 * is the step with both defects removed.
 */
module AppSolver {
  import opened Config
  import opened Wrappers
  import opened Diffusion
  import opened Passes

  /** Relaxation passes per solve. */
  const SweepCount := 40

  /** 40 is even: a relaxation leaves an out index where it found it. */
  lemma SweepsRestore(out: int)
    ensures Flipped(out, SweepCount) == out
  {
    FlippedParity(out, SweepCount);
  }

  /**
   * The state `SimulationApp` keeps: the out indices are 0 or 1, the density
   * index names the layer holding the newest density, and no queued pass
   * binds a layer it writes. The velocity index is not part of it: the
   * velocity step as written leaves it off the newest velocity.
   */
  predicate Tracks(s: Settings, d: int, v: int, queue: seq<Command>)
  {
    && s.Valid()
    && IsBit(d) && IsBit(v)
    && AllSound(queue)
    && NamesNewest(Newest(queue, Density, None), d)
  }

  /** `addSourceDensity` keeps the state consistent once the density index flips. */
  lemma DensitySourceTracks(s: Settings, d: int, v: int, before: seq<Command>)
    requires Tracks(s, d, v, before)
    ensures Tracks(s, 1 - d, v, before + SourceQueue("addsrc", Density, d))
  {
    SourceQueueAppend("addsrc", Density, d, before);
  }

  /** `addSourceVelocity` keeps the state consistent, and leaves the newest velocity where the flipped index points. */
  lemma VelocitySourceTracks(s: Settings, d: int, v: int, before: seq<Command>)
    requires Tracks(s, d, v, before)
    ensures Tracks(s, d, 1 - v, before + SourceQueue("addsrcVec2", Velocity, v))
    ensures Newest(before + SourceQueue("addsrcVec2", Velocity, v), Velocity, None) == Some(1 - v)
  {
    SourceQueueAppend("addsrcVec2", Velocity, v, before);
  }

  /** `densityStep` keeps the state consistent with the density index back where it started (40 flips). */
  lemma DensityStepTracks(s: Settings, d: int, v: int, before: seq<Command>)
    requires Tracks(s, d, v, before)
    ensures Tracks(s, d, v, before + DensityQueue(AppDensityCoefficients(s), SweepCount, d, v))
  {
    SweepsRestore(d);
    DensityQueueAppend(AppDensityCoefficients(s), SweepCount, d, v, before);
  }

  /** The single submission of `velocityStep`: advection and diffusion, then projection. */
  function Submission(v: int): seq<Command>
  {
    DiffusionPasses(v, SweepCount) + ProjectionPasses(v, SweepCount)
  }

  /**
   * The submission binds no layer it writes, writes no uniform and no
   * density, and leaves the newest velocity in layer 1 - v, the layer
   * gradient subtraction wrote.
   */
  lemma SubmissionProperties(v: int, before: Option<int>)
    requires IsBit(v)
    ensures AllSound(Submission(v)) && NoUniform(Submission(v)) && Untouched(Submission(v), Density)
    ensures Newest(Submission(v), Velocity, before) == Some(1 - v)
  {
    var diffusion := DiffusionPasses(v, SweepCount);
    var projection := ProjectionPasses(v, SweepCount);
    DiffusionPassesProperties(v, SweepCount, before);
    ProjectionPassesProperties(v, SweepCount, Newest(diffusion, Velocity, before));
    AllSoundAppend(diffusion, projection);
    NoUniformAppend(diffusion, projection);
    UntouchedAppend(diffusion, projection, Density);
    NewestAppend(diffusion, projection, Velocity, before);
  }

  /**
   * `velocityStep` as written, with diffusion coefficients u: u is written,
   * then the pressure coefficients, then the single submission runs.
   */
  function AsWrittenVelocityQueue(u: Coefficients, v: int): seq<Command>
  {
    [SetUniform(u)] + WithUniform(Pressure, Submission(v))
  }

  /** The step as written issues its commands in the order of `AsWrittenVelocityQueue`. */
  lemma AsWrittenQueueIssued(u: Coefficients, v: int, before: seq<Command>, diffused: seq<Command>, projected: seq<Command>)
    requires diffused == DiffusionPasses(v, SweepCount) && projected == ProjectionPasses(v, SweepCount)
    ensures before + [SetUniform(u)] + [SetUniform(Pressure)] + (diffused + projected)
      == before + AsWrittenVelocityQueue(u, v)
  {
  }

  /**
   * The queue of the step as written binds no layer it writes, writes no
   * density, and leaves the newest velocity in layer 1 - v.
   */
  lemma AsWrittenEffect(u: Coefficients, v: int, before: Option<int>)
    requires IsBit(v)
    ensures AllSound(AsWrittenVelocityQueue(u, v)) && Untouched(AsWrittenVelocityQueue(u, v), Density)
    ensures Newest(AsWrittenVelocityQueue(u, v), Velocity, before) == Some(1 - v)
  {
    var first := [SetUniform(u)];
    var rest := WithUniform(Pressure, Submission(v));
    SubmissionProperties(v, before);
    WithUniformEffect(Pressure, Submission(v), Velocity, before);
    assert AllSound(first) && Untouched(first, Density);
    AllSoundAppend(first, rest);
    UntouchedAppend(first, rest, Density);
    NewestAppend(first, rest, Velocity, before);
  }

  /**
   * The step as written keeps density consistent, but the velocity index,
   * unflipped, names the layer gradient subtraction read from: the newest
   * velocity is in the other layer.
   */
  lemma AsWrittenStepTracks(s: Settings, d: int, v: int, u: Coefficients, before: seq<Command>)
    requires Tracks(s, d, v, before)
    ensures Tracks(s, d, v, before + AsWrittenVelocityQueue(u, v))
    ensures Newest(before + AsWrittenVelocityQueue(u, v), Velocity, None) == Some(1 - v)
    ensures !NamesNewest(Newest(before + AsWrittenVelocityQueue(u, v), Velocity, None), v)
  {
    var added := AsWrittenVelocityQueue(u, v);
    AsWrittenEffect(u, v, Newest(before, Velocity, None));
    AllSoundAppend(before, added);
    NewestAppend(before, added, Velocity, None);
    NewestKept(before, added, Density);
  }

  /**
   * Every diffusion pass of the step as written (position 3 + j) runs with
   * the pressure coefficients (1, 4), the last uniform written before the
   * submission, whatever coefficients u the step wrote first.
   */
  lemma DiffusionSeesPressure(u: Coefficients, v: int, j: nat)
    requires IsBit(v) && j < SweepCount
    ensures AsWrittenVelocityQueue(u, v)[3 + j] == SweepPass("jacobiVec2", Velocity, Flipped(v, j))
    ensures UniformIn(AsWrittenVelocityQueue(u, v)[..3 + j]) == Some(Pressure)
  {
    var first := [SetUniform(u)];
    var rest := WithUniform(Pressure, Submission(v));
    var q := AsWrittenVelocityQueue(u, v);
    SubmissionProperties(v, None);
    WithUniformAt(Pressure, Submission(v), 1 + j);
    PrefixOfAppend(first, rest, 2 + j);
    UniformInAppend(first, rest[..2 + j]);
    assert q[3 + j] == Submission(v)[1 + j] == DiffusionPasses(v, SweepCount)[1 + j];
    SweepsAt("jacobiVec2", Velocity, v, SweepCount, j);
  }

  /** A prefix reaching past a is a plus a prefix of b. */
  lemma PrefixOfAppend(a: seq<Command>, b: seq<Command>, k: nat)
    requires k <= |b|
    ensures (a + b)[..|a| + k] == a + b[..k]
  {
  }

  /** The velocity coefficients are never the pressure ones: c = 1 + 4a rules out (1, 4). */
  lemma PressureIsNotVelocity(s: Settings)
    requires s.Valid()
    ensures Pressure != VelocityCoefficients(s)
  {
  }

  /**
   * The finding in full: every diffusion pass of the step as written runs
   * with the pressure coefficients, never with the velocity coefficients the
   * step computed from the settings.
   */
  lemma DiffusionRunsWithPressure(s: Settings, v: int, j: nat)
    requires s.Valid() && IsBit(v) && j < SweepCount
    ensures AsWrittenVelocityQueue(VelocityCoefficients(s), v)[3 + j] == SweepPass("jacobiVec2", Velocity, Flipped(v, j))
    ensures UniformIn(AsWrittenVelocityQueue(VelocityCoefficients(s), v)[..3 + j]) != Some(VelocityCoefficients(s))
  {
    DiffusionSeesPressure(VelocityCoefficients(s), v, j);
    PressureIsNotVelocity(s);
  }

  /** The corrected step keeps the state consistent and flips the velocity index onto the newest velocity. */
  lemma CorrectedStepTracks(s: Settings, d: int, v: int, u: Coefficients, before: seq<Command>)
    requires Tracks(s, d, v, before)
    ensures Tracks(s, d, 1 - v, before + VelocityPasses(u, v, SweepCount))
    ensures Newest(before + VelocityPasses(u, v, SweepCount), Velocity, None) == Some(1 - v)
  {
    var added := VelocityPasses(u, v, SweepCount);
    SweepsRestore(v);
    VelocityPassesEffect(u, v, SweepCount, Newest(before, Velocity, None));
    AllSoundAppend(before, added);
    NewestAppend(before, added, Velocity, None);
    NewestKept(before, added, Density);
  }

  /**
   * The corrected step issues the velocity coefficients, advection and
   * diffusion, the pressure coefficients and projection, in the order of
   * `VelocityPasses`, the order `SimulationFrag` submits them in.
   */
  lemma CorrectedQueueIssued(u: Coefficients, v: int, before: seq<Command>, diffused: seq<Command>, projected: seq<Command>)
    requires diffused == DiffusionPasses(v, SweepCount) && projected == ProjectionPasses(v, SweepCount)
    ensures before + [SetUniform(u)] + diffused + [SetUniform(Pressure)] + projected
      == before + VelocityPasses(u, v, SweepCount)
  {
    SweepsRestore(v);
  }

  /**
   * After 40 swaps `sIn` is back at 0: in the step as written, gradient
   * subtraction writes velocity layer 1 - v from layers v and scratch 0, and
   * scratch 0 is the layer the last pressure pass wrote.
   */
  lemma SubtractionReadsPressure(u: Coefficients, v: int, before: Option<int>)
    ensures AsWrittenVelocityQueue(u, v)[2 * SweepCount + 4] == SubtractPass(v, 0)
    ensures ReadsNewest(AsWrittenVelocityQueue(u, v), 2 * SweepCount + 4, 1, before)
  {
    SweepsRestore(0);
    var head := [SetUniform(u), SetUniform(Pressure)] + DiffusionPasses(v, SweepCount);
    var body := ProjectionPasses(v, SweepCount);
    var q := AsWrittenVelocityQueue(u, v);
    assert q == head + body;
    PrefixOfAppend(head, body, SweepCount + 1);
    NewestAppend(head, body[..SweepCount + 1], Scratch, before);
    ProjectionPassesBody(v, SweepCount, Newest(head, Scratch, before));
  }

  class SimulationApp {
    const settings: Settings
    var densityOutIdx: int
    var velocityOutIdx: int
    /** The commands handed to the device queue so far, in the order the GPU runs them. */
    var queue: seq<Command>

    predicate Valid()
      reads this
    {
      Tracks(settings, densityOutIdx, velocityOutIdx, queue)
    }

    /** The constructor: both out indices 0, nothing queued. */
    constructor (settings: Settings)
      requires settings.Valid()
      ensures Valid() && this.settings == settings
      ensures densityOutIdx == 0 && velocityOutIdx == 0 && queue == []
    {
      this.settings := settings;
      densityOutIdx := 0;
      velocityOutIdx := 0;
      queue := [];
    }

    /** `addSourceDensity`: source into density layer 2, one `addsrc` pass into layer 1 - out, then the flip. */
    method AddSourceDensity()
      requires Valid()
      modifies this
      ensures Valid()
      ensures queue == old(queue) + SourceQueue("addsrc", Density, old(densityOutIdx))
      ensures densityOutIdx == 1 - old(densityOutIdx) && velocityOutIdx == old(velocityOutIdx)
    {
      DensitySourceTracks(settings, densityOutIdx, velocityOutIdx, queue);
      queue := queue + [Upload(Density, [2])];
      var encoded := [Render("addsrc", Slot(Density, 1 - densityOutIdx), [Slot(Density, densityOutIdx), Slot(Density, 2)])];
      queue := queue + encoded;
      densityOutIdx := 1 - densityOutIdx;
    }

    /** `addSourceVelocity`: source into velocity layer 2, one `addsrcVec2` pass into layer 1 - out, then the flip. */
    method AddSourceVelocity()
      requires Valid()
      modifies this
      ensures Valid()
      ensures queue == old(queue) + SourceQueue("addsrcVec2", Velocity, old(velocityOutIdx))
      ensures velocityOutIdx == 1 - old(velocityOutIdx) && densityOutIdx == old(densityOutIdx)
      ensures Newest(queue, Velocity, None) == Some(velocityOutIdx)
    {
      VelocitySourceTracks(settings, densityOutIdx, velocityOutIdx, queue);
      queue := queue + [Upload(Velocity, [2])];
      var encoded := [Render("addsrcVec2", Slot(Velocity, 1 - velocityOutIdx), [Slot(Velocity, velocityOutIdx), Slot(Velocity, 2)])];
      queue := queue + encoded;
      velocityOutIdx := 1 - velocityOutIdx;
    }

    /**
     * `densityStep`: advection into density layer 2, the density coefficients
     * written, 40 relaxation passes each flipping `densityOutIdx`, one
     * submission; 40 being even, the index ends where it started.
     */
    method DensityStep()
      requires Valid()
      modifies this
      ensures Valid()
      ensures queue == old(queue) + DensityQueue(AppDensityCoefficients(settings), SweepCount, old(densityOutIdx), old(velocityOutIdx))
      ensures densityOutIdx == old(densityOutIdx) && velocityOutIdx == old(velocityOutIdx)
    {
      ghost var before := queue;
      ghost var d := densityOutIdx;
      var encoded := [Render("advect", Slot(Density, 2), [Slot(Density, densityOutIdx), Slot(Velocity, velocityOutIdx)])];
      var coefficients := AppDensityCoefficients(settings);
      queue := queue + [SetUniform(coefficients)];
      var k := 0;
      while k < SweepCount
        invariant 0 <= k <= SweepCount
        invariant densityOutIdx == Flipped(d, k) && velocityOutIdx == old(velocityOutIdx)
        invariant queue == before + [SetUniform(coefficients)]
        invariant encoded == [AdvectDensityPass(d, velocityOutIdx)] + Sweeps("jacobi", Density, d, k)
      {
        encoded := encoded + [Render("jacobi", Slot(Density, 1 - densityOutIdx), [Slot(Density, 2), Slot(Density, densityOutIdx)])];
        densityOutIdx := 1 - densityOutIdx;
        k := k + 1;
      }
      queue := queue + encoded;
      assert queue == before + DensityQueue(coefficients, SweepCount, d, velocityOutIdx);
      SweepsRestore(d);
      DensityStepTracks(settings, d, velocityOutIdx, before);
    }

    /**
     * The advection and diffusion passes of `velocityStep`: advection into
     * velocity layer 2, then 40 relaxation passes each flipping
     * `velocityOutIdx`, which ends where it started.
     */
    method EncodeDiffusion() returns (encoded: seq<Command>)
      modifies this
      ensures encoded == DiffusionPasses(old(velocityOutIdx), SweepCount)
      ensures velocityOutIdx == old(velocityOutIdx)
      ensures densityOutIdx == old(densityOutIdx) && queue == old(queue)
    {
      ghost var v := velocityOutIdx;
      encoded := [Render("advectVec2", Slot(Velocity, 2), [Slot(Velocity, velocityOutIdx), Slot(Velocity, velocityOutIdx)])];
      var k := 0;
      while k < SweepCount
        invariant 0 <= k <= SweepCount
        invariant velocityOutIdx == Flipped(v, k)
        invariant densityOutIdx == old(densityOutIdx) && queue == old(queue)
        invariant encoded == DiffusionPasses(v, k)
      {
        encoded := encoded + [Render("jacobiVec2", Slot(Velocity, 1 - velocityOutIdx), [Slot(Velocity, 2), Slot(Velocity, velocityOutIdx)])];
        velocityOutIdx := 1 - velocityOutIdx;
        k := k + 1;
      }
      SweepsRestore(v);
    }

    /**
     * The projection passes of `velocityStep`: divergence into scratch layer
     * 2, 40 pressure passes ping-ponging `sIn`/`sOut`, which stay distinct
     * bits and end at 0 and 1, then gradient subtraction into velocity layer
     * 1 - out from scratch layer `sIn`.
     */
    method EncodeProjection() returns (encoded: seq<Command>)
      ensures encoded == ProjectionPasses(velocityOutIdx, SweepCount)
    {
      encoded := [Render("divergence", Slot(Scratch, 2), [Slot(Velocity, velocityOutIdx), Slot(Scratch, 0)])];
      var sIn, sOut := 0, 1;
      var k := 0;
      while k < SweepCount
        invariant 0 <= k <= SweepCount
        invariant sIn == Flipped(0, k) && sOut == 1 - sIn && IsBit(sIn)
        invariant encoded == [DivergencePass(velocityOutIdx)] + Sweeps("jacobi", Scratch, 0, k)
      {
        FlippedParity(0, k + 1);
        encoded := encoded + [Render("jacobi", Slot(Scratch, sOut), [Slot(Scratch, 2), Slot(Scratch, sIn)])];
        sIn, sOut := sOut, sIn;
        k := k + 1;
      }
      encoded := encoded + [Render("advectVec2", Slot(Velocity, 1 - velocityOutIdx), [Slot(Velocity, velocityOutIdx), Slot(Scratch, sIn)])];
    }

    /**
     * `velocityStep` as written: the velocity coefficients written, advection
     * and diffusion encoded, the pressure coefficients written, projection
     * encoded, one submission, and no flip after gradient subtraction, so
     * the velocity index is left on the layer subtraction read from.
     */
    method VelocityStep()
      requires Valid()
      modifies this
      ensures Valid()
      ensures queue == old(queue) + AsWrittenVelocityQueue(VelocityCoefficients(settings), old(velocityOutIdx))
      ensures velocityOutIdx == old(velocityOutIdx) && densityOutIdx == old(densityOutIdx)
      ensures Newest(queue, Velocity, None) == Some(1 - velocityOutIdx)
    {
      ghost var before := queue;
      var coefficients := VelocityCoefficients(settings);
      queue := queue + [SetUniform(coefficients)];
      var diffusion := EncodeDiffusion();
      queue := queue + [SetUniform(Pressure)];
      var projection := EncodeProjection();
      queue := queue + (diffusion + projection);
      AsWrittenQueueIssued(coefficients, velocityOutIdx, before, diffusion, projection);
      AsWrittenStepTracks(settings, densityOutIdx, velocityOutIdx, coefficients, before);
    }

    /**
     * `velocityStep` corrected: advection and diffusion submitted after the
     * velocity coefficients are written, projection submitted after the
     * pressure coefficients are, and the flip after gradient subtraction.
     */
    method VelocityStepCorrected()
      requires Valid()
      modifies this
      ensures Valid()
      ensures queue == old(queue) + VelocityPasses(VelocityCoefficients(settings), old(velocityOutIdx), SweepCount)
      ensures velocityOutIdx == 1 - old(velocityOutIdx) && densityOutIdx == old(densityOutIdx)
      ensures Newest(queue, Velocity, None) == Some(velocityOutIdx)
    {
      ghost var before := queue;
      ghost var v := velocityOutIdx;
      var coefficients := VelocityCoefficients(settings);
      queue := queue + [SetUniform(coefficients)];
      var diffusion := EncodeDiffusion();
      queue := queue + diffusion;
      queue := queue + [SetUniform(Pressure)];
      var projection := EncodeProjection();
      queue := queue + projection;
      velocityOutIdx := 1 - velocityOutIdx;
      CorrectedQueueIssued(coefficients, v, before, diffusion, projection);
      CorrectedStepTracks(settings, densityOutIdx, v, coefficients, before);
    }

    /** `getDensityOutputTextureView`: the density layer the out index names, which holds the newest density. */
    function DensityOutputView(): (s: Slot)
      reads this
      ensures s.q == Density
      ensures Valid() ==> IsBit(s.index) && NamesNewest(Newest(queue, Density, None), s.index)
    {
      Slot(Density, densityOutIdx)
    }

    /**
     * `getVelocityOutputTextureView`: the velocity layer the out index names;
     * after the step as written that is not the newest velocity.
     */
    function VelocityOutputView(): (s: Slot)
      reads this
      ensures s.q == Velocity
      ensures Valid() ==> IsBit(s.index)
      ensures Newest(queue, Velocity, None) == Some(1 - velocityOutIdx) ==> !NamesNewest(Newest(queue, Velocity, None), s.index)
    {
      Slot(Velocity, velocityOutIdx)
    }
  }
}

=== FILE: simulation_cpu.dfy ===
/**
 * `SimulationCpu`: the stable-fluids solver on plain arrays.
 *
 * Six buffers are allocated once: two velocity buffers (two interleaved
 * components per cell), two density buffers and two scratch buffers used by
 * the projection. Slot 0 of velocity and density holds the current field,
 * slot 1 receives the advected field, which then anchors the relaxation that
 * writes slot 0 back. Every pass works in place on these arrays.
 */
module CpuSolver {
  import opened Grid
  import opened Config
  import opened Fields
  import opened Diffusion

  /** Contents of the velocity and scratch buffers after a velocity step. */
  datatype VelocityBuffers = VelocityBuffers(v0: seq<real>, v1: seq<real>, s0: seq<real>, s1: seq<real>)

  /** Contents of the density buffers after a density step. */
  datatype DensityBuffers = DensityBuffers(d0: seq<real>, d1: seq<real>)

  /**
   * `velocityStep`: both components advected from slot 0 along slot 0 into
   * slot 1, both relaxed in slot 0 against slot 1, then slot 0 projected with
   * the scratch buffers as divergence and pressure.
   */
  function VelocityStepped(s: Settings, sqrtMN: real, v0: seq<real>, v1: seq<real>, s0: seq<real>): VelocityBuffers
    requires s.Valid() && sqrtMN != 0.0
    requires IsVelocity(s.m, s.n, v0) && IsVelocity(s.m, s.n, v1) && IsField(Scalar(s.m, s.n), s0)
  {
    var lx, ly := VelX(s.m, s.n), VelY(s.m, s.n);
    var advected := Advected(ly, s.dt, Advected(lx, s.dt, v1, v0, v0), v0, v0);
    var k := VelocityCoefficients(s);
    var diffused := Relaxed(ly, Relaxed(lx, v0, advected, k.a, k.c, RelaxSweeps), advected, k.a, k.c, RelaxSweeps);
    var r := Project(s.m, s.n, diffused, s0, sqrtMN);
    VelocityBuffers(r.vel, advected, r.div, r.p)
  }

  /** `densityStep`: slot 0 advected along velocity slot 0 into slot 1, then relaxed in slot 0 against slot 1. */
  function DensityStepped(s: Settings, d0: seq<real>, d1: seq<real>, v0: seq<real>): DensityBuffers
    requires s.Valid()
    requires IsField(Scalar(s.m, s.n), d0) && IsField(Scalar(s.m, s.n), d1) && IsVelocity(s.m, s.n, v0)
  {
    var l := Scalar(s.m, s.n);
    var advected := Advected(l, s.dt, d1, d0, v0);
    var k := CpuDensityCoefficients(s);
    DensityBuffers(Relaxed(l, d0, advected, k.a, k.c, RelaxSweeps), advected)
  }

  /** From all-zero velocity and divergence buffers a velocity step leaves all four buffers zero. */
  lemma {:induction false} VelocityStepKeepsZero(s: Settings, sqrtMN: real, v0: seq<real>, v1: seq<real>, s0: seq<real>)
    requires s.Valid() && sqrtMN != 0.0
    requires IsVelocity(s.m, s.n, v0) && IsVelocity(s.m, s.n, v1) && IsField(Scalar(s.m, s.n), s0)
    requires AllZero(v0) && AllZero(v1) && AllZero(s0)
    ensures var r := VelocityStepped(s, sqrtMN, v0, v1, s0);
      AllZero(r.v0) && AllZero(r.v1) && AllZero(r.s0) && AllZero(r.s1)
  {
    var lx, ly := VelX(s.m, s.n), VelY(s.m, s.n);
    var half := Advected(lx, s.dt, v1, v0, v0);
    AdvectedZero(lx, s.dt, v1, v0, v0);
    AdvectedZero(ly, s.dt, half, v0, v0);
    var advected := Advected(ly, s.dt, half, v0, v0);
    var k := VelocityCoefficients(s);
    RelaxedZero(lx, v0, advected, k.a, k.c, RelaxSweeps);
    var diffusedX := Relaxed(lx, v0, advected, k.a, k.c, RelaxSweeps);
    RelaxedZero(ly, diffusedX, advected, k.a, k.c, RelaxSweeps);
    ProjectZero(s.m, s.n, Relaxed(ly, diffusedX, advected, k.a, k.c, RelaxSweeps), s0, sqrtMN);
  }

  /** From all-zero density buffers a density step leaves both zero, whatever the velocity. */
  lemma {:induction false} DensityStepKeepsZero(s: Settings, d0: seq<real>, d1: seq<real>, v0: seq<real>)
    requires s.Valid()
    requires IsField(Scalar(s.m, s.n), d0) && IsField(Scalar(s.m, s.n), d1) && IsVelocity(s.m, s.n, v0)
    requires AllZero(d0) && AllZero(d1)
    ensures AllZero(DensityStepped(s, d0, d1, v0).d0) && AllZero(DensityStepped(s, d0, d1, v0).d1)
  {
    var l := Scalar(s.m, s.n);
    AdvectedZero(l, s.dt, d1, d0, v0);
    var k := CpuDensityCoefficients(s);
    RelaxedZero(l, d0, Advected(l, s.dt, d1, d0, v0), k.a, k.c, RelaxSweeps);
  }

  /** `arr.fill(0)`. */
  method FillZero(arr: array<real>)
    modifies arr
    ensures AllZero(arr[..])
  {
    var k := 0;
    while k < arr.Length
      invariant 0 <= k <= arr.Length
      invariant forall q :: 0 <= q < k ==> arr[q] == 0.0
    {
      arr[k] := 0.0;
      k := k + 1;
    }
  }

  class SimulationCpu {
    const settings: Settings
    /** `Math.sqrt(M * N)`, characterised by its square. */
    const sqrtMN: real
    const velocity0: array<real>
    const velocity1: array<real>
    const density0: array<real>
    const density1: array<real>
    const scratch0: array<real>
    const scratch1: array<real>

    /** Buffer sizes of `#initSimulation` and six distinct arrays. */
    predicate Valid()
    {
      && settings.Valid()
      && 0.0 < sqrtMN && sqrtMN * sqrtMN == (settings.m * settings.n) as real
      && velocity0.Length == 2 * Cells(settings.m, settings.n)
      && velocity1.Length == 2 * Cells(settings.m, settings.n)
      && density0.Length == Cells(settings.m, settings.n)
      && density1.Length == Cells(settings.m, settings.n)
      && scratch0.Length == Cells(settings.m, settings.n)
      && scratch1.Length == Cells(settings.m, settings.n)
      && velocity0 != velocity1
      && density0 != density1 && density0 != scratch0 && density0 != scratch1
      && density1 != scratch0 && density1 != scratch1 && scratch0 != scratch1
    }

    /** The arrays of `#initSimulation`, zero-filled as new Float32Arrays are. */
    constructor (settings: Settings, sqrtMN: real)
      requires settings.Valid() && 0.0 < sqrtMN && sqrtMN * sqrtMN == (settings.m * settings.n) as real
      ensures Valid() && this.settings == settings && this.sqrtMN == sqrtMN
      ensures fresh(velocity0) && fresh(velocity1) && fresh(density0) && fresh(density1)
      ensures fresh(scratch0) && fresh(scratch1)
      ensures AllZero(velocity0[..]) && AllZero(velocity1[..]) && AllZero(density0[..])
      ensures AllZero(density1[..]) && AllZero(scratch0[..]) && AllZero(scratch1[..])
    {
      this.settings := settings;
      this.sqrtMN := sqrtMN;
      var cells := Cells(settings.m, settings.n);
      IdxInRange(settings.m, settings.n, 0, 0);
      velocity0 := new real[2 * cells](k => 0.0);
      velocity1 := new real[2 * cells](k => 0.0);
      density0 := new real[cells](k => 0.0);
      density1 := new real[cells](k => 0.0);
      scratch0 := new real[cells](k => 0.0);
      scratch1 := new real[cells](k => 0.0);
    }

    /** `reset`: every buffer zero-filled. */
    method Reset()
      requires Valid()
      modifies velocity0, velocity1, density0, density1, scratch0, scratch1
      ensures AllZero(velocity0[..]) && AllZero(velocity1[..]) && AllZero(density0[..])
      ensures AllZero(density1[..]) && AllZero(scratch0[..]) && AllZero(scratch1[..])
    {
      FillZero(velocity0);
      FillZero(velocity1);
      FillZero(density0);
      FillZero(density1);
      FillZero(scratch0);
      FillZero(scratch1);
    }

    /** `addVelocitySource`: source times dt added to every entry of velocity slot 0; slot 1 untouched. */
    method AddVelocitySource(src: seq<real>)
      requires Valid() && |src| == velocity0.Length
      modifies velocity0
      ensures forall k :: 0 <= k < velocity0.Length ==> velocity0[k] == old(velocity0[k]) + src[k] * settings.dt
      ensures velocity1[..] == old(velocity1[..])
    {
      var i := 0;
      while i < velocity0.Length
        invariant 0 <= i <= velocity0.Length
        invariant forall k :: 0 <= k < i ==> velocity0[k] == old(velocity0[k]) + src[k] * settings.dt
        invariant forall k :: i <= k < velocity0.Length ==> velocity0[k] == old(velocity0[k])
      {
        velocity0[i] := velocity0[i] + src[i] * settings.dt;
        i := i + 1;
      }
    }

    /** `addDensitySource`: source times dt added to every entry of density slot 0; slot 1 untouched. */
    method AddDensitySource(src: seq<real>)
      requires Valid() && |src| == density0.Length
      modifies density0
      ensures forall k :: 0 <= k < density0.Length ==> density0[k] == old(density0[k]) + src[k] * settings.dt
      ensures density1[..] == old(density1[..])
    {
      var i := 0;
      while i < density0.Length
        invariant 0 <= i <= density0.Length
        invariant forall k :: 0 <= k < i ==> density0[k] == old(density0[k]) + src[k] * settings.dt
        invariant forall k :: i <= k < density0.Length ==> density0[k] == old(density0[k])
      {
        density0[i] := density0[i] + src[i] * settings.dt;
        i := i + 1;
      }
    }

    /** `#advect(w, w0, vel, offset, stride)`: resamples the interior of one component of w from w0 along vel. */
    method Advect(w: array<real>, w0: array<real>, vel: array<real>, offset: int, stride: int)
      requires Layout(settings.m, settings.n, stride, offset).Valid()
      requires w.Length == Layout(settings.m, settings.n, stride, offset).Size() && w0.Length == w.Length
      requires vel.Length == 2 * Cells(settings.m, settings.n)
      requires w != w0 && w != vel
      modifies w
      ensures w[..] == Advected(Layout(settings.m, settings.n, stride, offset), settings.dt, old(w[..]), w0[..], vel[..])
    {
      var l := Layout(settings.m, settings.n, stride, offset);
      ghost var before := w[..];
      ghost var f := AdvectField(l, settings.dt, w0[..], vel[..]);
      FillUpToEnds(l, before, f);
      for i := 1 to l.m + 1
        invariant w[..] == FillUpTo(l, before, f, i, 1)
      {
        AdvectRow(w, w0, vel, l, i, before);
      }
    }

    /** Column i of `#advect`: cells (i, 1) to (i, N) resampled in turn. */
    method AdvectRow(w: array<real>, w0: array<real>, vel: array<real>, l: Layout, i: int, ghost before: seq<real>)
      requires l.Valid() && l.m == settings.m && l.n == settings.n && 1 <= i <= l.m
      requires IsField(l, before) && IsField(l, w0[..]) && IsVelocity(l.m, l.n, vel[..])
      requires w != w0 && w != vel
      requires w[..] == FillUpTo(l, before, AdvectField(l, settings.dt, w0[..], vel[..]), i, 1)
      modifies w
      ensures w[..] == FillUpTo(l, before, AdvectField(l, settings.dt, w0[..], vel[..]), i + 1, 1)
    {
      var dt := settings.dt;
      ghost var f := AdvectField(l, dt, w0[..], vel[..]);
      for j := 1 to l.n + 1
        invariant w[..] == FillUpTo(l, before, f, i, j)
      {
        AdvectCell(w, w0, vel, l, i, j);
        assert f(i, j) == AdvectAt(l, dt, w0[..], vel[..], i, j);
        FillUpToStep(l, before, f, i, j);
      }
      FillUpToStep(l, before, f, i, 1);
    }

    /** The statement of `#advect`'s inner loop: cell (i, j) traced back along vel and resampled from w0. */
    method AdvectCell(w: array<real>, w0: array<real>, vel: array<real>, l: Layout, i: int, j: int)
      requires l.Valid() && l.m == settings.m && l.n == settings.n && 1 <= i <= l.m && 1 <= j <= l.n
      requires IsField(l, w[..]) && IsField(l, w0[..]) && IsVelocity(l.m, l.n, vel[..])
      requires w != w0 && w != vel
      modifies w
      ensures w[..] == old(w[..])[l.At(i, j) := AdvectAt(l, settings.dt, w0[..], vel[..], i, j)]
    {
      var d := Backtrace(l.m, l.n, settings.dt, vel[..], i, j);
      var result := Bilerp(d.s0, d.t0, w0[l.At(d.i0, d.j0)], w0[l.At(d.i0 + 1, d.j0)],
                                       w0[l.At(d.i0, d.j0 + 1)], w0[l.At(d.i0 + 1, d.j0 + 1)]);
      w[l.At(i, j)] := result;
    }

    /** `#jacobi(w, w0, a, c, offset, stride)`: twenty in-place sweeps over the interior of one component of w. */
    method Jacobi(w: array<real>, w0: array<real>, a: real, c: real, offset: int, stride: int)
      requires Valid() && Layout(settings.m, settings.n, stride, offset).Valid()
      requires w.Length == Layout(settings.m, settings.n, stride, offset).Size() && w0.Length == w.Length
      requires w != w0 && c != 0.0
      modifies w
      ensures w[..] == Relaxed(Layout(settings.m, settings.n, stride, offset), old(w[..]), w0[..], a, c, RelaxSweeps)
    {
      var l := Layout(settings.m, settings.n, stride, offset);
      ghost var start := w[..];
      for k := 0 to RelaxSweeps
        invariant w[..] == Relaxed(l, start, w0[..], a, c, k)
      {
        Sweep(w, w0, a, c, l);
      }
    }

    /** One sweep of `#jacobi`: rows 1 to M in turn. */
    method Sweep(w: array<real>, w0: array<real>, a: real, c: real, l: Layout)
      requires l.Valid() && IsField(l, w[..]) && IsField(l, w0[..]) && w != w0 && c != 0.0
      modifies w
      ensures w[..] == SweepRows(l, old(w[..]), w0[..], a, c, l.m + 1)
    {
      ghost var sweepStart := w[..];
      for i := 1 to l.m + 1
        invariant w[..] == SweepRows(l, sweepStart, w0[..], a, c, i)
      {
        SweepRow(w, w0, a, c, l, i);
      }
    }

    /** Row i of one sweep of `#jacobi`: cells (i, 1) to (i, N) in turn, each reading the values current at that moment. */
    method SweepRow(w: array<real>, w0: array<real>, a: real, c: real, l: Layout, i: int)
      requires l.Valid() && IsField(l, w[..]) && IsField(l, w0[..]) && w != w0 && c != 0.0 && 1 <= i <= l.m
      modifies w
      ensures w[..] == SweepLine(l, old(w[..]), w0[..], a, c, i, l.n + 1)
    {
      ghost var lineStart := w[..];
      for j := 1 to l.n + 1
        invariant w[..] == SweepLine(l, lineStart, w0[..], a, c, i, j)
      {
        RelaxCell(w, w0, a, c, l, i, j);
      }
    }

    /** The statement of `#jacobi`'s inner loop: cell (i, j) from its anchor and its four neighbours as they are now. */
    method RelaxCell(w: array<real>, w0: array<real>, a: real, c: real, l: Layout, i: int, j: int)
      requires l.Valid() && IsField(l, w[..]) && IsField(l, w0[..]) && w != w0 && c != 0.0
      requires 1 <= i <= l.m && 1 <= j <= l.n
      modifies w
      ensures w[..] == UpdateCell(l, old(w[..]), w0[..], a, c, i, j)
    {
      var w0Center := w0[l.At(i, j)];
      var wRight := w[l.At(i + 1, j)];
      var wLeft := w[l.At(i - 1, j)];
      var wDown := w[l.At(i, j + 1)];
      var wUp := w[l.At(i, j - 1)];
      w[l.At(i, j)] := Stencil(w0Center, wRight, wLeft, wDown, wUp, a, c);
    }

    /** `#diffuse`: the relaxation solver applied to diffusion. */
    method Diffuse(d: array<real>, d0: array<real>, a: real, c: real, offset: int, stride: int)
      requires Valid() && Layout(settings.m, settings.n, stride, offset).Valid()
      requires d.Length == Layout(settings.m, settings.n, stride, offset).Size() && d0.Length == d.Length
      requires d != d0 && c != 0.0
      modifies d
      ensures d[..] == Relaxed(Layout(settings.m, settings.n, stride, offset), old(d[..]), d0[..], a, c, RelaxSweeps)
    {
      Jacobi(d, d0, a, c, offset, stride);
    }

    /** The divergence loop of `#project`. */
    method ComputeDivergence(vel: array<real>, div: array<real>)
      requires 1 <= settings.m && 1 <= settings.n && sqrtMN != 0.0
      requires vel.Length == 2 * Cells(settings.m, settings.n)
      requires div.Length == Cells(settings.m, settings.n)
      modifies div
      ensures div[..] == Divergence(settings.m, settings.n, old(div[..]), vel[..], sqrtMN)
    {
      var l := Scalar(settings.m, settings.n);
      ghost var before := div[..];
      ghost var f := DivergenceField(l.m, l.n, vel[..], sqrtMN);
      FillUpToEnds(l, before, f);
      for i := 1 to l.m + 1
        invariant div[..] == FillUpTo(l, before, f, i, 1)
      {
        DivergenceRow(vel, div, i, before);
      }
    }

    /** Column i of the divergence loop. */
    method DivergenceRow(vel: array<real>, div: array<real>, i: int, ghost before: seq<real>)
      requires 1 <= settings.m && 1 <= settings.n && sqrtMN != 0.0 && 1 <= i <= settings.m
      requires vel.Length == 2 * Cells(settings.m, settings.n)
      requires div.Length == Cells(settings.m, settings.n) && |before| == div.Length
      requires div[..] == FillUpTo(Scalar(settings.m, settings.n), before, DivergenceField(settings.m, settings.n, vel[..], sqrtMN), i, 1)
      modifies div
      ensures div[..] == FillUpTo(Scalar(settings.m, settings.n), before, DivergenceField(settings.m, settings.n, vel[..], sqrtMN), i + 1, 1)
    {
      var m, n := settings.m, settings.n;
      var l := Scalar(m, n);
      ghost var f := DivergenceField(m, n, vel[..], sqrtMN);
      for j := 1 to n + 1
        invariant div[..] == FillUpTo(l, before, f, i, j)
      {
        IdxInRange(m, n, i + 1, j);
        IdxInRange(m, n, i - 1, j);
        IdxInRange(m, n, i, j + 1);
        IdxInRange(m, n, i, j - 1);
        var uRight := vel[Idx2(m, i + 1, j)];
        var uLeft := vel[Idx2(m, i - 1, j)];
        var vUp := vel[Idx2(m, i, j + 1) + 1];
        var vDown := vel[Idx2(m, i, j - 1) + 1];
        var value := NegHalfDivergence(uRight, uLeft, vUp, vDown, sqrtMN);
        assert value == DivergenceAt(m, n, vel[..], sqrtMN, i, j);
        assert value == f(i, j);
        FillUpToStep(l, before, f, i, j);
        ghost var current := div[..];
        div[l.At(i, j)] := value;
        assert div[..] == current[l.At(i, j) := value];
      }
      FillUpToStep(l, before, f, i, 1);
    }

    /** The gradient-subtraction loop of `#project`. */
    method SubtractGradient(vel: array<real>, p: array<real>)
      requires 1 <= settings.m && 1 <= settings.n
      requires vel.Length == 2 * Cells(settings.m, settings.n)
      requires p.Length == Cells(settings.m, settings.n)
      modifies vel
      ensures vel[..] == Subtracted(settings.m, settings.n, old(vel[..]), p[..])
    {
      var m, n := settings.m, settings.n;
      IdxInRange(m, n, 0, 0);
      assert vel != p;
      ghost var before := vel[..];
      SubtractedUpToEnds(m, n, before, p[..]);
      for i := 1 to m + 1
        invariant vel[..] == SubtractedUpTo(m, n, before, p[..], i, 1)
      {
        SubtractRow(vel, p, i, before);
      }
    }

    /** Column i of the gradient-subtraction loop: u, then v, of cells (i, 1) to (i, N). */
    method SubtractRow(vel: array<real>, p: array<real>, i: int, ghost before: seq<real>)
      requires 1 <= settings.m && 1 <= settings.n && 1 <= i <= settings.m
      requires vel.Length == 2 * Cells(settings.m, settings.n) && |before| == vel.Length
      requires p.Length == Cells(settings.m, settings.n) && vel != p
      requires vel[..] == SubtractedUpTo(settings.m, settings.n, before, p[..], i, 1)
      modifies vel
      ensures vel[..] == SubtractedUpTo(settings.m, settings.n, before, p[..], i + 1, 1)
    {
      var m, n := settings.m, settings.n;
      ghost var gx, gy := GradientX(m, n, before, p[..]), GradientY(m, n, before, p[..]);
      for j := 1 to n + 1
        invariant vel[..] == SubtractedUpTo(m, n, before, p[..], i, j)
      {
        SubtractedUpToReads(m, n, before, p[..], i, j);
        SubtractedUpToStep(m, n, before, p[..], i, j);
        ghost var current := vel[..];
        SubtractCell(vel, p, i, j);
        assert SubtractXAt(m, n, current, p[..], i, j) == SubtractXAt(m, n, before, p[..], i, j) == gx(i, j);
        assert SubtractYAt(m, n, current, p[..], i, j) == SubtractYAt(m, n, before, p[..], i, j) == gy(i, j);
      }
      SubtractedUpToStep(m, n, before, p[..], i, 1);
    }

    /** The statements of the subtraction loop at cell (i, j): u from the pressure across x, then v from the pressure across y. */
    method SubtractCell(vel: array<real>, p: array<real>, i: int, j: int)
      requires 1 <= settings.m && 1 <= settings.n && 1 <= i <= settings.m && 1 <= j <= settings.n
      requires vel.Length == 2 * Cells(settings.m, settings.n)
      requires p.Length == Cells(settings.m, settings.n) && vel != p
      modifies vel
      ensures var m, n := settings.m, settings.n;
        vel[..] == old(vel[..])
          [VelX(m, n).At(i, j) := SubtractXAt(m, n, old(vel[..]), p[..], i, j)]
          [VelY(m, n).At(i, j) := SubtractYAt(m, n, old(vel[..]), p[..], i, j)]
    {
      var m, n := settings.m, settings.n;
      var ls := Scalar(m, n);
      ComponentsApart(m, n, i, j);
      var pRight := p[ls.At(i + 1, j)];
      var pLeft := p[ls.At(i - 1, j)];
      var pUp := p[ls.At(i, j + 1)];
      var pDown := p[ls.At(i, j - 1)];
      vel[Idx2(m, i, j)] := LessGradient(vel[Idx2(m, i, j)], m, pRight, pLeft);
      vel[Idx2(m, i, j) + 1] := LessGradient(vel[Idx2(m, i, j) + 1], n, pUp, pDown);
    }

    /** `#project(vel, div, p)`: divergence, p zero-filled, pressure relaxed with (1, 4), gradient subtracted. */
    method ProjectVelocity(vel: array<real>, div: array<real>, p: array<real>)
      requires Valid() && vel.Length == 2 * Cells(settings.m, settings.n)
      requires div.Length == Cells(settings.m, settings.n) && p.Length == div.Length && div != p
      modifies vel, div, p
      ensures var r := Project(settings.m, settings.n, old(vel[..]), old(div[..]), sqrtMN);
        vel[..] == r.vel && div[..] == r.div && p[..] == r.p
    {
      ComputeDivergence(vel, div);
      FillZero(p);
      assert p[..] == Zeros(p.Length);
      Jacobi(p, div, 1.0, 4.0, 0, 1);
      SubtractGradient(vel, p);
    }

    /** `velocityStep`, without the upload of the result to the velocity texture. */
    method VelocityStep()
      requires Valid()
      modifies velocity0, velocity1, scratch0, scratch1
      ensures var r := VelocityStepped(settings, sqrtMN, old(velocity0[..]), old(velocity1[..]), old(scratch0[..]));
        velocity0[..] == r.v0 && velocity1[..] == r.v1 && scratch0[..] == r.s0 && scratch1[..] == r.s1
      ensures density0[..] == old(density0[..]) && density1[..] == old(density1[..])
    {
      Advect(velocity1, velocity0, velocity0, 0, 2);
      Advect(velocity1, velocity0, velocity0, 1, 2);
      var a := settings.dt * settings.viscosity * settings.m as real * settings.n as real;
      var c := 1.0 + 4.0 * a;
      assert Coefficients(a, c) == VelocityCoefficients(settings);
      Diffuse(velocity0, velocity1, a, c, 0, 2);
      Diffuse(velocity0, velocity1, a, c, 1, 2);
      ProjectVelocity(velocity0, scratch0, scratch1);
    }

    /** `densityStep`, without the upload of the result to the density texture. */
    method DensityStep()
      requires Valid()
      modifies density0, density1
      ensures var r := DensityStepped(settings, old(density0[..]), old(density1[..]), velocity0[..]);
        density0[..] == r.d0 && density1[..] == r.d1
      ensures velocity0[..] == old(velocity0[..]) && velocity1[..] == old(velocity1[..])
      ensures scratch0[..] == old(scratch0[..]) && scratch1[..] == old(scratch1[..])
    {
      IdxInRange(settings.m, settings.n, 0, 0);
      Advect(density1, density0, velocity0, 0, 1);
      var a := settings.dt * settings.dissipation * settings.diffusivity * settings.m as real * settings.n as real;
      var c := 1.0 + 4.0 * a;
      assert Coefficients(a, c) == CpuDensityCoefficients(settings);
      Diffuse(density0, density1, a, c, 0, 1);
    }
  }
}

=== FILE: simulation_frag.dfy ===
/**
 * `SimulationFrag`: the GPU solver whose passes are fragment shaders, each
 * rendering a full-screen quad into one layer of a texture array.
 *
 * The class keeps two out indices, `densityOutIdx` and `velocityOutIdx`,
 * naming the layer (0 or 1) that holds the current density and velocity.
 * Every method hands commands to the device queue; the model records them in
 * `queue`, in the order the GPU runs them, and proves that the out indices
 * always name the layer holding the newest result.
 */
module FragSolver {
  import opened Config
  import opened Wrappers
  import opened Diffusion
  import opened Passes

  /** Relaxation passes per solve. */
  const SweepCount := 30

  /** 30 is even: a relaxation leaves an out index where it found it. */
  lemma SweepsRestore(out: int)
    ensures Flipped(out, SweepCount) == out
  {
    FlippedParity(out, SweepCount);
  }

  /** The order in which the render pass descriptor sets are created, and walked by `reset`. */
  const DescriptorOrder := [Velocity, Density, Scratch]

  /** One empty render pass per layer of q, layer 0 first. */
  function LayerClears(q: Quantity): seq<Command>
  {
    [Clear(Slot(q, 0)), Clear(Slot(q, 1)), Clear(Slot(q, 2))]
  }

  /** The empty render passes for every layer of every quantity in qs, in order. */
  function ClearPasses(qs: seq<Quantity>): seq<Command>
  {
    if |qs| == 0 then [] else ClearPasses(qs[..|qs| - 1]) + LayerClears(qs[|qs| - 1])
  }

  /** `reset`: every descriptor begins and ends an empty render pass, whose load op clears its layer. */
  function ResetQueue(): seq<Command>
  {
    ClearPasses(DescriptorOrder)
  }

  /** Clearing the three layers of q leaves no result of q and no other quantity changed. */
  lemma LayerClearsNewest(q: Quantity, q': Quantity, before: Option<int>)
    requires before.None? || 0 <= before.value <= 2
    ensures AllSound(LayerClears(q))
    ensures Newest(LayerClears(q), q', before) == if q == q' then None else before
  {
    var r := LayerClears(q);
    assert r[..2][..1] == r[..1] && r[..1][..0] == [];
    var n0 := NewestAfter(r[0], q', before);
    var n1 := NewestAfter(r[1], q', n0);
    assert Newest(r[..1], q', before) == n0;
    assert Newest(r[..2], q', before) == n1;
    assert Newest(r, q', before) == NewestAfter(r[2], q', n1);
  }

  /** The reset queue clears the velocity layers, then the density layers, then the scratch layers. */
  lemma ResetQueueLayers()
    ensures ResetQueue() == LayerClears(Velocity) + LayerClears(Density) + LayerClears(Scratch)
  {
    var order := DescriptorOrder;
    assert ClearPasses([Velocity]) == LayerClears(Velocity) by {
      assert [Velocity][..0] == [];
      assert ClearPasses([Velocity]) == ClearPasses([]) + LayerClears(Velocity);
    }
    assert ClearPasses([Velocity, Density]) == LayerClears(Velocity) + LayerClears(Density) by {
      assert [Velocity, Density][..1] == [Velocity];
    }
    assert order[..2] == [Velocity, Density];
  }

  /** `reset` clears every layer of every texture array, binds nothing, and leaves no quantity a result. */
  lemma ResetClearsEverything(q: Quantity, before: Option<int>)
    requires before.None? || 0 <= before.value <= 2
    ensures AllSound(ResetQueue())
    ensures forall s :: InBounds(s) ==> Clear(s) in ResetQueue()
    ensures Newest(ResetQueue(), q, before) == None
  {
    ResetQueueLayers();
    var v, d, k := LayerClears(Velocity), LayerClears(Density), LayerClears(Scratch);
    forall s | InBounds(s)
      ensures Clear(s) in ResetQueue()
    {
      if s.q == Velocity {
        assert Clear(s) == (v + d + k)[s.index];
      } else if s.q == Density {
        assert Clear(s) == (v + d + k)[3 + s.index];
      } else {
        assert Clear(s) == (v + d + k)[6 + s.index];
      }
    }
    LayerClearsNewest(Velocity, q, before);
    var afterV := Newest(v, q, before);
    LayerClearsNewest(Density, q, afterV);
    LayerClearsNewest(Scratch, q, Newest(d, q, afterV));
    NewestAppend(v, d, q, before);
    NewestAppend(v + d, k, q, before);
    AllSoundAppend(v, d);
    AllSoundAppend(v + d, k);
  }

  /** The `queue.writeTexture` of zeros over all three scratch layers. */
  const ZeroScratch := Upload(Scratch, [0, 1, 2])

  /** Zeroing the scratch texture is sound and writes neither density nor velocity. */
  lemma ZeroScratchEffect()
    ensures AllSound([ZeroScratch])
    ensures Untouched([ZeroScratch], Density) && Untouched([ZeroScratch], Velocity)
  {
  }

  /**
   * `velocityStep`: the scratch texture zeroed; the velocity coefficients
   * written, advection and diffusion submitted; the pressure coefficients
   * written, projection submitted.
   */
  function VelocityQueue(s: Settings, v: int): seq<Command>
    requires s.Valid()
  {
    [ZeroScratch] + VelocityPasses(VelocityCoefficients(s), v, SweepCount)
  }

  /**
   * The state `SimulationFrag` keeps: the out indices are 0 or 1 and name the
   * layers holding the newest density and velocity, and no queued pass binds
   * a layer it writes.
   */
  predicate Tracks(s: Settings, d: int, v: int, queue: seq<Command>)
  {
    && s.Valid()
    && IsBit(d) && IsBit(v)
    && AllSound(queue)
    && NamesNewest(Newest(queue, Density, None), d)
    && NamesNewest(Newest(queue, Velocity, None), v)
  }

  /** `reset` keeps the state consistent with both indices 0: every layer is cleared, no result is left. */
  lemma ResetTracks(s: Settings, d: int, v: int, before: seq<Command>)
    requires Tracks(s, d, v, before)
    ensures Tracks(s, 0, 0, before + ResetQueue())
    ensures Newest(before + ResetQueue(), Density, None) == None
    ensures Newest(before + ResetQueue(), Velocity, None) == None
  {
    forall q
      ensures Newest(before + ResetQueue(), q, None) == None
    {
      NewestInBounds(before, q);
      ResetClearsEverything(q, Newest(before, q, None));
      NewestAppend(before, ResetQueue(), q, None);
    }
    ResetClearsEverything(Density, None);
    AllSoundAppend(before, ResetQueue());
  }

  /** `addDensitySource` keeps the state consistent once the density index flips. */
  lemma DensitySourceTracks(s: Settings, d: int, v: int, before: seq<Command>)
    requires Tracks(s, d, v, before)
    ensures Tracks(s, 1 - d, v, before + SourceQueue("source", Density, d))
  {
    SourceQueueAppend("source", Density, d, before);
  }

  /** `addVelocitySource` keeps the state consistent once the velocity index flips. */
  lemma VelocitySourceTracks(s: Settings, d: int, v: int, before: seq<Command>)
    requires Tracks(s, d, v, before)
    ensures Tracks(s, d, 1 - v, before + SourceQueue("sourceVec2", Velocity, v))
  {
    SourceQueueAppend("sourceVec2", Velocity, v, before);
  }

  /** `densityStep` keeps the state consistent with the density index back where it started (30 flips). */
  lemma DensityStepTracks(s: Settings, d: int, v: int, before: seq<Command>)
    requires Tracks(s, d, v, before)
    ensures Tracks(s, d, v, before + DensityQueue(FragDensityCoefficients(s), SweepCount, d, v))
  {
    SweepsRestore(d);
    DensityQueueAppend(FragDensityCoefficients(s), SweepCount, d, v, before);
  }

  /** The first half of `velocityStep`: scratch zeroed, the velocity coefficients written, advection and diffusion. */
  function DiffusionQueue(s: Settings, v: int): seq<Command>
    requires s.Valid()
  {
    [ZeroScratch] + WithUniform(VelocityCoefficients(s), DiffusionPasses(v, SweepCount))
  }

  /** The second half of `velocityStep`: the pressure coefficients written, divergence, pressure and subtraction. */
  function ProjectionQueue(v: int): seq<Command>
  {
    WithUniform(Pressure, ProjectionPasses(v, SweepCount))
  }

  /** The two halves make up the velocity step, the index being back at v after the 30 diffusion flips. */
  lemma VelocityQueueHalves(s: Settings, v: int, before: seq<Command>)
    requires s.Valid()
    ensures before + DiffusionQueue(s, v) + ProjectionQueue(Flipped(v, SweepCount)) == before + VelocityQueue(s, v)
  {
  }

  /** Diffusion keeps the state consistent: after 30 flips the velocity index names the diffused velocity. */
  lemma DiffusionTracks(s: Settings, d: int, v: int, before: seq<Command>)
    requires Tracks(s, d, v, before)
    ensures Tracks(s, d, v, before + DiffusionQueue(s, v))
  {
    var diffusion := DiffusionPasses(v, SweepCount);
    var u := VelocityCoefficients(s);
    var added := DiffusionQueue(s, v);
    SweepsRestore(v);
    ZeroScratchEffect();
    DiffusionPassesProperties(v, SweepCount, Newest([ZeroScratch], Velocity, Newest(before, Velocity, None)));
    WithUniformEffect(u, diffusion, Density, None);
    WithUniformEffect(u, diffusion, Velocity, Newest([ZeroScratch], Velocity, Newest(before, Velocity, None)));
    AllSoundAppend([ZeroScratch], WithUniform(u, diffusion));
    UntouchedAppend([ZeroScratch], WithUniform(u, diffusion), Density);
    NewestAppend([ZeroScratch], WithUniform(u, diffusion), Velocity, Newest(before, Velocity, None));
    AllSoundAppend(before, added);
    NewestAppend(before, added, Velocity, None);
    NewestKept(before, added, Density);
  }

  /** Projection keeps the state consistent once the velocity index flips onto the projected velocity. */
  lemma ProjectionTracks(s: Settings, d: int, v: int, before: seq<Command>)
    requires Tracks(s, d, v, before)
    ensures Tracks(s, d, 1 - v, before + ProjectionQueue(v))
  {
    var projection := ProjectionPasses(v, SweepCount);
    var added := ProjectionQueue(v);
    ProjectionPassesProperties(v, SweepCount, Newest(before, Velocity, None));
    WithUniformEffect(Pressure, projection, Density, None);
    WithUniformEffect(Pressure, projection, Velocity, Newest(before, Velocity, None));
    AllSoundAppend(before, added);
    NewestAppend(before, added, Velocity, None);
    NewestKept(before, added, Density);
  }

  /** `velocityStep` as a whole keeps the state consistent once the velocity index has flipped 31 times. */
  lemma VelocityStepTracks(s: Settings, d: int, v: int, before: seq<Command>)
    requires Tracks(s, d, v, before)
    ensures Tracks(s, d, 1 - v, before + VelocityQueue(s, v))
  {
    DiffusionTracks(s, d, v, before);
    SweepsRestore(v);
    ProjectionTracks(s, d, v, before + DiffusionQueue(s, v));
    VelocityQueueHalves(s, v, before);
  }

  /**
   * After 30 swaps `sIn` is back at 0: gradient subtraction writes velocity
   * layer 1 - v from layers v and scratch 0, and scratch 0 is the layer the
   * last pressure pass wrote.
   */
  lemma SubtractionReadsPressure(u: Coefficients, v: int, before: Option<int>)
    ensures VelocityPasses(u, v, SweepCount)[2 * SweepCount + 4] == SubtractPass(v, 0)
    ensures ReadsNewest(VelocityPasses(u, v, SweepCount), 2 * SweepCount + 4, 1, before)
  {
    SweepsRestore(0);
    SweepsRestore(v);
    VelocityPassesPressureRead(u, v, SweepCount, before);
  }

  class SimulationFrag {
    const settings: Settings
    var densityOutIdx: int
    var velocityOutIdx: int
    /** The commands handed to the device queue so far, in the order the GPU runs them. */
    var queue: seq<Command>

    /**
     * The out indices are 0 or 1 and name the layers holding the newest
     * density and velocity, and no queued pass binds a layer it writes.
     */
    predicate Valid()
      reads this
    {
      Tracks(settings, densityOutIdx, velocityOutIdx, queue)
    }

    /** The constructor, before `#initSimulation` creates the GPU resources: both out indices 0. */
    constructor (settings: Settings)
      requires settings.Valid()
      ensures Valid() && this.settings == settings
      ensures densityOutIdx == 0 && velocityOutIdx == 0 && queue == []
    {
      this.settings := settings;
      densityOutIdx := 0;
      velocityOutIdx := 0;
      queue := [];
    }

    /** `reset`: every layer cleared and both out indices back to 0. */
    method Reset()
      requires Valid()
      modifies this
      ensures Valid() && queue == old(queue) + ResetQueue()
      ensures densityOutIdx == 0 && velocityOutIdx == 0
      ensures Newest(queue, Density, None) == None && Newest(queue, Velocity, None) == None
    {
      var encoded: seq<Command> := [];
      var i := 0;
      while i < |DescriptorOrder|
        invariant 0 <= i <= |DescriptorOrder|
        invariant encoded == ClearPasses(DescriptorOrder[..i])
      {
        var j := 0;
        while j < 3
          invariant 0 <= j <= 3
          invariant encoded == ClearPasses(DescriptorOrder[..i]) + LayerClears(DescriptorOrder[i])[..j]
        {
          encoded := encoded + [Clear(Slot(DescriptorOrder[i], j))];
          j := j + 1;
        }
        assert DescriptorOrder[..i + 1][..i] == DescriptorOrder[..i];
        i := i + 1;
      }
      assert DescriptorOrder[..3] == DescriptorOrder;
      ResetTracks(settings, densityOutIdx, velocityOutIdx, queue);
      queue := queue + encoded;
      densityOutIdx := 0;
      velocityOutIdx := 0;
    }

    /** `addDensitySource`: source into density layer 2, one pass into layer 1 - out, then the flip. */
    method AddDensitySource()
      requires Valid()
      modifies this
      ensures Valid()
      ensures queue == old(queue) + SourceQueue("source", Density, old(densityOutIdx))
      ensures densityOutIdx == 1 - old(densityOutIdx) && velocityOutIdx == old(velocityOutIdx)
    {
      DensitySourceTracks(settings, densityOutIdx, velocityOutIdx, queue);
      queue := queue + [Upload(Density, [2])];
      var encoded := [Render("source", Slot(Density, 1 - densityOutIdx), [Slot(Density, densityOutIdx), Slot(Density, 2)])];
      queue := queue + encoded;
      densityOutIdx := 1 - densityOutIdx;
    }

    /** `addVelocitySource`: source into velocity layer 2, one pass into layer 1 - out, then the flip. */
    method AddVelocitySource()
      requires Valid()
      modifies this
      ensures Valid()
      ensures queue == old(queue) + SourceQueue("sourceVec2", Velocity, old(velocityOutIdx))
      ensures velocityOutIdx == 1 - old(velocityOutIdx) && densityOutIdx == old(densityOutIdx)
    {
      VelocitySourceTracks(settings, densityOutIdx, velocityOutIdx, queue);
      queue := queue + [Upload(Velocity, [2])];
      var encoded := [Render("sourceVec2", Slot(Velocity, 1 - velocityOutIdx), [Slot(Velocity, velocityOutIdx), Slot(Velocity, 2)])];
      queue := queue + encoded;
      velocityOutIdx := 1 - velocityOutIdx;
    }

    /**
     * `densityStep`: advection into density layer 2, the density coefficients
     * written, 30 relaxation passes each flipping `densityOutIdx`; 30 being
     * even, the index ends where it started, on the newest density.
     */
    method DensityStep()
      requires Valid()
      modifies this
      ensures Valid()
      ensures queue == old(queue) + DensityQueue(FragDensityCoefficients(settings), SweepCount, old(densityOutIdx), old(velocityOutIdx))
      ensures densityOutIdx == old(densityOutIdx) && velocityOutIdx == old(velocityOutIdx)
    {
      ghost var before := queue;
      ghost var d := densityOutIdx;
      var encoded := [Render("advect", Slot(Density, 2), [Slot(Density, densityOutIdx), Slot(Velocity, velocityOutIdx)])];
      var coefficients := FragDensityCoefficients(settings);
      queue := queue + [SetUniform(coefficients)];
      var k := 0;
      while k < SweepCount
        invariant 0 <= k <= SweepCount
        invariant densityOutIdx == Flipped(d, k) && velocityOutIdx == old(velocityOutIdx)
        invariant queue == before + [SetUniform(coefficients)]
        invariant encoded == [AdvectDensityPass(d, velocityOutIdx)] + Sweeps("jacobi", Density, d, k)
      {
        encoded := encoded + [Render("jacobi", Slot(Density, 1 - densityOutIdx), [Slot(Density, 2), Slot(Density, densityOutIdx)])];
        densityOutIdx := 1 - densityOutIdx;
        k := k + 1;
      }
      queue := queue + encoded;
      assert queue == before + DensityQueue(coefficients, SweepCount, d, velocityOutIdx);
      SweepsRestore(d);
      DensityStepTracks(settings, d, velocityOutIdx, before);
    }

    /**
     * `velocityStep`: the diffusion half, submitted, then the projection half,
     * submitted; 31 flips in all, so the index ends inverted, on the
     * projected velocity.
     */
    method VelocityStep()
      requires Valid()
      modifies this
      ensures Valid()
      ensures queue == old(queue) + VelocityQueue(settings, old(velocityOutIdx))
      ensures velocityOutIdx == 1 - old(velocityOutIdx) && densityOutIdx == old(densityOutIdx)
    {
      ghost var before := queue;
      ghost var v := velocityOutIdx;
      Diffuse();
      Project();
      SweepsRestore(v);
      VelocityQueueHalves(settings, v, before);
    }

    /**
     * The first command encoder of `velocityStep`: scratch zeroed, advection
     * into velocity layer 2, the velocity coefficients written, 30 diffusion
     * passes each flipping `velocityOutIdx`.
     */
    method Diffuse()
      requires Valid()
      modifies this
      ensures Valid()
      ensures queue == old(queue) + DiffusionQueue(settings, old(velocityOutIdx))
      ensures velocityOutIdx == old(velocityOutIdx) && densityOutIdx == old(densityOutIdx)
    {
      ghost var before := queue;
      ghost var v := velocityOutIdx;
      queue := queue + [ZeroScratch];
      var encoded := [Render("advectVec2", Slot(Velocity, 2), [Slot(Velocity, velocityOutIdx), Slot(Velocity, velocityOutIdx)])];
      var coefficients := VelocityCoefficients(settings);
      queue := queue + [SetUniform(coefficients)];
      var k := 0;
      while k < SweepCount
        invariant 0 <= k <= SweepCount
        invariant velocityOutIdx == Flipped(v, k) && densityOutIdx == old(densityOutIdx)
        invariant queue == before + [ZeroScratch] + [SetUniform(coefficients)]
        invariant encoded == DiffusionPasses(v, k)
      {
        encoded := encoded + [Render("jacobiVec2", Slot(Velocity, 1 - velocityOutIdx), [Slot(Velocity, 2), Slot(Velocity, velocityOutIdx)])];
        velocityOutIdx := 1 - velocityOutIdx;
        k := k + 1;
      }
      queue := queue + encoded;
      assert queue == before + DiffusionQueue(settings, v);
      SweepsRestore(v);
      DiffusionTracks(settings, densityOutIdx, v, before);
    }

    /**
     * The second command encoder of `velocityStep`: divergence into scratch
     * layer 2, the pressure coefficients written, 30 pressure passes
     * ping-ponging `sIn`/`sOut`, gradient subtraction into velocity layer
     * 1 - out, and the flip.
     */
    method Project()
      requires Valid()
      modifies this
      ensures Valid()
      ensures queue == old(queue) + ProjectionQueue(old(velocityOutIdx))
      ensures velocityOutIdx == 1 - old(velocityOutIdx) && densityOutIdx == old(densityOutIdx)
    {
      ghost var before := queue;
      ghost var v := velocityOutIdx;
      var encoded := [Render("divergence", Slot(Scratch, 2), [Slot(Velocity, velocityOutIdx), Slot(Scratch, 0)])];
      queue := queue + [SetUniform(Coefficients(1.0, 4.0))];
      var sIn, sOut := 0, 1;
      var k := 0;
      while k < SweepCount
        invariant 0 <= k <= SweepCount
        invariant sIn == Flipped(0, k) && sOut == 1 - sIn
        invariant encoded == [DivergencePass(v)] + Sweeps("jacobi", Scratch, 0, k)
      {
        encoded := encoded + [Render("jacobi", Slot(Scratch, sOut), [Slot(Scratch, 2), Slot(Scratch, sIn)])];
        sIn, sOut := sOut, sIn;
        k := k + 1;
      }
      encoded := encoded + [Render("advectVec2", Slot(Velocity, 1 - velocityOutIdx), [Slot(Velocity, velocityOutIdx), Slot(Scratch, sIn)])];
      velocityOutIdx := 1 - velocityOutIdx;
      queue := queue + encoded;
      assert queue == before + ProjectionQueue(v);
      ProjectionTracks(settings, densityOutIdx, v, before);
    }

    /** `getDensityOutputTextureView`: the density layer the out index names, which holds the newest density. */
    function DensityOutputView(): (s: Slot)
      reads this
      ensures s.q == Density
      ensures Valid() ==> IsBit(s.index) && NamesNewest(Newest(queue, Density, None), s.index)
    {
      Slot(Density, densityOutIdx)
    }

    /** `getVelocityOutputTextureView`: the velocity layer the out index names, which holds the newest velocity. */
    function VelocityOutputView(): (s: Slot)
      reads this
      ensures s.q == Velocity
      ensures Valid() ==> IsBit(s.index) && NamesNewest(Newest(queue, Velocity, None), s.index)
    {
      Slot(Velocity, velocityOutIdx)
    }
  }
}

=== FILE: wrappers.dfy ===
/** Optional values. */
module Wrappers {

  datatype Option<T> = None | Some(value: T)
}
